=== FILE: README.md ===
# LoL custom-match skill balancing, modelled in Dafny

The system takes a roster of League of Legends players and fetches each
player's recent matches, rank entries and champion masteries from the Riot
API. From those it builds a skill score per player and splits the roster
into two teams. It has two Go entry points that carry near-identical copies
of the core:

- the web app, `backend/cmd/app/main.go`;
- the command-line tool, `backend/cmd/main.go`. Its roster is a list written
  into the source, which as shipped holds a single player.

Two further team balancers exist: `BalanceTeams` in `backend/skill/model.go`
and `balance_teams` in `ml/team_balance_model.py`.

This project models that core as pure Dafny functions over immutable data
and proves properties about it:

- **Rank scale** (`Rank`): `rankScore` and `scoreToRank` with Go's
  truncating division, plus the Python `tier_to_int` and `rank_to_int`.
- **Sliding-window limiter** (`Limiter`): `RiotLimiter.Wait`, at most 20
  calls per second and 100 per two minutes, over an explicit clock.
- **Request executor** (`Retry`): both `doRequestWithRetry` loops, driven by
  a script of outcomes. This covers the `Retry-After` header through
  `strings.TrimSpace` and `strconv.Atoi`, the backoff series, SKIP mode and
  the retry bound.
- **Feature aggregation**:
  - `Tally`: the match-details loop, with its queue filter, the `UNKNOWN`
    lane, the champion, lane and ranked counters, and the participant-id set.
  - `Scoring`: current rank, top mastery, the truncated average rank and the
    skill score.
  - `Picks`: main and sub lanes, and the merged champion list.
  - `LaneChamps`: the per-lane champion counter and `getLaneChampions`.
  - `MatchWindow`: the match window.
- **Team balancers**:
  - `Alternate`: the alternating split after sorting.
  - `SkillBalance`: the exact bitmask search with its greedy fallback of
    `skill/model.go`.
  - `PyBalance`: the Python half-size search.
  - `LaneUnique`: the ten-player lane-unique split.
- **Shared building blocks**:
  - `Common`: Go division, sums and a descending insertion sort.
  - `Tally`: counters as bins.
  - `Teams`: sides of a flag mask.
  - `Combos`: combinations in `itertools` order.
  - `Search`: the "keep the first strictly smaller difference" scan.

Go's `sort.Slice` gives no order among equal keys. The model sorts with one
fixed insertion sort. Where the result could depend on tie order, a lemma
shows that it does not: `Alternate.SumsIgnoreTies`,
`Scoring.TopMasteryAnyOrder` and `Scoring.AverageOrderFree`.

Go maps are ranged over in no fixed order, and the model states properties
that hold for every visiting order. Network replies enter as parameters:
`Option` values, where `None` is a failed or undecodable request, and
outcome scripts for the executors. The command-line tool's match-detail
fetches enter as `Tally.CliFetch` instead. It separates a request error,
on which the tool ends the whole run, from a fetch it passes over. Sleeps are returned as values instead of
being taken.

Points where the code behaves differently from what one might assume, all
modelled as the code has them:

- **Alternating split.** The app and the CLI deal the sorted roster out by
  position. They do not give each player to the lighter team. That rule
  belongs to `skill/model.go`'s greedy fallback, which is modelled
  separately. For scores 1500, 1300, 1200 and 1000 the alternating split
  gives 2700 against 2300. `SkillBalance.FourPlayerExample` shows the exact
  search giving 2500 against 2500, with team A = {1300, 1200}.
- **Odd rosters.** `skill/model.go` does not reject an odd roster in exact
  mode; it falls back to greedy (`SkillBalance.FallsBackToGreedy`). Only the
  CLI's alternating split refuses fewer than two players.
- **Retry policy.** In the web app a status other than 200, 404, 429 and
  5xx is retried with backoff like a transport error; it is not terminal.
  The backoff doubles while below 30 s, so it reaches 32 s.
  - In the CLI a 429 counts against `maxRetry`, and `Retry-After` is
    ignored.
  - The CLI sleeps after its last attempt too.
- **Lane-unique split.** The code builds team B from the remaining
  recursion list, not from all players outside team A; see Findings.

## Model

| member | source | states |
|---|---|---|
| Rank.TierIndex | backend/cmd/app/main.go:30-33 | The tier map gives 1..10 for exactly the ten tier names, each at its own position, and 0 for any other name |
| Rank.DivisionIndex | backend/cmd/app/main.go:35 | The division map gives 1..4 for IV..I and 0 for any other name |
| Rank.TierName | backend/cmd/app/main.go:34 | The reverse tier map names tier i for 1..10 and gives "" outside that range |
| Rank.DivisionName | backend/cmd/app/main.go:36 | The reverse division map names 1..4 and gives "" outside that range |
| Rank.RankRoundTrip | backend/cmd/app/main.go:38-48 | `scoreToRank(rankScore(t, d, lp))` returns (t, d, lp) for every known tier and division and LP 0..99 |
| Rank.ScoreRoundTrip | backend/cmd/app/main.go:43-48 | Every score in 0..3999 decodes to a valid rank that encodes back to the same score |
| Rank.RankScoreRange | backend/cmd/app/main.go:38-42 | Valid ranks score from 0 to 3999 |
| Rank.RankScoreStrictlyIncreasing | backend/cmd/app/main.go:38-42 | The score is strictly increasing in (tier, division, LP) taken lexicographically |
| Rank.GoldTwoFifty | backend/cmd/main.go:55-69 | GOLD II 50 scores 1450, and 1450 decodes to GOLD II 50 |
| Rank.UnknownNamesScoreNegative | backend/cmd/app/main.go:38-42 | With an unknown tier and division, both map lookups read 0 and the score is LP - 500 |
| Rank.UpperOf | ml/team_balance_model.py:45 | `str.upper` maps a character to all-ASCII text exactly when it is ASCII or one of ß, ı, ſ and the ligatures U+FB00..U+FB06, which become SS, I, S and their letter pairs and triples |
| Rank.PyUpperAscii | ml/team_balance_model.py:45 | On ASCII text, upper-casing changes a..z to A..Z, one character for one, and nothing else |
| Rank.PyUpperKeepsForeign | ml/team_balance_model.py:45 | Any other non-ASCII character survives into the upper-cased text |
| Rank.PyTierToIntSpec | ml/team_balance_model.py:31-45 | A missing or empty tier reads 0; a non-empty one is accepted exactly when its `str.upper` form is a tier name |
| Rank.PyTierToIntName | ml/team_balance_model.py:45 | A positive result is the one-based position of the `str.upper` form of the name |
| Rank.PyTierFoldedNames | ml/team_balance_model.py:45 | "ıron" reads 1, "ſilver" reads 3 and "maﬆer" reads 8, as their upper case is plain ASCII |
| Rank.PyTierForeignRaises | ml/team_balance_model.py:45 | A name holding any other non-ASCII character raises `ValueError` |
| Rank.PyTierCaseInsensitive | ml/team_balance_model.py:45 | "gold" reads 4 and "Diamond" reads 7 |
| Rank.PyTierUnknownRaises | ml/team_balance_model.py:45 | A non-empty name off the scale raises `ValueError` |
| Rank.PyTierWoodRaises | ml/team_balance_model.py:45 | "WOOD", a name off the scale, raises `ValueError` |
| Rank.PyRankToInt | ml/team_balance_model.py:48-50 | IV..I read 1..4 at their positions; anything else, a missing value included, reads 0 |
| Limiter.PruneSpec | backend/cmd/app/main.go:58-65 | Pruning keeps a suffix of the log: it drops exactly the leading entries strictly before the cutoff and stops at the first entry that is not |
| Limiter.WaitFor | backend/cmd/app/main.go:71-84 | The wait for one log is never negative. It is positive only when the log is at its cap, and then it equals the time until the oldest entry leaves the window |
| Limiter.Attempt | backend/cmd/app/main.go:56-91 | A pass admits exactly when both pruned logs are under their caps, and then appends now to both. Otherwise it keeps the pruned logs and sleeps for the largest of 10 ms and the two logs' waits |
| Limiter.LogsShape | backend/cmd/app/main.go:58-68 | Both logs stay ascending, and the one-second log is a suffix of the two-minute log |
| Limiter.AttemptPreserves | backend/cmd/app/main.go:55-93 | A pass at a time no earlier than the previous one keeps the limiter invariant. An admission leaves at most 20 admissions in the second ending at it and at most 100 in the two minutes |
| Limiter.SlidingWindows | backend/cmd/app/main.go:55-93 | Over a history whose every admission respected the caps, any closed one-second window holds at most 20 admissions and any closed two-minute window at most 100 |
| Limiter.FreshLimiterNeverExceeds | backend/cmd/app/main.go:55-93 | Starting from an empty limiter under a non-decreasing clock, no one-second window ever holds more than 20 admissions and no two-minute window more than 100 |
| Limiter.WaitTimeAccounts | backend/cmd/app/main.go:55-93 | With exact sleeps, a waiting caller is admitted at its start time plus the sum of its sleeps, and every sleep is at least 10 ms |
| Limiter.WaitAdmitsWithinThreePasses | backend/cmd/app/main.go:71-92 | From any state whose logs are within their caps, a waiting caller is admitted on the third pass at the latest, after at most two sleeps |
| Retry.TrimSpaceSpec | backend/cmd/app/main.go:114 | Trimming keeps one contiguous piece of the header and removes only white space, leaving none at either end |
| Retry.TrimSpaceIdempotent | backend/cmd/app/main.go:114 | Trimming twice is trimming once |
| Retry.Atoi | backend/cmd/app/main.go:118 | A parsed value lies in the 64-bit range |
| Retry.AtoiItoa | backend/cmd/app/main.go:118 | `Atoi` reads back every 64-bit integer that `Itoa` writes |
| Retry.RetryAfterWhole | backend/cmd/app/main.go:113-124 | The sleep after a 429 is never zero: either whole seconds from the header or the two-second default |
| Retry.RetryAfterSeconds | backend/cmd/app/main.go:114-124 | A header holding the integer v, padded with white space or not, sleeps v seconds; 0 falls back to two seconds |
| Retry.RetryAfterFallback | backend/cmd/app/main.go:114-124 | A missing header, a non-numeric one and " 0 " all sleep two seconds |
| Retry.FirstAppStop | backend/cmd/app/main.go:101-156 | The web executor stops at the first outcome that is 200 or 404, or a 5xx or other failure once `tries` reaches a positive `maxRetry`, or any failure in SKIP mode |
| Retry.AppReplySpec | backend/cmd/app/main.go:101-158 | The executor replies with what the first stopping outcome calls for, carrying the last status seen, after exactly that many attempts, and is still going if no outcome stops it |
| Retry.BackoffStep | backend/cmd/app/main.go:139-142 | The backoff series is 1, 2, 4, 8, 16 and 32 s, then stays at 32 s |
| Retry.AppPausesSpec | backend/cmd/app/main.go:113-156 | Every outcome before the stopping one is followed by one sleep: the `Retry-After` sleep after a 429, otherwise the next backoff in the series |
| Retry.AppSpec | backend/cmd/app/main.go:96-159 | The whole web executor: its reply, its attempt count and every sleep, position by position, in terms of the outcome script |
| Retry.AppSleeps | backend/cmd/app/main.go:96-159 | One sleep per attempt before the stopping one, each as `AppPause` prescribes |
| Retry.AppDelivers | backend/cmd/app/main.go:105-112 | A 200 or a 404 comes back at once with no sleep, and these are the only responses delivered |
| Retry.AppSkipNeverWaits | backend/cmd/app/main.go:125-147 | In SKIP mode the first failure of any kind returns `(nil, nil)` with no sleep and no error |
| Retry.AppFailsOnlyAtBound | backend/cmd/app/main.go:136-158 | An error is returned only once `tries` has reached a positive `maxRetry`, only after a failure other than 200, 404 or 429, and it carries the last status seen. With `maxRetry <= 0` and no SKIP the executor never fails |
| Retry.AppBackoffBounded | backend/cmd/app/main.go:139-142 | Every backoff sleep lies between 1 s and 32 s |
| Retry.AppRateLimitExample | backend/cmd/app/main.go:113-130 | A 429 with `Retry-After: 1`, a 429 without it, then a 200: sleeps of one and two seconds, then the response |
| Retry.AppServerErrorExample | backend/cmd/app/main.go:131-144 | Three 500s with `maxRetry = 3` sleep one and two seconds, then fail with status 500 |
| Retry.FirstCliStop | backend/cmd/main.go:86-106 | The command-line executor returns inside its loop at the first 200 or 404, or at the first 429 or 5xx in SKIP mode |
| Retry.CliStopsEarly | backend/cmd/main.go:86-106 | When such an outcome comes within the remaining attempts, the executor returns its reply after exactly that many attempts |
| Retry.CliExhausts | backend/cmd/main.go:86-114 | Otherwise it makes exactly `maxRetry` attempts and replies `(nil, nil)` in SKIP mode, else the error with the last status |
| Retry.CliRunsOut | backend/cmd/main.go:86-109 | A script that ends before either happens leaves the loop still going |
| Retry.CliPausesSpec | backend/cmd/main.go:97-109 | Every attempt that does not end the run is followed by one sleep, of the first wait doubled once per earlier 429 or 5xx |
| Retry.CliSpec | backend/cmd/main.go:78-115 | The whole command-line executor: its reply, its attempt count (at most `maxRetry`) and every sleep, in terms of the outcome script |
| Retry.CliSleeps | backend/cmd/main.go:97-109 | Sleeps number the attempts that do not return, and the j-th is one second doubled once per earlier 429 or 5xx |
| Retry.CliSkipNeverFails | backend/cmd/main.go:97-113 | SKIP mode never yields the error, whether it stops early or runs out of attempts |
| Retry.CliNoAttempts | backend/cmd/main.go:86-114 | `maxRetry <= 0` makes no attempt and fails with status 0 (or returns `(nil, nil)` in SKIP mode) |
| Retry.CliRateLimitExample | backend/cmd/main.go:97-109 | The CLI ignores `Retry-After`: the rate-limit script sleeps one, then two seconds |
| Retry.CliServerErrorExample | backend/cmd/main.go:97-114 | Three 500s with `maxRetry = 3` sleep 1, 2 and 4 s (including after the last attempt), then fail with status 500 |
| Retry.CliForbiddenExample | backend/cmd/main.go:86-114 | A 403 and a transport error sleep without doubling the wait, while a 500 doubles it |
| Tally.Bump | backend/cmd/app/main.go:254 | `m[k]++` raises the count of k by one and leaves every other count unchanged |
| Tally.BumpKeys | backend/cmd/app/main.go:254 | Bumping adds no key but k, keeps keys distinct and keeps counts positive |
| Tally.HistogramSpec | backend/cmd/app/main.go:254-257 | A counter built from nothing holds, for every key, its occurrence count, with each key that occurs once and only keys that occur |
| Tally.AddAll | backend/cmd/app/main.go:252 | The id set holds exactly the old ids and the added ones, without repeats |
| Tally.LaneOf | backend/cmd/app/main.go:255-256 | An empty team position reads as "UNKNOWN"; any other position is kept |
| Tally.TalliedQueues | backend/cmd/app/main.go:249-250 | Exactly queues 400, 430 and 420 are counted |
| Tally.TallyChampions | backend/cmd/app/main.go:239-263 | The champion counter is the histogram of the champions of the player's own rows in counted matches |
| Tally.TallyLanes | backend/cmd/app/main.go:239-263 | The lane counter is the histogram of those rows' lanes |
| Tally.TallyRanked | backend/cmd/app/main.go:260 | The ranked counters count the player's own rows in counted queue-420 matches, and the wins among them |
| Tally.TallyIds | backend/cmd/app/main.go:251-252 | With collection on, the id set is every participant id of a counted match in first-seen order; with it off, nothing is collected |
| Tally.CountersCount | backend/cmd/app/main.go:239-263 | Looking up a lane or champion gives its occurrence count among the player's own counted rows. The counters have distinct keys and positive counts, and no lane is "" |
| Tally.RankedBounds | backend/cmd/app/main.go:260 | Ranked wins never exceed ranked games, which never exceed own rows, which never exceed matches when the player appears at most once per match |
| Tally.IdsFromCountedMatches | backend/cmd/app/main.go:239-263 | The id set holds each participant id of a counted match exactly once, and nothing from a skipped queue or a failed fetch |
| Tally.CliTallySpec | backend/cmd/main.go:209-275 | The CLI's first details pass ends the run (`log.Fatalf`) exactly when some detail fetch errors. Otherwise it yields the web app's tally over the same matches, with the passed-over fetches skipped and no ids collected |
| Tally.SkippedMatchIgnored | backend/cmd/app/main.go:245-250 | A match from a skipped queue, or one whose fetch failed, changes nothing |
| Scoring.FirstSolo | backend/cmd/app/main.go:270-277 | The position of the first solo-queue entry, or -1 exactly when there is none |
| Scoring.SoloScoreFirst | backend/cmd/main.go:548-554 | The entry scan finds a score exactly when a solo-queue entry exists, and it is the first such entry's |
| Scoring.CurrentRankScore | backend/cmd/app/main.go:270-277 | The current rank score is the first solo entry's score, or 0 when the lookup failed or there is no solo entry |
| Scoring.TopMasteryOf | backend/cmd/app/main.go:284-292 | A failed mastery lookup leaves `topMastery` at 0 |
| Scoring.TopMasteryAnyOrder | backend/cmd/main.go:561-569 | `topMastery` is the sum of the first three of ANY descending arrangement of the masteries, so tie order does not matter |
| Scoring.TopMasteryFew | backend/cmd/main.go:561-569 | With three masteries or fewer, all are added |
| Scoring.TopMasteryChoosesLargest | backend/cmd/app/main.go:284-292 | Each chosen mastery has at least the points of any one left out |
| Scoring.AverageTruncates | backend/cmd/app/main.go:356-357 | The average is 0 with no scores, otherwise the mean truncated toward zero |
| Scoring.TotalRankScore | backend/cmd/main.go:474-537 | The loop's total and count are the sum and number of the solo scores found, one at most per id |
| Scoring.AverageRankScore | backend/cmd/main.go:556-559 | `avgRankScore` is the truncated mean of the scores found, or 0 |
| Scoring.ScoresPermutation | backend/cmd/app/main.go:337-355 | The scores found do not depend on the order the id set is ranged over |
| Scoring.AverageOrderFree | backend/cmd/app/main.go:337-357 | Hence the average rank score does not depend on that order either |
| Scoring.AverageWithin | backend/cmd/app/main.go:356-357 | The average lies between the least and the greatest score |
| Scoring.AverageIsARank | backend/cmd/main.go:531-533 | When every score found is a valid rank's, the average decodes to a valid rank |
| Scoring.SkillMonotone | backend/cmd/app/main.go:359 | The skill score never drops when any of its three inputs rises |
| Scoring.SkillOfNonNegativeMastery | backend/cmd/app/main.go:359 | For non-negative mastery, the skill score is twice the current rank plus the average plus one point per whole thousand mastery points |
| Picks.ChooseLanes | backend/cmd/app/main.go:295-301 | Two main lanes and up to two sub lanes, fewer when fewer lanes were played |
| Picks.ChooseLanesSorted | backend/cmd/main.go:575-591 | The lanes chosen are, in order, the keys of the first bins of the descending lane counter |
| Picks.ChooseLanesDistinct | backend/cmd/app/main.go:295-301 | Main and sub lanes are distinct lanes the player was counted in |
| Picks.ChooseLanesMain | backend/cmd/app/main.go:295-300 | Each main lane was played at least as often as any lane left out of them |
| Picks.ChooseLanesSub | backend/cmd/app/main.go:301 | Each sub lane was played at least as often as any lane chosen for neither list, and no more often than a main lane |
| Picks.AddNamesShape | backend/cmd/app/main.go:316-333 | The merging loop extends the list with new, non-empty names from its input, never past the cap, and keeps names distinct |
| Picks.AddNamesComplete | backend/cmd/app/main.go:316-333 | If fewer than the cap are kept, every non-empty input name was kept |
| Picks.AppMainChampsSpec | backend/cmd/app/main.go:304-334 | At most six distinct non-empty names: up to three mastery names first, then names of champions played. Nothing is missed while below a cap |
| Picks.CliAddNamesShape | backend/cmd/main.go:593-638 | The CLI loop adds new, known names, never past the cap; when it ends below the cap or the names fit, every known name was added |
| Picks.CliMainChampsSpec | backend/cmd/main.go:593-638 | At most six distinct names, none empty or unknown: first, as a prefix, the names from the three top masteries, then names from the three most played champions. While below six, every such name is present |
| LaneChamps.LaneChampTallySpec | backend/cmd/app/main.go:258-259 | A lane's champion counter is the histogram of the champions of the rows played in that lane |
| LaneChamps.InLaneCount | backend/cmd/app/main.go:255-259 | A lane has as many rows as the lane counter records for it |
| LaneChamps.LaneChampCounts | backend/cmd/app/main.go:233-263 | After the details loop a lane's counter gives, per champion, the player's counted games in that lane on it. Its keys are distinct, its counts positive, and its total equals the lane counter's entry |
| LaneChamps.LaneNeverPlayed | backend/cmd/app/main.go:258-259 | A lane never played has an empty counter |
| LaneChamps.AppLaneChampionsSpec | backend/cmd/app/main.go:361-378 | At most three distinct non-empty names: the lane's champions first, then mastered ones. Nothing is missed while below three |
| LaneChamps.CliLaneChampionsSpec | backend/cmd/main.go:697-738 | At most three distinct known names: first, as a prefix, those of the lane's three most played champions, then mastered ones. Every known top-three name is present, and while below three, every known mastered one |
| Alternate.Deal | backend/cmd/app/main.go:401-408 | Even positions go to team A and odd ones to team B, in order |
| Alternate.Split | backend/cmd/main.go:772-786 | The loop deals the roster, sorted highest first, and each team's sum is the sum of its members' scores |
| Alternate.CliSplit | backend/cmd/main.go:767-786 | The CLI refuses exactly rosters of fewer than two; otherwise both teams are non-empty and carry their sums |
| Alternate.DealPartition | backend/cmd/app/main.go:401-408 | Every player lands on exactly one team |
| Alternate.DealBalanced | backend/cmd/app/main.go:401-408 | With non-negative scores sorted highest first, team A's sum is at least team B's and exceeds it by at most the best score |
| Alternate.SumsIgnoreTies | backend/cmd/app/main.go:401-408 | Any highest-first arrangement of the roster gives the same two sums |
| Teams.SidePartition | ml/team_balance_model.py:291-292 | The two sides hold every player exactly once, with one player in team A per set flag |
| Teams.SideSums | ml/team_balance_model.py:286-287 | The two sides' score sums add up to the roster's |
| Teams.MaskOf | ml/team_balance_model.py:284-285 | `team1[list(r)] = True` sets exactly the flags of the members of r |
| Teams.Bits | backend/skill/model.go:123 | Flag i is bit i of the mask |
| Combos.ChooseShape | ml/team_balance_model.py:283 | Every combination has k increasing elements drawn from the input |
| Combos.ChooseComplete | ml/team_balance_model.py:283 | Every increasing k-sequence drawn from the input is among the combinations |
| Combos.ChooseSorted | ml/team_balance_model.py:283 | Combinations come out in lexicographic order |
| Search.ScanSpec | ml/team_balance_model.py:289-293 | The strict-less scan keeps exactly the first candidate of least cost, and keeps nothing only when no feasible candidate beats the bound |
| Search.ScanUnbounded | ml/team_balance_model.py:277-293 | Starting from infinity, the scan keeps something exactly when some candidate is feasible |
| PyBalance.BalanceNeverFails | ml/team_balance_model.py:294 | The final assertion never fires, even for an empty roster |
| PyBalance.SplitShape | ml/team_balance_model.py:283-293 | A candidate puts n // 2 named players in team A and the rest in B, each player once |
| PyBalance.BalanceOptimal | ml/team_balance_model.py:273-295 | The result is the split of a half-size combination that no half-size choice beats, and every combination visited before it costs strictly more |
| PyBalance.BalanceEmpty | ml/team_balance_model.py:273-295 | No players give two empty teams |
| PyBalance.PadZerosSpec | ml/team_balance_model.py:187-188 | Padding keeps the list as its prefix and appends zeros up to the wanted length |
| PyBalance.MasteryScoresSpec | ml/team_balance_model.py:181-189 | A non-negative `top_n` gives exactly `top_n` scores, the first ones of the list then zeros; a negative one drops that many from the end |
| SkillBalance.MaskSplitPartition | backend/skill/model.go:119-130 | A mask's teams partition the roster, with team A holding one player per set bit |
| SkillBalance.HalfMaskEqual | backend/skill/model.go:117-144 | For an even roster the lower-half mask gives equal teams, so the exact branch always has a candidate |
| SkillBalance.ExactSpec | backend/skill/model.go:117-144 | For an even roster of 2..10 the answer is an equal-size split with least difference. Every earlier equal-size mask costs strictly more |
| SkillBalance.ExactBalanced | backend/skill/model.go:131-133 | A split the exact branch returns has equal teams that partition the roster |
| SkillBalance.NoUsableExact | backend/skill/model.go:141-143 | For an odd or empty roster the exact branch finds nothing or an empty team A |
| SkillBalance.FallsBackToGreedy | backend/skill/model.go:116-165 | Odd, empty and larger-than-ten rosters are split greedily |
| SkillBalance.GreedyRunSpec | backend/skill/model.go:156-164 | The greedy loop keeps both sums and partitions its input; with scores in 0..bound the sums differ by at most bound |
| SkillBalance.GreedySpec | backend/skill/model.go:145-165 | The greedy split partitions the roster, and with scores in 0..bound its sums differ by at most bound |
| SkillBalance.FourPlayerExample | backend/skill/model.go:113-166 | Scores 1500, 1300, 1200 and 1000 split into {1300, 1200} against {1500, 1000} |
| MatchWindow.Clamp | backend/cmd/app/main.go:229 | The clamp gives the limit when it is positive and fits, otherwise the whole list |
| MatchWindow.AppWindowsAsWritten | backend/cmd/app/main.go:229 | As written, every window stays within its player's list |
| MatchWindow.AsWrittenNeverGrows | backend/cmd/app/main.go:229 | As written, while lists are non-empty each player's window is at most the previous one's |
| MatchWindow.AsWrittenAgreesWhenLimitFits | backend/cmd/app/main.go:229 | When the limit is positive and fits every list, the code does what was intended |
| MatchWindow.ClampLeaks | backend/cmd/app/main.go:229 | With the default limit of 10 and a five-match player first, a twenty-match second player is read for five instead of ten |
| MatchWindow.AppWindows | backend/cmd/app/main.go:229 | The intended window per player is that player's own clamp |
| MatchWindow.AppWindowsSpec | backend/cmd/app/main.go:229 | Each player reads the request's limit of matches, or the whole list when it is shorter or the limit is not positive |
| MatchWindow.CliWindow | backend/cmd/main.go:202-205 | The CLI reads at most ten matches, all of them when there are fewer |
| MatchWindow.CliIdsSpec | backend/cmd/main.go:427-471 | Over the fetches it decodes or passes over, the CLI's id pass gathers each participant id of a decoded match once, in first-seen order |
| MatchWindow.CliIdsRunAgrees | backend/cmd/main.go:434-452 | Fetch by fetch, the CLI's id pass ends the run exactly when some fetch errors; otherwise it equals the pass over the decoded and passed-over fetches |
| MatchWindow.CliIdsRunSpec | backend/cmd/main.go:427-471 | The CLI's id pass ends the run (`log.Fatalf`) exactly when some detail fetch in its window errors; otherwise it gathers each participant id of a decoded match once, in first-seen order |
| MatchWindow.AramCountsOnlyOnTheCommandLine | backend/cmd/main.go:427-471 | The CLI also averages over players met in an ARAM game, which the web app skips |
| LaneUnique.FirstFree | backend/cmd/app/main.go:427 | First fit takes the first listed lane not yet used, and finds none exactly when every listed lane is used |
| LaneUnique.Assign | backend/cmd/app/main.go:425-429 | Successful assignment gives each member one of its own lanes, no two the same and none already taken |
| LaneUnique.AssignSucceeds | backend/cmd/app/main.go:425-429 | First fit succeeds when each member lists at least as many distinct lanes as there are members plus lanes taken |
| LaneUnique.FirstFitCanMiss | backend/cmd/app/main.go:425-429 | First fit is not a matching: it can fail where a valid lane assignment exists |
| LaneUnique.OthersMembers | backend/cmd/app/main.go:432-435 | The `inA` loop keeps exactly the members of `arr` missing from team A |
| LaneUnique.AppOnlyFirstSplit | backend/cmd/app/main.go:412-469 | As written, the app never panics, and any split it reports is players 0..4 against 5..9, with valid lanes and true sums |
| LaneUnique.AssignSingles | backend/cmd/app/main.go:425-429 | First fit gives every member its one listed lane when those lanes differ from each other and from the lanes already taken |
| LaneUnique.AppMissesBalancedSplit | backend/cmd/app/main.go:412-469 | Take ten players with skills 10..1 where player i lists only lane i mod 5. The app reports no lane-unique split, because later leaves with a short team B lower `minDiff` below the first split's 25. The corrected split finds a difference of at most 5 |
| LaneUnique.CliCombPanics | backend/cmd/main.go:951-955 | Without a `len(arr) == 0` guard, the CLI recursion below a leaf always reaches `arr[0]` on an empty list |
| LaneUnique.CliAlwaysPanics | backend/cmd/main.go:839-958 | With ten players the CLI's lane-unique split always panics; otherwise it is skipped |
| LaneUnique.FixedCombFold | backend/cmd/app/main.go:455-460 | The corrected recursion visits team A = acc + c for the combinations c in `itertools` order |
| LaneUnique.FoldScan | backend/cmd/app/main.go:451 | Applying the leaves in order keeps exactly the first feasible leaf of least difference below `1 << 30` |
| LaneUnique.LaneUniqueIsScan | backend/cmd/app/main.go:412-461 | The corrected split is the scan's choice among all 252 candidates |
| LaneUnique.LaneUniquePresent | backend/cmd/app/main.go:412-469 | The corrected split never panics. It reports a split exactly when some candidate gets lanes on both sides with a difference below `1 << 30`, and otherwise reports none |
| LaneUnique.LaneUniqueFound | backend/cmd/app/main.go:421-461 | A reported split is a five-against-five partition whose team B is the complement, with valid lanes, true sums and their difference |
| LaneUnique.LaneUniqueOptimal | backend/cmd/app/main.go:412-469 | No five-player team A with lanes on both sides has a smaller difference |
| LaneUnique.LaneUniqueFirst | backend/cmd/app/main.go:412-469 | Every candidate visited before the reported one has a strictly larger difference |
| LaneUnique.FoundWithin | backend/cmd/app/main.go:412-469 | A feasible candidate of difference k guarantees a reported split of difference at most k |

## Left out

- HTTP, JSON decoding, environment variables, file output, printing, Discord and CORS and logging middleware are left out. Their results enter the model as parameters instead: `Option` replies, outcome scripts and the SKIP flag.
- `time.Now` and `time.Sleep` are not modelled as effects: the clock is a parameter and sleeps are returned as values.
- The limiter runs without concurrency or locks. The web app drives it from one goroutine per request, which is not modelled.
- Limiter.Wait: sleeps last exactly as long as asked, and a `fuel` bound limits the number of passes. Oversleeping is not modelled.
- `backend/cmd/puuid/main.go` is not part of this model; it is a standalone account lookup.
- The feature vectors, `TrainLinear`, `Predict` and the scikit-learn model are not modelled, nor is the Python Riot API client beyond `get_mastery_scores`. Floating-point skills are modelled as integer scores.
- Go's 64-bit integer overflow is not modelled, including `time.Duration(v) * time.Second` for a huge `Retry-After` value and the sums of skill scores.
- The order in which `sort.Slice` leaves equal keys is replaced by one fixed insertion sort. Tie-independence is proved where it matters; the names picked among equally counted champions do depend on tie order and are stated for the model's order.
- Champion names come from Data Dragon, which is modelled as a function parameter `nameOf`.
- The CLI fetches the match details a second time for its per-lane champion counter. The model counts the same matches once, assuming both fetches return the same data.
- The maps from lane to champion list (`mainLaneChamps`, `subLaneChamps`) are not modelled as maps; `getLaneChampions` is modelled per lane.
- The progress counters and time estimates of the CLI are left out; they do not affect control flow.
- The command-line tool stops the whole run with `log.Fatalf` when a rank or mastery lookup fails or answers other than 200, and under SKIP it drops the player with `continue` (backend/cmd/main.go:351-362 and 394-405). Those early exits are not modelled: the scores are those of the web app, which reads 0 for a failed lookup. The same holds for the account and match-list requests (backend/cmd/main.go:143-191): the model starts from a fetched match list. The detail fetches' `log.Fatalf` (backend/cmd/main.go:219-221 and 442-444) is modelled, by `Tally.CliTallyMatches` and `MatchWindow.CliIdsRun`.
- The command-line tool's roster is modelled as a parameter, although the source hard-codes a `players` list of one player (backend/cmd/main.go:125-131). With that list the tool always stops at main.go:767-770 ("two or more players needed"), and its alternating split and lane-unique split run only once the list is edited. The lemmas about those splits cover every roster, the shipped one included (`Alternate.CliSplit` refuses it).
- Rank.UpperOf: only the characters whose upper case is plain ASCII are mapped. Every other non-ASCII character is kept as it is, although Python upper-cases many of them (é to É); a tier lookup cannot tell the two apart, since both still hold a non-ASCII character.
- Retry.RetryAfterSeconds: a negative `Retry-After` gives a negative sleep, which Go's `time.Sleep` treats as no sleep. The model returns the negative value and states nothing further about it.

## Findings

| source | as written | input that shows it | evidently intended | confidence | as-written member | corrected member |
|---|---|---|---|---|---|---|
| backend/cmd/app/main.go:432-451 | At a leaf, team B is built from the remaining recursion list `arr`, which holds only indices after team A's last member. Only team A = 0..4 ever gets five in team B, so only that split can be reported, and leaves with a short team B still lower `minDiff`. | Ten players with skills 10 down to 1, player i having the single main lane TOP, JUNGLE, MIDDLE, BOTTOM, UTILITY in turn by i mod 5 (one main lane is what a player gets who played one lane in every counted match, backend/cmd/app/main.go:300). The app reports no lane-unique split: its last leaf (players 5 to 9 against nobody, difference 15) undercuts the first split's 25. Yet 0, 1, 2, 8, 9 against 3 to 7 gets lanes on both sides, 30 against 25 | Team B is the complement of team A among all ten players | not executed | LaneUnique.AppOnlyFirstSplit, LaneUnique.AppMissesBalancedSplit | LaneUnique.LaneUniqueFound, LaneUnique.LaneUniqueOptimal, LaneUnique.LaneUniqueFirst |
| backend/cmd/main.go:951-955 | The CLI's `comb` has no `len(arr) == 0` guard, so a branch that skips past the end reads `arr[0]` on an empty slice | Any ten-player roster, once the `players` list at backend/cmd/main.go:125-131 is extended to ten (as shipped it holds one player, and the tool stops at main.go:767-770 before any split): the skip branches reach an empty `arr` with `n > 0` | Return when `arr` is empty, as the web app does | not executed | LaneUnique.CliAlwaysPanics | LaneUnique.LaneUniquePresent |
| backend/cmd/app/main.go:229 | The clamp assigns the `matchLimit` parameter, so one player's clamp carries over to every later player | The default `matchLimit` of 10 with a five-match player first and a twenty-match player second: the second is read for five matches instead of ten | Clamp a per-player copy of the limit | not executed | MatchWindow.AppWindowsAsWritten, MatchWindow.ClampLeaks | MatchWindow.AppWindows, MatchWindow.AppWindowsSpec |

=== FILE: alternate.dfy ===
/** The default team split of the app and of the command-line tool: sort
    the players by skill score, highest first, then deal them out in turn,
    even positions to team A and odd positions to team B, adding each
    player's score to that team's sum.

    Go's `sort.Slice` leaves the order of equal scores open; the model sorts
    with `Common.SortDescBy` and `SumsIgnoreTies` shows that the two sums do
    not depend on how ties were broken.
 */
module Alternate {
  import opened Common

  /** One player's record as far as the split reads it. */
  datatype Entry = Entry(name: string, skill: int)

  function Skill(e: Entry): int
  {
    e.skill
  }

  datatype Teams = Teams(teamA: seq<Entry>, teamB: seq<Entry>, sumA: int, sumB: int)

  /** Dealing `s` out in turn, two at a time: the first of each pair to team
      A, the second to team B. */
  function Deal(s: seq<Entry>): (r: (seq<Entry>, seq<Entry>))
    ensures |r.0| == (|s| + 1) / 2 && |r.1| == |s| / 2
    ensures forall k :: 0 <= k < |r.0| ==> r.0[k] == s[2 * k]
    ensures forall k :: 0 <= k < |r.1| ==> r.1[k] == s[2 * k + 1]
    decreases |s|
  {
    if |s| == 0 then ([], [])
    else if |s| == 1 then ([s[0]], [])
    else
      var rest := Deal(s[2..]);
      ([s[0]] + rest.0, [s[1]] + rest.1)
  }

  /** The sorted roster the split deals from. */
  function Ranked(players: seq<Entry>): (r: seq<Entry>)
    ensures SortedDescBy(r, Skill) && multiset(r) == multiset(players)
  {
    SortDescBy(players, Skill)
  }

  /** `a` and `b` hold the even and the odd positions of `s[..i]`, in order. */
  ghost predicate Dealt(s: seq<Entry>, i: int, a: seq<Entry>, b: seq<Entry>)
  {
    && 0 <= i <= |s| && |a| == (i + 1) / 2 && |b| == i / 2
    && (forall k :: 0 <= k < |a| ==> a[k] == s[2 * k])
    && (forall k :: 0 <= k < |b| ==> b[k] == s[2 * k + 1])
  }

  /** The `for i, p := range allPlayerData` loop over the sorted roster. */
  method Split(players: seq<Entry>) returns (t: Teams)
    ensures var s := Ranked(players);
      && |t.teamA| == (|s| + 1) / 2 && |t.teamB| == |s| / 2
      && (forall k :: 0 <= k < |t.teamA| ==> t.teamA[k] == s[2 * k])
      && (forall k :: 0 <= k < |t.teamB| ==> t.teamB[k] == s[2 * k + 1])
    ensures (t.teamA, t.teamB) == Deal(Ranked(players))
    ensures t.sumA == SumBy(t.teamA, Skill) && t.sumB == SumBy(t.teamB, Skill)
  {
    var s := Ranked(players);
    var teamA, teamB := [], [];
    var sumA, sumB := 0, 0;
    var i := 0;
    while i < |s|
      invariant Dealt(s, i, teamA, teamB)
      invariant sumA == SumBy(teamA, Skill) && sumB == SumBy(teamB, Skill)
    {
      DealtStep(s, i, teamA, teamB);
      SumBySingle(s[i], Skill);
      if i % 2 == 0 {
        SumByAppend(teamA, [s[i]], Skill);
        teamA := teamA + [s[i]];
        sumA := sumA + s[i].skill;
      } else {
        SumByAppend(teamB, [s[i]], Skill);
        teamB := teamB + [s[i]];
        sumB := sumB + s[i].skill;
      }
      i := i + 1;
    }
    DealUnique(s, teamA, teamB);
    t := Teams(teamA, teamB, sumA, sumB);
  }

  /** One pass of the loop: position `i` goes to team A when even, to team B
      when odd. */
  lemma DealtStep(s: seq<Entry>, i: int, a: seq<Entry>, b: seq<Entry>)
    requires Dealt(s, i, a, b) && i < |s|
    ensures i % 2 == 0 ==> Dealt(s, i + 1, a + [s[i]], b)
    ensures i % 2 == 1 ==> Dealt(s, i + 1, a, b + [s[i]])
  {
    if i % 2 == 0 {
      var a' := a + [s[i]];
      forall k | 0 <= k < |a'|
        ensures a'[k] == s[2 * k]
      {
        if k < |a| {
          assert a'[k] == a[k];
        }
      }
    } else {
      var b' := b + [s[i]];
      forall k | 0 <= k < |b'|
        ensures b'[k] == s[2 * k + 1]
      {
        if k < |b| {
          assert b'[k] == b[k];
        }
      }
    }
  }

  /** The command-line tool refuses to split fewer than two players; the
      app splits whatever it has. */
  method CliSplit(players: seq<Entry>) returns (t: Option<Teams>)
    ensures t.None? <==> |players| < 2
    ensures t.Some? ==> |t.value.teamA| >= 1 && |t.value.teamB| >= 1
    ensures t.Some? ==> t.value.sumA == SumBy(t.value.teamA, Skill) && t.value.sumB == SumBy(t.value.teamB, Skill)
  {
    if |players| < 2 {
      return None;
    }
    var r := Split(players);
    t := Some(r);
  }

  /** Dealing is the only way to put every even position in team A and
      every odd one in team B, in order. */
  lemma {:induction false} DealUnique(s: seq<Entry>, a: seq<Entry>, b: seq<Entry>)
    requires |a| == (|s| + 1) / 2 && |b| == |s| / 2
    requires forall k :: 0 <= k < |a| ==> a[k] == s[2 * k]
    requires forall k :: 0 <= k < |b| ==> b[k] == s[2 * k + 1]
    ensures (a, b) == Deal(s)
    decreases |s|
  {
    if |s| >= 2 {
      var s', a', b' := s[2..], a[1..], b[1..];
      forall k | 0 <= k < |a'|
        ensures a'[k] == s'[2 * k]
      {
        assert a'[k] == a[k + 1] == s[2 * (k + 1)];
      }
      forall k | 0 <= k < |b'|
        ensures b'[k] == s'[2 * k + 1]
      {
        assert b'[k] == b[k + 1] == s[2 * (k + 1) + 1];
      }
      DealUnique(s', a', b');
      assert a == [a[0]] + a' && b == [b[0]] + b';
    } else if |s| == 1 {
      assert a == [s[0]];
    }
  }

  /** Every player lands on exactly one team. */
  lemma {:induction false} DealPartition(s: seq<Entry>)
    ensures multiset(Deal(s).0) + multiset(Deal(s).1) == multiset(s)
    decreases |s|
  {
    if |s| >= 2 {
      DealPartition(s[2..]);
      assert s == [s[0]] + [s[1]] + s[2..];
    }
  }

  /** With scores sorted highest first and none negative, team A's sum is
      never below team B's and exceeds it by at most the best score. */
  lemma {:induction false} DealBalanced(s: seq<Entry>)
    requires SortedDescBy(s, Skill)
    requires forall k :: 0 <= k < |s| ==> s[k].skill >= 0
    ensures var d := SumBy(Deal(s).0, Skill) - SumBy(Deal(s).1, Skill);
      0 <= d <= (if |s| == 0 then 0 else s[0].skill)
    decreases |s|
  {
    if |s| >= 2 {
      var rest := s[2..];
      assert SortedDescBy(rest, Skill) by {
        forall i, j | 0 <= i < j < |rest|
          ensures rest[i].skill >= rest[j].skill
        {
          assert rest[i] == s[i + 2] && rest[j] == s[j + 2];
        }
      }
      DealBalanced(rest);
      assert |rest| > 0 ==> rest[0].skill <= s[1].skill;
      var r := Deal(rest);
      SumBySingle(s[0], Skill);
      SumBySingle(s[1], Skill);
      SumByAppend([s[0]], r.0, Skill);
      SumByAppend([s[1]], r.1, Skill);
    } else if |s| == 1 {
      SumBySingle(s[0], Skill);
    }
  }

  /** Dealing depends on the scores only through their order: two rosters
      with the same scores position by position give the same sums. */
  lemma {:induction false} DealSumsByKeys(s: seq<Entry>, t: seq<Entry>)
    requires Keys(s, Skill) == Keys(t, Skill)
    ensures SumBy(Deal(s).0, Skill) == SumBy(Deal(t).0, Skill)
    ensures SumBy(Deal(s).1, Skill) == SumBy(Deal(t).1, Skill)
    decreases |s|
  {
    assert |s| == |Keys(s, Skill)| == |t|;
    if |s| >= 2 {
      assert Keys(s[2..], Skill) == Keys(s, Skill)[2..];
      assert Keys(t[2..], Skill) == Keys(t, Skill)[2..];
      assert Skill(s[0]) == Keys(s, Skill)[0] && Skill(s[1]) == Keys(s, Skill)[1];
      assert Skill(t[0]) == Keys(t, Skill)[0] && Skill(t[1]) == Keys(t, Skill)[1];
      DealSumsByKeys(s[2..], t[2..]);
      SumBySingle(s[0], Skill);
      SumBySingle(s[1], Skill);
      SumBySingle(t[0], Skill);
      SumBySingle(t[1], Skill);
      SumByAppend([s[0]], Deal(s[2..]).0, Skill);
      SumByAppend([s[1]], Deal(s[2..]).1, Skill);
      SumByAppend([t[0]], Deal(t[2..]).0, Skill);
      SumByAppend([t[1]], Deal(t[2..]).1, Skill);
    } else if |s| == 1 {
      assert Skill(s[0]) == Keys(s, Skill)[0] && Skill(t[0]) == Keys(t, Skill)[0];
      SumBySingle(s[0], Skill);
      SumBySingle(t[0], Skill);
    }
  }

  /** Whichever order `sort.Slice` gives equal scores, dealing any
      highest-first arrangement of the players gives the sums `Split`
      reports. */
  lemma SumsIgnoreTies(players: seq<Entry>, other: seq<Entry>)
    requires SortedDescBy(other, Skill) && multiset(other) == multiset(players)
    ensures SumBy(Deal(other).0, Skill) == SumBy(Deal(Ranked(players)).0, Skill)
    ensures SumBy(Deal(other).1, Skill) == SumBy(Deal(Ranked(players)).1, Skill)
  {
    var s := Ranked(players);
    KeysPermutation(other, s, Skill);
    SortedByKeys(other, Skill);
    SortedByKeys(s, Skill);
    SortedPermutationUnique(Keys(other, Skill), Keys(s, Skill));
    DealSumsByKeys(other, s);
  }
}

=== FILE: combos.dfy ===
/** Index combinations in the order a depth-first "take the head, then
    skip it" recursion visits them, which is also the order of Python's
    `itertools.combinations`: lexicographic in the positions.
 */
module Combos {

  /** The integers `lo, lo + 1, ..., hi - 1`. */
  function Range(lo: int, hi: int): (r: seq<int>)
    ensures |r| == if lo <= hi then hi - lo else 0
    ensures forall i :: 0 <= i < |r| ==> r[i] == lo + i
    decreases hi - lo
  {
    if lo >= hi then [] else [lo] + Range(lo + 1, hi)
  }

  ghost predicate Increasing(s: seq<int>)
  {
    forall i, j :: 0 <= i < j < |s| ==> s[i] < s[j]
  }

  /** A range is increasing and holds exactly the integers in it. */
  lemma RangeIncreasing(lo: int, hi: int)
    ensures Increasing(Range(lo, hi))
    ensures forall x :: x in Range(lo, hi) <==> lo <= x < hi
  {
    var r := Range(lo, hi);
    forall x | lo <= x < hi
      ensures x in r
    {
      assert r[x - lo] == x;
    }
  }

  /** `[x] + c` for every `c` of `cs`, in order. */
  function Prepend(x: int, cs: seq<seq<int>>): (r: seq<seq<int>>)
    ensures |r| == |cs|
  {
    seq(|cs|, i requires 0 <= i < |cs| => [x] + cs[i])
  }

  /** The `k`-element combinations of `arr`, head-first. */
  function Choose(arr: seq<int>, k: int): seq<seq<int>>
    decreases |arr|
  {
    if k == 0 then [[]]
    else if |arr| == 0 then []
    else Prepend(arr[0], Choose(arr[1..], k - 1)) + Choose(arr[1..], k)
  }

  /** `a` comes before `b` in lexicographic order. */
  ghost predicate LexLess(a: seq<int>, b: seq<int>)
  {
    exists p :: 0 <= p < |a| && p < |b| && a[..p] == b[..p] && a[p] < b[p]
  }

  /** Every member of `a` comes before every member of `b`. */
  ghost predicate AllBefore(a: seq<seq<int>>, b: seq<seq<int>>)
  {
    forall i, j :: 0 <= i < |a| && 0 <= j < |b| ==> LexLess(a[i], b[j])
  }

  ghost predicate LexSorted(cs: seq<seq<int>>)
  {
    forall i, j :: 0 <= i < j < |cs| ==> LexLess(cs[i], cs[j])
  }

  /** Combinations of `k` elements from `t`, each preceded by `x`, which is
      below every element of `t`. */
  lemma PrependShape(x: int, cs: seq<seq<int>>, t: seq<int>, k: int)
    requires forall c :: c in cs ==> |c| == k && Increasing(c) && (forall y :: y in c ==> y in t)
    requires forall y :: y in t ==> x < y
    ensures forall c :: c in Prepend(x, cs) ==>
      |c| == k + 1 && Increasing(c) && (forall y :: y in c ==> y == x || y in t)
  {
    forall c | c in Prepend(x, cs)
      ensures |c| == k + 1 && Increasing(c) && (forall y :: y in c ==> y == x || y in t)
    {
      var i :| 0 <= i < |cs| && c == Prepend(x, cs)[i];
      var d := cs[i];
      assert d in cs;
      assert c == [x] + d;
      forall p, q | 0 <= p < q < |c|
        ensures c[p] < c[q]
      {
        assert c[q] == d[q - 1];
        assert d[q - 1] in d;
        if p > 0 {
          assert c[p] == d[p - 1];
        }
      }
    }
  }

  /** Every combination has `k` elements, drawn in order from `arr`. */
  lemma {:induction false} ChooseShape(arr: seq<int>, k: int)
    requires Increasing(arr) && k >= 0
    ensures forall c :: c in Choose(arr, k) ==>
      |c| == k && Increasing(c) && (forall x :: x in c ==> x in arr)
    decreases |arr|
  {
    if k != 0 && |arr| > 0 {
      var t := arr[1..];
      var left, right := Prepend(arr[0], Choose(t, k - 1)), Choose(t, k);
      assert Choose(arr, k) == left + right;
      ChooseShape(t, k - 1);
      ChooseShape(t, k);
      HeadBelowTail(arr);
      PrependShape(arr[0], Choose(t, k - 1), t, k - 1);
      forall c | c in left + right
        ensures |c| == k && Increasing(c) && (forall x :: x in c ==> x in arr)
      {
        assert c in left || c in right;
        assert forall x :: x in t ==> x in arr;
      }
    }
  }

  /** The head of an increasing sequence is below everything after it. */
  lemma HeadBelowTail(arr: seq<int>)
    requires Increasing(arr) && |arr| > 0
    ensures forall y :: y in arr[1..] ==> arr[0] < y
  {
    forall y | y in arr[1..]
      ensures arr[0] < y
    {
      var m :| 0 <= m < |arr[1..]| && arr[1..][m] == y;
      assert arr[m + 1] == y;
    }
  }

  /** Every combination draws its members from `arr`, whatever its order. */
  lemma {:induction false} ChooseWithin(arr: seq<int>, k: int)
    ensures forall c, x :: c in Choose(arr, k) && x in c ==> x in arr
    decreases |arr|
  {
    if k != 0 && |arr| > 0 {
      var t := arr[1..];
      ChooseWithin(t, k - 1);
      ChooseWithin(t, k);
      forall c, x | c in Prepend(arr[0], Choose(t, k - 1)) && x in c
        ensures x in arr
      {
        var i :| 0 <= i < |Choose(t, k - 1)| && c == Prepend(arr[0], Choose(t, k - 1))[i];
        assert c == [arr[0]] + Choose(t, k - 1)[i];
        assert Choose(t, k - 1)[i] in Choose(t, k - 1);
      }
    }
  }

  /** Every increasing `k`-sequence drawn from `arr` is among the
      combinations. */
  lemma {:induction false} ChooseComplete(arr: seq<int>, k: int, c: seq<int>)
    requires Increasing(arr) && Increasing(c) && |c| == k
    requires forall x :: x in c ==> x in arr
    ensures c in Choose(arr, k)
    decreases |arr|
  {
    if k != 0 {
      assert c[0] in c;
      var t := arr[1..];
      if c[0] == arr[0] {
        forall x | x in c[1..]
          ensures x in t
        {
          var q' :| 0 <= q' < |c[1..]| && c[1..][q'] == x;
          var q := q' + 1;
          assert c[q] == x && x in c;
          var m :| 0 <= m < |arr| && arr[m] == x;
          assert c[0] < c[q];
          assert m != 0;
        }
        ChooseComplete(t, k - 1, c[1..]);
        var i :| 0 <= i < |Choose(t, k - 1)| && Choose(t, k - 1)[i] == c[1..];
        assert Prepend(arr[0], Choose(t, k - 1))[i] == c;
      } else {
        forall x | x in c
          ensures x in t
        {
          var m :| 0 <= m < |arr| && arr[m] == x;
          var m0 :| 0 <= m0 < |arr| && arr[m0] == c[0];
          var q :| 0 <= q < |c| && c[q] == x;
          assert m0 != 0;
          assert c[0] <= x by {
            if q > 0 {
              assert c[0] < c[q];
            }
          }
          assert arr[0] < arr[m0];
          assert m != 0;
          assert t[m - 1] == x;
        }
        ChooseComplete(t, k, c);
      }
    }
  }

  /** A combination list where every member starts with `x`, followed by
      one where every member starts above `x`, stays lexicographic. */
  lemma PrependSorted(x: int, cs: seq<seq<int>>)
    requires LexSorted(cs)
    ensures LexSorted(Prepend(x, cs))
  {
    var r := Prepend(x, cs);
    forall i, j | 0 <= i < j < |r|
      ensures LexLess(r[i], r[j])
    {
      assert LexLess(cs[i], cs[j]);
      var p :| 0 <= p < |cs[i]| && p < |cs[j]| && cs[i][..p] == cs[j][..p] && cs[i][p] < cs[j][p];
      assert r[i][..p + 1] == [x] + cs[i][..p];
      assert r[j][..p + 1] == [x] + cs[j][..p];
      assert r[i][p + 1] == cs[i][p] && r[j][p + 1] == cs[j][p];
    }
  }

  /** Two lexicographic lists, every member of the first before every member
      of the second, concatenate to a lexicographic list. */
  lemma ConcatSorted(a: seq<seq<int>>, b: seq<seq<int>>)
    requires LexSorted(a) && LexSorted(b)
    requires AllBefore(a, b)
    ensures LexSorted(a + b)
  {
    var r := a + b;
    forall i, j | 0 <= i < j < |r|
      ensures LexLess(r[i], r[j])
    {
      if j < |a| {
        assert r[i] == a[i] && r[j] == a[j];
      } else if i >= |a| {
        assert r[i] == b[i - |a|] && r[j] == b[j - |a|];
      } else {
        assert r[i] == a[i] && r[j] == b[j - |a|];
      }
    }
  }

  /** Combinations taking the head come before those skipping it. */
  lemma HeadFirst(arr: seq<int>, k: int)
    requires Increasing(arr) && k > 0 && |arr| > 0
    ensures AllBefore(Prepend(arr[0], Choose(arr[1..], k - 1)), Choose(arr[1..], k))
  {
    var t := arr[1..];
    ChooseShape(t, k);
    var a, b := Prepend(arr[0], Choose(t, k - 1)), Choose(t, k);
    forall i, j | 0 <= i < |a| && 0 <= j < |b|
      ensures LexLess(a[i], b[j])
    {
      assert b[j] in Choose(t, k);
      assert b[j][0] in b[j];
      var m :| 0 <= m < |t| && t[m] == b[j][0];
      assert arr[m + 1] == b[j][0];
      assert a[i][0] == arr[0];
      assert a[i][..0] == b[j][..0];
    }
  }

  /** The combinations come out in lexicographic order, so "the first one
      found" is the lexicographically least. */
  lemma {:induction false} ChooseSorted(arr: seq<int>, k: int)
    requires Increasing(arr) && k >= 0
    ensures LexSorted(Choose(arr, k))
    decreases |arr|
  {
    if k != 0 && |arr| > 0 {
      var t := arr[1..];
      ChooseSorted(t, k - 1);
      ChooseSorted(t, k);
      PrependSorted(arr[0], Choose(t, k - 1));
      HeadFirst(arr, k);
      ConcatSorted(Prepend(arr[0], Choose(t, k - 1)), Choose(t, k));
    }
  }

  /** In a lexicographic list, a member before another sits at a smaller
      position. */
  lemma LexOrderIndex(cs: seq<seq<int>>, j: int, i: int)
    requires LexSorted(cs) && 0 <= j < |cs| && 0 <= i < |cs|
    requires LexLess(cs[j], cs[i])
    ensures j < i
  {
    if i <= j {
      LexIrreflexive(cs[i]);
      assert i < j ==> LexLess(cs[i], cs[j]);
      LexAsymmetric(cs[i], cs[j]);
    }
  }

  lemma LexIrreflexive(a: seq<int>)
    ensures !LexLess(a, a)
  {
  }

  lemma LexAsymmetric(a: seq<int>, b: seq<int>)
    ensures !(LexLess(a, b) && LexLess(b, a))
  {
    PrefixAgree(a, b);
  }

  /** Equal prefixes agree position by position. */
  lemma PrefixAgree(a: seq<int>, b: seq<int>)
    ensures forall p, k :: 0 <= k < p <= |a| && p <= |b| && a[..p] == b[..p] ==> a[k] == b[k]
  {
    forall p, k | 0 <= k < p <= |a| && p <= |b| && a[..p] == b[..p]
      ensures a[k] == b[k]
    {
      assert a[..p][k] == b[..p][k];
    }
  }
}

=== FILE: common.dfy ===
/** Shared vocabulary of the model: an optional value, Go's truncating integer
    division, sums over sequences, and a descending sort by an integer key.

    Go's `sort.Slice` is not stable, so the order among equal keys is
    unspecified in the source. The model uses one deterministic sort and
    states the facts that hold for EVERY descending arrangement through
    `SortedDescBy` and multiset equality.
 */
module Common {

  datatype Option<T> = None | Some(value: T)

  /** Go's `/` on `int`: the quotient is truncated toward zero. */
  function GoDiv(a: int, b: int): (q: int)
    requires b > 0
    ensures a >= 0 ==> 0 <= a - q * b < b
    ensures a < 0 ==> -b < a - q * b <= 0
  {
    if a >= 0 then a / b else -((-a) / b)
  }

  /** Go's `%` on `int`: the remainder has the sign of the dividend. */
  function GoMod(a: int, b: int): (m: int)
    requires b > 0
    ensures GoDiv(a, b) * b + m == a
    ensures a >= 0 ==> 0 <= m < b
    ensures a < 0 ==> -b < m <= 0
  {
    a - GoDiv(a, b) * b
  }

  function Abs(x: int): (r: int)
    ensures r >= 0 && (r == x || r == -x)
  {
    if x < 0 then -x else x
  }

  /** 2 to the power `k` (Go's `1 << k`). */
  function Pow2(k: nat): (p: nat)
    ensures p >= 1
  {
    if k == 0 then 1 else 2 * Pow2(k - 1)
  }

  function Min(a: int, b: int): int
  {
    if a <= b then a else b
  }

  function Max(a: int, b: int): int
  {
    if a >= b then a else b
  }

  /** Sum of the integers in `s`, front to back. */
  function Sum(s: seq<int>): int
  {
    if |s| == 0 then 0 else s[0] + Sum(s[1..])
  }

  /** The keys of `s`, element by element. */
  function Keys<T>(s: seq<T>, key: T -> int): (r: seq<int>)
  {
    seq(|s|, i requires 0 <= i < |s| => key(s[i]))
  }

  /** The name of each element, in order. */
  function NamesOf<T>(xs: seq<T>, name: T -> string): (r: seq<string>)
    ensures |r| == |xs|
  {
    seq(|xs|, i requires 0 <= i < |xs| => name(xs[i]))
  }

  /** Sum of the keys of `s`. */
  function SumBy<T>(s: seq<T>, key: T -> int): int
  {
    Sum(Keys(s, key))
  }

  lemma {:induction false} SumAppend(a: seq<int>, b: seq<int>)
    ensures Sum(a + b) == Sum(a) + Sum(b)
  {
    if |a| == 0 {
      assert a + b == b;
    } else {
      assert (a + b)[1..] == a[1..] + b;
      SumAppend(a[1..], b);
    }
  }

  lemma {:induction false} KeysAppend<T>(a: seq<T>, b: seq<T>, key: T -> int)
    ensures Keys(a + b, key) == Keys(a, key) + Keys(b, key)
  {
  }

  lemma SumByAppend<T>(a: seq<T>, b: seq<T>, key: T -> int)
    ensures SumBy(a + b, key) == SumBy(a, key) + SumBy(b, key)
  {
    KeysAppend(a, b, key);
    SumAppend(Keys(a, key), Keys(b, key));
  }

  /** A single element sums to its own key. */
  lemma SumBySingle<T>(x: T, key: T -> int)
    ensures SumBy([x], key) == key(x)
  {
    var k := Keys([x], key);
    assert k == [key(x)] && k[1..] == [];
    assert Sum(k) == k[0] + Sum(k[1..]);
  }

  /** Removing the element at index `j` takes exactly its value off the sum. */
  lemma {:induction false} SumRemove(s: seq<int>, j: int)
    requires 0 <= j < |s|
    ensures Sum(s) == s[j] + Sum(s[..j] + s[j + 1..])
  {
    SplitAt(s, j);
    SumAppend(s[..j] + [s[j]], s[j + 1..]);
    SumAppend(s[..j], [s[j]]);
    SumAppend(s[..j], s[j + 1..]);
    assert Sum([s[j]]) == s[j] + Sum([]);
  }

  /** A sequence is what lies before index `j`, the element there, and what
      lies after it. */
  lemma SplitAt<T>(s: seq<T>, j: int)
    requires 0 <= j < |s|
    ensures s == s[..j] + [s[j]] + s[j + 1..]
  {
    assert s[..j + 1] == s[..j] + [s[j]];
    assert s == s[..j + 1] + s[j + 1..];
  }

  lemma MultisetRemove<T>(s: seq<T>, j: int)
    requires 0 <= j < |s|
    ensures multiset(s[..j] + s[j + 1..]) == multiset(s) - multiset{s[j]}
  {
    SplitAt(s, j);
    assert multiset(s) == multiset(s[..j]) + multiset{s[j]} + multiset(s[j + 1..]);
  }

  /** The head of `a` sits somewhere in its permutation `b`; what remains on
      either side is again a permutation. */
  lemma PermutationHead<T>(a: seq<T>, b: seq<T>) returns (j: int)
    requires |a| > 0 && multiset(a) == multiset(b)
    ensures 0 <= j < |b| && b[j] == a[0]
    ensures multiset(a[1..]) == multiset(b[..j] + b[j + 1..])
  {
    assert a == [a[0]] + a[1..];
    assert multiset(a[1..]) == multiset(a) - multiset{a[0]};
    j := FindIn(b, a[0]);
    MultisetRemove(b, j);
  }

  /** A position of `x` in `b`, which holds it. */
  lemma {:induction false} FindIn<T>(b: seq<T>, x: T) returns (j: int)
    requires x in multiset(b)
    ensures 0 <= j < |b| && b[j] == x
  {
    assert b == [b[0]] + b[1..];
    if b[0] == x {
      j := 0;
    } else {
      var j' := FindIn(b[1..], x);
      j := j' + 1;
    }
  }

  /** The sum does not depend on the order of the elements. */
  lemma {:induction false} SumPermutation(a: seq<int>, b: seq<int>)
    requires multiset(a) == multiset(b)
    ensures Sum(a) == Sum(b)
    decreases |a|
  {
    if |a| == 0 {
      assert |b| == |multiset(b)| == 0;
    } else {
      var j := PermutationHead(a, b);
      var b' := b[..j] + b[j + 1..];
      SumPermutation(a[1..], b');
      SumRemove(b, j);
    }
  }

  lemma KeysRemove<T>(s: seq<T>, j: int, key: T -> int)
    requires 0 <= j < |s|
    ensures multiset(Keys(s, key)) == multiset(Keys(s[..j] + s[j + 1..], key)) + multiset{key(s[j])}
  {
    var kl, kr := Keys(s[..j], key), Keys(s[j + 1..], key);
    SplitAt(s, j);
    KeysAppend(s[..j] + [s[j]], s[j + 1..], key);
    KeysAppend(s[..j], [s[j]], key);
    assert Keys(s, key) == kl + [key(s[j])] + kr;
    KeysAppend(s[..j], s[j + 1..], key);
    assert Keys(s[..j] + s[j + 1..], key) == kl + kr;
  }

  /** Keys of a permutation are a permutation of the keys. */
  lemma {:induction false} KeysPermutation<T>(a: seq<T>, b: seq<T>, key: T -> int)
    requires multiset(a) == multiset(b)
    ensures multiset(Keys(a, key)) == multiset(Keys(b, key))
    decreases |a|
  {
    if |a| == 0 {
      assert |b| == |multiset(b)| == 0;
    } else {
      var j := PermutationHead(a, b);
      KeysPermutation(a[1..], b[..j] + b[j + 1..], key);
      KeysPermutationStep(a, b, j, key);
    }
  }

  /** The inductive step of `KeysPermutation`: the heads match and the rests
      have the same keys. */
  lemma KeysPermutationStep<T>(a: seq<T>, b: seq<T>, j: int, key: T -> int)
    requires |a| > 0 && 0 <= j < |b| && b[j] == a[0]
    requires multiset(Keys(a[1..], key)) == multiset(Keys(b[..j] + b[j + 1..], key))
    ensures multiset(Keys(a, key)) == multiset(Keys(b, key))
  {
    KeysRemove(b, j, key);
    KeysRemove(a, 0, key);
    assert a[..0] + a[1..] == a[1..];
  }

  lemma SumByPermutation<T>(a: seq<T>, b: seq<T>, key: T -> int)
    requires multiset(a) == multiset(b)
    ensures SumBy(a, key) == SumBy(b, key)
  {
    KeysPermutation(a, b, key);
    SumPermutation(Keys(a, key), Keys(b, key));
  }

  /** `s` is in non-increasing order of `key`. */
  ghost predicate SortedDescBy<T>(s: seq<T>, key: T -> int)
  {
    forall i, j :: 0 <= i < j < |s| ==> key(s[i]) >= key(s[j])
  }

  ghost predicate SortedDesc(s: seq<int>)
  {
    forall i, j :: 0 <= i < j < |s| ==> s[i] >= s[j]
  }

  function InsertDesc<T>(x: T, s: seq<T>, key: T -> int): (r: seq<T>)
    requires SortedDescBy(s, key)
    ensures SortedDescBy(r, key)
    ensures multiset(r) == multiset(s) + multiset{x}
  {
    if |s| == 0 then [x]
    else if key(x) >= key(s[0]) then [x] + s
    else
      var t := InsertDesc(x, s[1..], key);
      assert s == [s[0]] + s[1..];
      assert forall k :: 0 <= k < |s[1..]| ==> key(s[1..][k]) <= key(s[0]);
      AllBelow(t, s[1..], x, key(s[0]), key);
      [s[0]] + t
  }

  /** A rearrangement of `u` plus `x` stays below a bound both respect. */
  lemma AllBelow<T>(t: seq<T>, u: seq<T>, x: T, bound: int, key: T -> int)
    requires multiset(t) == multiset(u) + multiset{x}
    requires key(x) <= bound && forall k :: 0 <= k < |u| ==> key(u[k]) <= bound
    ensures forall k :: 0 <= k < |t| ==> key(t[k]) <= bound
  {
    forall k | 0 <= k < |t|
      ensures key(t[k]) <= bound
    {
      assert t[k] in multiset(t);
      if t[k] != x {
        var i := FindIn(u, t[k]);
      }
    }
  }

  /** A descending arrangement of `s` by `key` (insertion sort). */
  function SortDescBy<T>(s: seq<T>, key: T -> int): (r: seq<T>)
    ensures SortedDescBy(r, key)
    ensures multiset(r) == multiset(s)
  {
    if |s| == 0 then []
    else
      assert s == [s[0]] + s[1..];
      InsertDesc(s[0], SortDescBy(s[1..], key), key)
  }

  /** The tail of a descending sequence is descending, and its head is its
      maximum. */
  lemma SortedTail(a: seq<int>)
    requires |a| > 0 && SortedDesc(a)
    ensures SortedDesc(a[1..])
    ensures forall k :: 0 <= k < |a| ==> a[k] <= a[0]
  {
    assert forall p, q :: 0 <= p < q < |a[1..]| ==> a[1..][p] == a[p + 1] && a[1..][q] == a[q + 1];
  }

  /** Two descending arrangements of the same integers are equal, so any
      quantity read off a prefix of a descending sort is independent of how
      ties were ordered. */
  lemma {:induction false} SortedPermutationUnique(a: seq<int>, b: seq<int>)
    requires SortedDesc(a) && SortedDesc(b)
    requires multiset(a) == multiset(b)
    ensures a == b
    decreases |a|
  {
    if |a| == 0 {
      assert |b| == |multiset(b)| == 0;
    } else {
      assert |b| == |multiset(b)| == |multiset(a)| == |a|;
      SortedTail(a);
      SortedTail(b);
      SortedHeads(a, b);
      MultisetTail(a);
      MultisetTail(b);
      SortedPermutationUnique(a[1..], b[1..]);
      HeadTailEqual(a, b);
    }
  }

  /** Sequences with the same head and the same tail are equal. */
  lemma HeadTailEqual<T>(a: seq<T>, b: seq<T>)
    requires |a| > 0 && |b| > 0 && a[0] == b[0] && a[1..] == b[1..]
    ensures a == b
  {
    assert a == [a[0]] + a[1..];
    assert b == [b[0]] + b[1..];
  }

  /** Two descending arrangements of the same integers start alike. */
  lemma SortedHeads(a: seq<int>, b: seq<int>)
    requires |a| > 0 && |b| > 0 && multiset(a) == multiset(b)
    requires forall k :: 0 <= k < |a| ==> a[k] <= a[0]
    requires forall k :: 0 <= k < |b| ==> b[k] <= b[0]
    ensures a[0] == b[0]
  {
    var i := FindIn(b, a[0]);
    assert b[0] in multiset(a);
    var j := FindIn(a, b[0]);
  }

  lemma MultisetSnoc<T>(a: seq<T>)
    requires |a| > 0
    ensures multiset(a) == multiset(a[..|a| - 1]) + multiset{a[|a| - 1]}
  {
    assert a == a[..|a| - 1] + [a[|a| - 1]];
  }

  lemma MultisetTail<T>(a: seq<T>)
    requires |a| > 0
    ensures multiset(a[1..]) == multiset(a) - multiset{a[0]}
  {
    assert a == [a[0]] + a[1..];
  }

  lemma SortedByKeys<T>(s: seq<T>, key: T -> int)
    requires SortedDescBy(s, key)
    ensures SortedDesc(Keys(s, key))
  {
  }

  /** Number of occurrences of `x` in `s`. */
  function Count<T(==)>(s: seq<T>, x: T): (c: nat)
    ensures c == multiset(s)[x]
  {
    if |s| == 0 then 0
    else
      assert s == [s[0]] + s[1..];
      (if s[0] == x then 1 else 0) + Count(s[1..], x)
  }

  /** Elements pairwise distinct. */
  ghost predicate Distinct<T>(s: seq<T>)
  {
    forall i, j :: 0 <= i < j < |s| ==> s[i] != s[j]
  }

  /** Position of the first occurrence of `x` in `s`, or -1 (Python's
      `list.index` with its `ValueError` turned into -1). */
  function IndexOf<T(==)>(s: seq<T>, x: T): (i: int)
    ensures -1 <= i < |s|
    ensures i == -1 <==> x !in s
    ensures i >= 0 ==> s[i] == x && x !in s[..i]
  {
    if |s| == 0 then -1
    else if s[0] == x then 0
    else
      var k := IndexOf(s[1..], x);
      if k == -1 then -1 else
        assert s[..k + 1] == [s[0]] + s[1..][..k];
        k + 1
  }
}

=== FILE: lane_champs.dfy ===
/** The champions listed under each of a player's main and sub lanes: the
    per-lane champion counter filled by the details loop, and the short
    list `getLaneChampions` reads off it (most played in that lane first,
    then the best-mastered champions).
 */
module LaneChamps {
  import opened Common
  import opened Tally
  import opened Scoring
  import opened Picks

  // ---------------------------------------------------------------------
  // The per-lane champion counter
  // ---------------------------------------------------------------------

  /** `laneChampCount[lane][p.ChampionID]++` over the player's own counted
      rows, as seen by the inner counter of one lane: a row counts when its
      lane, "UNKNOWN" for an empty position, is `lane`. */
  function LaneChampTally(rows: seq<Participant>, lane: string): seq<Bin<int>>
  {
    if |rows| == 0 then []
    else
      var t := LaneChampTally(rows[..|rows| - 1], lane);
      var p := rows[|rows| - 1];
      if LaneOf(p) == lane then Bump(t, p.championId) else t
  }

  /** The rows played in `lane`, in order. */
  function InLane(rows: seq<Participant>, lane: string): seq<Participant>
  {
    if |rows| == 0 then []
    else
      var init := InLane(rows[..|rows| - 1], lane);
      if LaneOf(rows[|rows| - 1]) == lane then init + [rows[|rows| - 1]] else init
  }

  /** The lane's counter is the histogram of the champions of the rows
      played in that lane. */
  lemma {:induction false} LaneChampTallySpec(rows: seq<Participant>, lane: string)
    ensures LaneChampTally(rows, lane) == BumpAll([], Champions(InLane(rows, lane)))
    decreases |rows|
  {
    if |rows| > 0 {
      LaneChampTallySpec(rows[..|rows| - 1], lane);
      LaneChampTallyStep(rows, lane);
    }
  }

  /** One row of the induction above, given its hypothesis. */
  lemma LaneChampTallyStep(rows: seq<Participant>, lane: string)
    requires |rows| > 0
    requires var init := rows[..|rows| - 1];
      LaneChampTally(init, lane) == BumpAll([], Champions(InLane(init, lane)))
    ensures LaneChampTally(rows, lane) == BumpAll([], Champions(InLane(rows, lane)))
  {
    var init, p := rows[..|rows| - 1], rows[|rows| - 1];
    if LaneOf(p) == lane {
      var xs := Champions(InLane(init, lane));
      ChampionsAppend(InLane(init, lane), [p]);
      assert Champions(InLane(rows, lane)) == xs + [p.championId];
      assert (xs + [p.championId])[..|xs|] == xs;
    }
  }

  /** There are as many rows played in a lane as the lane counter records
      for it. */
  lemma {:induction false} InLaneCount(rows: seq<Participant>, lane: string)
    ensures |InLane(rows, lane)| == Count(Lanes(rows), lane)
    decreases |rows|
  {
    if |rows| > 0 {
      InLaneCount(rows[..|rows| - 1], lane);
      InLaneCountStep(rows, lane);
    }
  }

  /** One row of the induction above, given its hypothesis. */
  lemma InLaneCountStep(rows: seq<Participant>, lane: string)
    requires |rows| > 0
    requires var init := rows[..|rows| - 1];
      |InLane(init, lane)| == multiset(Lanes(init))[lane]
    ensures |InLane(rows, lane)| == multiset(Lanes(rows))[lane]
  {
    var init, p := rows[..|rows| - 1], rows[|rows| - 1];
    assert rows == init + [p];
    LanesAppend(init, [p]);
    assert Lanes([p]) == [LaneOf(p)];
  }

  /** Bumping a counter adds one to the total of its counts. */
  lemma {:induction false} BumpTotal(bins: seq<Bin<int>>, k: int)
    ensures SumBy(Bump(bins, k), UseCount) == SumBy(bins, UseCount) + 1
    decreases |bins|
  {
    var r := Bump(bins, k);
    if |bins| == 0 {
      SumBySingle(Bin(k, 1), UseCount);
    } else {
      assert bins == [bins[0]] + bins[1..];
      SumByAppend([bins[0]], bins[1..], UseCount);
      SumBySingle(bins[0], UseCount);
      if bins[0].key == k {
        SumByAppend([Bin(k, bins[0].count + 1)], bins[1..], UseCount);
        SumBySingle(Bin(k, bins[0].count + 1), UseCount);
      } else {
        BumpTotal(bins[1..], k);
        SumByAppend([bins[0]], Bump(bins[1..], k), UseCount);
      }
    }
  }

  /** A counter built from nothing counts every element once. */
  lemma {:induction false} HistogramTotal(xs: seq<int>)
    ensures SumBy(BumpAll([], xs), UseCount) == |xs|
    decreases |xs|
  {
    if |xs| == 0 {
      assert Keys([], UseCount) == [];
    } else {
      HistogramTotal(xs[..|xs| - 1]);
      BumpTotal(BumpAll([], xs[..|xs| - 1]), xs[|xs| - 1]);
    }
  }

  /** Reading the per-lane counter after the details loop: for each
      champion, the number of the player's counted games in that lane on
      that champion; each champion once, every count positive; and the
      counts add up to what the lane counter holds for the lane. */
  lemma LaneChampCounts(ds: seq<Option<MatchDetail>>, me: string, collect: bool, lane: string)
    ensures var own := OwnRows(Counted(ds), me);
      var r := LaneChampTally(own, lane);
      && (forall c :: Lookup(r, c) == Count(Champions(InLane(own, lane)), c))
      && DistinctKeys(r) && PositiveCounts(r)
      && SumBy(r, UseCount) == Lookup(TallyMatches(ds, me, collect).laneCount, lane)
  {
    var own := OwnRows(Counted(ds), me);
    LaneChampTallySpec(own, lane);
    InLaneCount(own, lane);
    HistogramSpec(Champions(InLane(own, lane)));
    HistogramTotal(Champions(InLane(own, lane)));
    CountersCount(ds, me, collect);
  }

  /** Only rows of that lane reach its counter: a lane never played has an
      empty counter. */
  lemma LaneNeverPlayed(rows: seq<Participant>, lane: string)
    requires Count(Lanes(rows), lane) == 0
    ensures LaneChampTally(rows, lane) == []
  {
    LaneChampTallySpec(rows, lane);
    InLaneCount(rows, lane);
  }

  // ---------------------------------------------------------------------
  // The web app's `getLaneChampions`
  // ---------------------------------------------------------------------

  /** The first loop: the lane's champions by count, descending, keeping up
      to three distinct non-empty names. */
  function AppLaneUsagePicks(laneChamps: seq<Bin<int>>, nameOf: int -> string): seq<string>
  {
    AddNames([], UsageNames(SortDescBy(laneChamps, UseCount), nameOf), 3)
  }

  /** `getLaneChampions(lane)` in the web app. `masteries` is the list read
      for the mastery sum, empty when that request failed; while fewer than
      three names are kept, it is walked by points, descending. */
  function AppLaneChampions(laneChamps: seq<Bin<int>>, masteries: seq<Mastery>, nameOf: int -> string): seq<string>
  {
    var first := AppLaneUsagePicks(laneChamps, nameOf);
    if |first| < 3 && |masteries| > 0 then
      AddNames(first, MasteryNames(SortDescBy(masteries, Points), nameOf), 3)
    else first
  }

  /** At most three distinct non-empty names, the lane's champions first:
      those are names of champions played in the lane, the rest names of
      mastered champions. Nothing is missed: with fewer than three lane
      picks every named champion of the lane is among them, and with fewer
      than three names in all every named mastered champion is too. */
  lemma AppLaneChampionsSpec(laneChamps: seq<Bin<int>>, masteries: seq<Mastery>, nameOf: int -> string)
    ensures var first := AppLaneUsagePicks(laneChamps, nameOf);
      var used := UsageNames(laneChamps, nameOf);
      var mastered := MasteryNames(masteries, nameOf);
      var r := AppLaneChampions(laneChamps, masteries, nameOf);
      && |first| <= |r| <= 3
      && r[..|first|] == first
      && Distinct(r) && "" !in r
      && (forall i :: 0 <= i < |first| ==> first[i] in used)
      && (forall i :: |first| <= i < |r| ==> r[i] in mastered)
      && (|first| < 3 ==> forall x :: x in used && x != "" ==> x in first)
      && (|r| < 3 ==> forall x :: x in mastered && x != "" ==> x in r)
  {
    var sortedUse := SortDescBy(laneChamps, UseCount);
    var sortedMastery := SortDescBy(masteries, Points);
    var first := AppLaneUsagePicks(laneChamps, nameOf);
    AddNamesShape([], UsageNames(sortedUse, nameOf), 3);
    AddNamesComplete([], UsageNames(sortedUse, nameOf), 3);
    NamesPermutation(sortedUse, laneChamps, (b: Bin<int>) => nameOf(b.key));
    AddNamesShape(first, MasteryNames(sortedMastery, nameOf), 3);
    AddNamesComplete(first, MasteryNames(sortedMastery, nameOf), 3);
    NamesPermutation(sortedMastery, masteries, (m: Mastery) => nameOf(m.championId));
    assert |sortedMastery| == |multiset(sortedMastery)| == |masteries|;
    var r := AppLaneChampions(laneChamps, masteries, nameOf);
    forall i | 0 <= i < |r|
      ensures r[i] != ""
    {
      if i < |first| {
        assert r[i] == first[i];
      }
    }
  }

  // ---------------------------------------------------------------------
  // The command-line tool's `getLaneChampions`
  // ---------------------------------------------------------------------

  /** `getLaneChampions(lane)` in the command-line tool: the names of the
      lane's three most played champions, then, while fewer than three are
      kept, of the masteries by points, descending; unknown names and
      repeats are dropped. */
  function CliLaneChampions(laneChamps: seq<Bin<int>>, masteries: seq<Mastery>, nameOf: int -> string): seq<string>
  {
    var first := CliLaneUsagePicks(laneChamps, nameOf);
    if |first| < 3 then CliAddNames(first, MasteryNames(SortDescBy(masteries, Points), nameOf), 3)
    else first
  }

  /** The command-line tool's first loop: the known names among the lane's
      three most played champions. */
  function CliLaneUsagePicks(laneChamps: seq<Bin<int>>, nameOf: int -> string): seq<string>
  {
    var used := UsageNames(SortDescBy(laneChamps, UseCount), nameOf);
    CliAddNames([], used[..Min(3, |used|)], 3)
  }

  /** At most three distinct names, none empty or unknown: first, as a
      prefix, the names of the lane's three most played champions, then
      names of mastered champions. Every known name among those three
      champions is kept, and with fewer than three names in all every known
      mastered name is too. */
  lemma CliLaneChampionsSpec(laneChamps: seq<Bin<int>>, masteries: seq<Mastery>, nameOf: int -> string)
    ensures var used := UsageNames(SortDescBy(laneChamps, UseCount), nameOf);
      var top3 := used[..Min(3, |used|)];
      var mastered := MasteryNames(masteries, nameOf);
      var first := CliLaneUsagePicks(laneChamps, nameOf);
      var r := CliLaneChampions(laneChamps, masteries, nameOf);
      && |first| <= |r| <= 3
      && r[..|first|] == first
      && (forall i :: 0 <= i < |first| ==> first[i] in top3)
      && (forall i :: |first| <= i < |r| ==> r[i] in mastered)
      && Distinct(r) && "" !in r && UnknownName !in r
      && (forall x :: x in r ==> x in top3 || x in mastered)
      && (forall x :: x in top3 && x != "" && x != UnknownName ==> x in r)
      && (|r| < 3 ==> forall x :: x in mastered && x != "" && x != UnknownName ==> x in r)
  {
    var used := UsageNames(SortDescBy(laneChamps, UseCount), nameOf);
    var top3 := used[..Min(3, |used|)];
    var sortedMastery := SortDescBy(masteries, Points);
    CliTwoPhases(top3, MasteryNames(sortedMastery, nameOf));
    NamesPermutation(sortedMastery, masteries, (m: Mastery) => nameOf(m.championId));
  }

  /** The two loops over plain name lists: at most three names from the
      three entries `top3`, then from `names` while fewer than three. */
  lemma CliTwoPhases(top3: seq<string>, names: seq<string>)
    requires |top3| <= 3
    ensures var first := CliAddNames([], top3, 3);
      var r := if |first| < 3 then CliAddNames(first, names, 3) else first;
      && |first| <= |r| <= 3
      && r[..|first|] == first
      && (forall i :: 0 <= i < |first| ==> first[i] in top3)
      && (forall i :: |first| <= i < |r| ==> r[i] in names)
      && Distinct(r) && "" !in r && UnknownName !in r
      && (forall x :: x in r ==> x in top3 || x in names)
      && (forall x :: x in top3 && x != "" && x != UnknownName ==> x in r)
      && (|r| < 3 ==> forall x :: x in names && x != "" && x != UnknownName ==> x in r)
  {
    var first := CliAddNames([], top3, 3);
    CliAddNamesShape([], top3, 3);
    if |first| < 3 {
      CliAddNamesShape(first, names, 3);
      var r := CliAddNames(first, names, 3);
      assert r[..|first|] == first;
      forall x | x in r
        ensures x != "" && x != UnknownName && (x in top3 || x in names)
      {
        var i :| 0 <= i < |r| && r[i] == x;
        if i < |first| {
          assert x == first[i];
        }
      }
      forall x | x in first
        ensures x in r
      {
        var i :| 0 <= i < |first| && first[i] == x;
        assert r[i] == x;
      }
    } else {
      forall x | x in first
        ensures x != "" && x != UnknownName && x in top3
      {
        var i :| 0 <= i < |first| && first[i] == x;
      }
    }
  }
}

=== FILE: lane_unique.dfy ===
/** The "lane-unique" five-against-five split that the app and the
    command-line tool run on exactly ten players (already sorted by skill,
    best first, and numbered 0 to 9 in that order).

    A recursive `comb` walks every way of choosing five indices, taking the
    head of `arr` before skipping it. At each leaf `acc` is team A and the
    members of `arr` not in `acc` are team B. Each team gets lanes first-fit:
    every member, in order, takes the first of its main lanes the team has
    not used yet, and the team fails when a member finds none. A leaf whose
    two teams both get lanes replaces the best so far when its skill
    difference is strictly below `minDiff`, which starts at `1 << 30`. The
    split is reported only when both best teams hold five players.

    The two programs differ at the edges: the app stops at an empty `arr`
    and assigns team B only after team A succeeded; the command-line tool
    has no empty-`arr` stop and always assigns team B. Both write team B's
    lanes into a five-slot array.
 */
module LaneUnique {
  import opened Common
  import opened Search
  import opened Combos
  import opened Teams

  /** A player as the split sees them: skill score and main lanes. */
  datatype LanePlayer = LanePlayer(skill: int, lanes: seq<string>)

  /** Players per team. */
  const TeamSize := 5

  /** The split runs only for this many players. */
  const Roster := 10

  /** The starting `minDiff`, `1 << 30`. */
  const Limit := 1073741824

  /** Every index of `team` names a player. */
  predicate InRange(team: seq<int>, n: int)
  {
    forall i :: 0 <= i < |team| ==> 0 <= team[i] < n
  }

  predicate AllInRange(leaves: seq<seq<int>>, n: int)
  {
    forall i :: 0 <= i < |leaves| ==> InRange(leaves[i], n)
  }

  /** A sequence drawn from one in range is in range. */
  lemma InRangeSub(a: seq<int>, b: seq<int>, n: int)
    requires InRange(b, n) && forall x :: x in a ==> x in b
    ensures InRange(a, n)
  {
    forall i | 0 <= i < |a|
      ensures 0 <= a[i] < n
    {
      assert a[i] in a;
      var j :| 0 <= j < |b| && b[j] == a[i];
    }
  }

  // ---------------------------------------------------------------------
  // First-fit lanes
  // ---------------------------------------------------------------------

  /** Position `p` holds a lane and every lane before it is taken. */
  predicate FirstAt(lanes: seq<string>, used: set<string>, p: int)
  {
    0 <= p < |lanes| && forall q :: 0 <= q < p ==> lanes[q] in used
  }

  /** The first lane of `lanes` not in `used`. */
  function FirstFree(lanes: seq<string>, used: set<string>): (r: Option<string>)
    ensures r.Some? ==> r.value !in used
    ensures r.Some? ==> exists p :: FirstAt(lanes, used, p) && lanes[p] == r.value
    ensures r.None? <==> forall l :: l in lanes ==> l in used
  {
    if |lanes| == 0 then None
    else if lanes[0] !in used then Some(lanes[0])
    else
      var r := FirstFree(lanes[1..], used);
      if r.Some? then
        var p :| FirstAt(lanes[1..], used, p) && lanes[1..][p] == r.value;
        assert FirstAt(lanes, used, p + 1) && lanes[p + 1] == r.value;
        r
      else
        r
  }

  /** Every member of `team` plays one of its own lanes, and no two
      members play the same one. */
  predicate ValidRoles(team: seq<int>, ps: seq<LanePlayer>, roles: seq<string>)
    requires InRange(team, |ps|)
  {
    && |roles| == |team|
    && (forall i :: 0 <= i < |team| ==> roles[i] in ps[team[i]].lanes)
    && (forall i, j :: 0 <= i < j < |roles| ==> roles[i] != roles[j])
  }

  /** First-fit lanes for `team`, given lanes already taken; `None` when a
      member finds every one of its lanes taken (`okA = false`). */
  function Assign(team: seq<int>, ps: seq<LanePlayer>, used: set<string>): (r: Option<seq<string>>)
    requires InRange(team, |ps|)
    ensures r.Some? ==> ValidRoles(team, ps, r.value)
    ensures r.Some? ==> forall i :: 0 <= i < |r.value| ==> r.value[i] !in used
    decreases |team|
  {
    if |team| == 0 then Some([])
    else
      match FirstFree(ps[team[0]].lanes, used)
      case None => None
      case Some(l) =>
        match Assign(team[1..], ps, used + {l})
        case None => None
        case Some(rest) =>
          var roles := [l] + rest;
          assert forall i :: 1 <= i < |team| ==> roles[i] == rest[i - 1] && team[i] == team[1..][i - 1];
          Some(roles)
  }

  /** Sum of the skills of `team`. */
  function TeamSkill(team: seq<int>, ps: seq<LanePlayer>): int
    requires InRange(team, |ps|)
  {
    if |team| == 0 then 0 else ps[team[0]].skill + TeamSkill(team[1..], ps)
  }

  /** The members of `arr` not in `acc`, in order (the `inA` loop). */
  function Others(arr: seq<int>, acc: seq<int>): (r: seq<int>)
    ensures |r| <= |arr|
  {
    if |arr| == 0 then []
    else (if arr[0] in acc then [] else [arr[0]]) + Others(arr[1..], acc)
  }

  /** Exactly the members of `arr` missing from `acc` survive. */
  lemma {:induction false} OthersMembers(arr: seq<int>, acc: seq<int>)
    ensures forall x :: x in Others(arr, acc) <==> x in arr && x !in acc
  {
    if |arr| > 0 {
      OthersMembers(arr[1..], acc);
      assert arr == [arr[0]] + arr[1..];
    }
  }

  /** Every index below `n` that is not in `acc`: the team B the split
      evidently means. */
  function Complement(acc: seq<int>, n: nat): (r: seq<int>)
    ensures InRange(r, n)
  {
    OthersMembers(Range(0, n), acc);
    InRangeSub(Others(Range(0, n), acc), Range(0, n), n);
    Others(Range(0, n), acc)
  }

  // ---------------------------------------------------------------------
  // Leaves and the running best
  // ---------------------------------------------------------------------

  /** What a leaf found: both teams got lanes, with these sums. */
  datatype Verdict = Verdict(diff: int, sumA: int, sumB: int, rolesA: seq<string>, rolesB: seq<string>)

  /** `okA && okB` and the leaf's skill difference. */
  function Judge(a: seq<int>, b: seq<int>, ps: seq<LanePlayer>): Option<Verdict>
    requires InRange(a, |ps|) && InRange(b, |ps|)
  {
    var ra := Assign(a, ps, {});
    var rb := Assign(b, ps, {});
    if ra.None? || rb.None? then None
    else
      var sA := TeamSkill(a, ps);
      var sB := TeamSkill(b, ps);
      Some(Verdict(Abs(sA - sB), sA, sB, ra.value, rb.value))
  }

  /** `minDiff`, `bestA`, `bestB`, their lanes and sums. */
  datatype Best = Best(minDiff: int, teamA: seq<int>, teamB: seq<int>,
                       rolesA: seq<string>, rolesB: seq<string>, sumA: int, sumB: int)

  const Start := Best(Limit, [], [], [], [], 0, 0)

  /** `if d < minDiff { ... }`. */
  function Update(st: Best, a: seq<int>, b: seq<int>, v: Option<Verdict>): Best
  {
    if v.Some? && v.value.diff < st.minDiff then
      Best(v.value.diff, a, b, v.value.rolesA, v.value.rolesB, v.value.sumA, v.value.sumB)
    else st
  }

  /** Writing a sixth lane into the five-slot `rolesB` panics; that
      happens exactly when the first six members of `b` all get lanes. */
  predicate Overflows(b: seq<int>, ps: seq<LanePlayer>)
    requires InRange(b, |ps|)
  {
    |b| > TeamSize && Assign(b[..TeamSize + 1], ps, {}).Some?
  }

  /** The app's leaf; `None` is a panic. Team B is assigned only after
      team A succeeded. */
  function AppLeaf(arr: seq<int>, acc: seq<int>, ps: seq<LanePlayer>, st: Best): Option<Best>
    requires InRange(arr, |ps|) && InRange(acc, |ps|)
  {
    var b := Others(arr, acc);
    OthersMembers(arr, acc);
    InRangeSub(b, arr, |ps|);
    if Assign(acc, ps, {}).Some? && Overflows(b, ps) then None
    else Some(Update(st, acc, b, Judge(acc, b, ps)))
  }

  /** The command-line tool's leaf: team B is assigned in every case. */
  function CliLeaf(arr: seq<int>, acc: seq<int>, ps: seq<LanePlayer>, st: Best): Option<Best>
    requires InRange(arr, |ps|) && InRange(acc, |ps|)
  {
    var b := Others(arr, acc);
    OthersMembers(arr, acc);
    InRangeSub(b, arr, |ps|);
    if Overflows(b, ps) then None
    else Some(Update(st, acc, b, Judge(acc, b, ps)))
  }

  /** The app's `comb`, threading the running best; `None` is a panic. */
  function AppComb(arr: seq<int>, n: int, acc: seq<int>, ps: seq<LanePlayer>, st: Best): Option<Best>
    requires InRange(arr, |ps|) && InRange(acc, |ps|)
    decreases |arr|
  {
    if |acc| == TeamSize then AppLeaf(arr, acc, ps, st)
    else if n == 0 then Some(st)
    else if |arr| == 0 then Some(st)
    else
      match AppComb(arr[1..], n - 1, acc + [arr[0]], ps, st)
      case None => None
      case Some(st1) => AppComb(arr[1..], n, acc, ps, st1)
  }

  /** The command-line tool's `comb`: an empty `arr` reaches `arr[0]`
      and panics. */
  function CliComb(arr: seq<int>, n: int, acc: seq<int>, ps: seq<LanePlayer>, st: Best): Option<Best>
    requires InRange(arr, |ps|) && InRange(acc, |ps|)
    decreases |arr|
  {
    if |acc| == TeamSize then CliLeaf(arr, acc, ps, st)
    else if n == 0 then Some(st)
    else if |arr| == 0 then None
    else
      match CliComb(arr[1..], n - 1, acc + [arr[0]], ps, st)
      case None => None
      case Some(st1) => CliComb(arr[1..], n, acc, ps, st1)
  }

  /** The split with team B the complement of team A among all ten. */
  function FixedLeaf(acc: seq<int>, ps: seq<LanePlayer>, st: Best): Best
    requires InRange(acc, |ps|)
  {
    var b := Complement(acc, |ps|);
    Update(st, acc, b, Judge(acc, b, ps))
  }

  /** The app's `comb` with that leaf. */
  function FixedComb(arr: seq<int>, n: int, acc: seq<int>, ps: seq<LanePlayer>, st: Best): Best
    requires InRange(arr, |ps|) && InRange(acc, |ps|)
    decreases |arr|
  {
    if |acc| == TeamSize then FixedLeaf(acc, ps, st)
    else if n == 0 then st
    else if |arr| == 0 then st
    else FixedComb(arr[1..], n, acc, ps, FixedComb(arr[1..], n - 1, acc + [arr[0]], ps, st))
  }

  // ---------------------------------------------------------------------
  // Outcomes
  // ---------------------------------------------------------------------

  datatype Assignment = Assignment(teamA: seq<int>, teamB: seq<int>,
                                   rolesA: seq<string>, rolesB: seq<string>, sumA: int, sumB: int)

  /** `Skipped`: not ten players. `NoSplit`: no five-against-five split
      found. */
  datatype Outcome = Skipped | Panics | NoSplit | Found(assignment: Assignment)

  /** `if len(bestA) == 5 && len(bestB) == 5`. */
  function Report(st: Best): Outcome
  {
    if |st.teamA| == TeamSize && |st.teamB| == TeamSize then
      Found(Assignment(st.teamA, st.teamB, st.rolesA, st.rolesB, st.sumA, st.sumB))
    else NoSplit
  }

  function AppLaneUnique(ps: seq<LanePlayer>): Outcome
  {
    if |ps| != Roster then Skipped
    else
      match AppComb(Range(0, Roster), TeamSize, [], ps, Start)
      case None => Panics
      case Some(st) => Report(st)
  }

  function CliLaneUnique(ps: seq<LanePlayer>): Outcome
  {
    if |ps| != Roster then Skipped
    else
      match CliComb(Range(0, Roster), TeamSize, [], ps, Start)
      case None => Panics
      case Some(st) => Report(st)
  }

  /** The split as evidently intended. */
  function LaneUnique(ps: seq<LanePlayer>): Outcome
  {
    if |ps| != Roster then Skipped
    else Report(FixedComb(Range(0, Roster), TeamSize, [], ps, Start))
  }

  // ---------------------------------------------------------------------
  // The command-line tool always panics
  // ---------------------------------------------------------------------

  /** Below a leaf, the command-line `comb` eventually skips past the end
      of `arr` and panics, whatever the players. */
  lemma {:induction false} CliCombPanics(arr: seq<int>, n: int, acc: seq<int>, ps: seq<LanePlayer>, st: Best)
    requires InRange(arr, |ps|) && InRange(acc, |ps|)
    requires n > 0 && |acc| != TeamSize
    ensures CliComb(arr, n, acc, ps, st).None?
    decreases |arr|
  {
    if |arr| > 0 {
      var first := CliComb(arr[1..], n - 1, acc + [arr[0]], ps, st);
      if first.Some? {
        CliCombPanics(arr[1..], n, acc, ps, first.value);
      }
    }
  }

  /** With ten players the command-line tool's lane-unique split never
      reports anything: it panics. */
  lemma CliAlwaysPanics(ps: seq<LanePlayer>)
    ensures |ps| == Roster ==> CliLaneUnique(ps) == Panics
    ensures |ps| != Roster ==> CliLaneUnique(ps) == Skipped
  {
    if |ps| == Roster {
      CliCombPanics(Range(0, Roster), TeamSize, [], ps, Start);
    }
  }

  // ---------------------------------------------------------------------
  // The app reports at most the first five against the last five
  // ---------------------------------------------------------------------

  /** The position-`i` member of an increasing sequence of naturals is at
      least `i`. */
  lemma {:induction false} LowerBound(c: seq<int>, i: int)
    requires Increasing(c) && (forall j :: 0 <= j < |c| ==> 0 <= c[j]) && 0 <= i < |c|
    ensures c[i] >= i
    decreases i
  {
    if i > 0 {
      LowerBound(c, i - 1);
    }
  }

  /** ... and, when all members are below `k`, at most `k - |c| + i`. */
  lemma {:induction false} UpperBound(c: seq<int>, k: int, i: int)
    requires Increasing(c) && (forall j :: 0 <= j < |c| ==> c[j] < k) && 0 <= i < |c|
    ensures c[i] <= k - |c| + i
    decreases |c| - i
  {
    if i < |c| - 1 {
      UpperBound(c, k, i + 1);
    }
  }

  lemma RangeTail(k: int, n: int)
    requires k < n
    ensures Range(k, n)[0] == k && Range(k, n)[1..] == Range(k + 1, n)
  {
  }

  /** The recursion's shape below the top call: `arr` is `k .. 9` and
      `acc` an increasing choice from `0 .. k - 1`. */
  ghost predicate Shaped(arr: seq<int>, acc: seq<int>, k: int)
  {
    && 0 <= k <= Roster && arr == Range(k, Roster)
    && Increasing(acc) && |acc| <= TeamSize && InRange(acc, k)
  }

  /** A best split holding five in team B is players 0 to 4 against 5 to
      9. */
  ghost predicate OnlyFirst(st: Best)
  {
    |st.teamB| == TeamSize ==> st.teamA == Range(0, TeamSize) && st.teamB == Range(TeamSize, Roster)
  }

  /** The best split's lanes are valid, its sums are its teams' sums, and
      once a split is recorded `minDiff` is its difference. */
  ghost predicate Consistent(st: Best, ps: seq<LanePlayer>)
  {
    && InRange(st.teamA, |ps|) && InRange(st.teamB, |ps|)
    && ValidRoles(st.teamA, ps, st.rolesA) && ValidRoles(st.teamB, ps, st.rolesB)
    && st.sumA == TeamSkill(st.teamA, ps) && st.sumB == TeamSkill(st.teamB, ps)
    && (|st.teamA| > 0 ==> st.minDiff == Abs(st.sumA - st.sumB))
  }

  lemma UpdateConsistent(st: Best, a: seq<int>, b: seq<int>, ps: seq<LanePlayer>)
    requires InRange(a, |ps|) && InRange(b, |ps|) && Consistent(st, ps)
    ensures Consistent(Update(st, a, b, Judge(a, b, ps)), ps)
  {
  }

  lemma {:induction false} OthersDisjoint(arr: seq<int>, acc: seq<int>)
    requires forall i :: 0 <= i < |arr| ==> arr[i] !in acc
    ensures Others(arr, acc) == arr
  {
    if |arr| > 0 {
      OthersDisjoint(arr[1..], acc);
      assert arr == [arr[0]] + arr[1..];
    }
  }

  /** At a leaf below the top call team B is all of `arr`, `arr` holds
      at most five players, and exactly five only when `acc` is 0 to 4. */
  lemma LeafShape(arr: seq<int>, acc: seq<int>, k: int)
    requires Shaped(arr, acc, k) && |acc| == TeamSize
    ensures Others(arr, acc) == arr
    ensures TeamSize <= k
    ensures k == TeamSize ==> acc == Range(0, TeamSize)
  {
    forall i | 0 <= i < |arr|
      ensures arr[i] !in acc
    {
      assert k <= arr[i];
    }
    OthersDisjoint(arr, acc);
    LowerBound(acc, 0);
    UpperBound(acc, k, 0);
    if k == TeamSize {
      forall i | 0 <= i < |acc|
        ensures acc[i] == i
      {
        LowerBound(acc, i);
        UpperBound(acc, k, i);
      }
    }
  }

  lemma AppLeafInvariant(arr: seq<int>, acc: seq<int>, ps: seq<LanePlayer>, st: Best, k: int)
    requires |ps| == Roster && Shaped(arr, acc, k) && |acc| == TeamSize
    requires OnlyFirst(st) && Consistent(st, ps)
    ensures AppLeaf(arr, acc, ps, st).Some?
    ensures OnlyFirst(AppLeaf(arr, acc, ps, st).value) && Consistent(AppLeaf(arr, acc, ps, st).value, ps)
  {
    LeafShape(arr, acc, k);
    assert |arr| <= TeamSize;
    UpdateConsistent(st, acc, arr, ps);
  }

  lemma {:induction false} AppCombInvariant(arr: seq<int>, n: int, acc: seq<int>, ps: seq<LanePlayer>, st: Best, k: int)
    requires |ps| == Roster && Shaped(arr, acc, k)
    requires OnlyFirst(st) && Consistent(st, ps)
    ensures AppComb(arr, n, acc, ps, st).Some?
    ensures OnlyFirst(AppComb(arr, n, acc, ps, st).value) && Consistent(AppComb(arr, n, acc, ps, st).value, ps)
    decreases |arr|
  {
    if |acc| == TeamSize {
      AppLeafInvariant(arr, acc, ps, st, k);
    } else if n != 0 && |arr| > 0 {
      ShapedTail(arr, acc, k);
      var acc1 := acc + [arr[0]];
      AppCombInvariant(arr[1..], n - 1, acc1, ps, st, k + 1);
      var st1 := AppComb(arr[1..], n - 1, acc1, ps, st).value;
      AppCombInvariant(arr[1..], n, acc, ps, st1, k + 1);
      AppCombSplit(arr, n, acc, ps, st);
    }
  }

  /** Both branches below an inner call keep the recursion's shape. */
  lemma ShapedTail(arr: seq<int>, acc: seq<int>, k: int)
    requires Shaped(arr, acc, k) && |acc| < TeamSize && |arr| > 0
    ensures Shaped(arr[1..], acc + [arr[0]], k + 1) && Shaped(arr[1..], acc, k + 1)
  {
    RangeTail(k, Roster);
    var acc1 := acc + [arr[0]];
    assert Increasing(acc1) by {
      forall p, q | 0 <= p < q < |acc1|
        ensures acc1[p] < acc1[q]
      {
        assert acc1[p] == acc[p];
      }
    }
  }

  /** An inner call of the app's `comb` that takes the head without
      panicking continues by skipping it from the state that branch left. */
  lemma AppCombSplit(arr: seq<int>, n: int, acc: seq<int>, ps: seq<LanePlayer>, st: Best)
    requires InRange(arr, |ps|) && InRange(acc, |ps|)
    requires |acc| != TeamSize && n != 0 && |arr| > 0
    requires AppComb(arr[1..], n - 1, acc + [arr[0]], ps, st).Some?
    ensures AppComb(arr, n, acc, ps, st) ==
      AppComb(arr[1..], n, acc, ps, AppComb(arr[1..], n - 1, acc + [arr[0]], ps, st).value)
  {
  }

  /** The app's lane-unique split never panics, and when it reports a
      split that split is always players 0 to 4 (the five best) against
      players 5 to 9, with valid lanes and their true sums: team B at a
      leaf is the rest of `arr`, which holds five players only at the very
      first leaf. */
  lemma AppOnlyFirstSplit(ps: seq<LanePlayer>)
    ensures AppLaneUnique(ps) != Panics
    ensures AppLaneUnique(ps).Found? ==>
      var a := AppLaneUnique(ps).assignment;
      && a.teamA == [0, 1, 2, 3, 4] && a.teamB == [5, 6, 7, 8, 9]
      && ValidRoles(a.teamA, ps, a.rolesA) && ValidRoles(a.teamB, ps, a.rolesB)
      && a.sumA == TeamSkill(a.teamA, ps) && a.sumB == TeamSkill(a.teamB, ps)
  {
    if |ps| == Roster {
      AppTopInvariant(ps);
      FirstRanges();
    }
  }

  /** The top call of the app's `comb` returns a state holding, if
      anything, the first split, consistently. */
  lemma AppTopInvariant(ps: seq<LanePlayer>)
    requires |ps| == Roster
    ensures var r := AppComb(Range(0, Roster), TeamSize, [], ps, Start);
      r.Some? && OnlyFirst(r.value) && Consistent(r.value, ps)
  {
    AppCombInvariant(Range(0, Roster), TeamSize, [], ps, Start, 0);
  }

  lemma FirstRanges()
    ensures Range(0, TeamSize) == [0, 1, 2, 3, 4]
    ensures Range(TeamSize, Roster) == [5, 6, 7, 8, 9]
  {
  }

  // ---------------------------------------------------------------------
  // The corrected split is the first least-difference combination
  // ---------------------------------------------------------------------

  /** `acc + c` for every `c` of `cs`. */
  function Extend(acc: seq<int>, cs: seq<seq<int>>): (r: seq<seq<int>>)
    ensures |r| == |cs|
  {
    seq(|cs|, i requires 0 <= i < |cs| => acc + cs[i])
  }

  /** The corrected leaf applied to `leaves` in order. */
  function Fold(leaves: seq<seq<int>>, ps: seq<LanePlayer>, st: Best): Best
    requires AllInRange(leaves, |ps|)
    decreases |leaves|
  {
    if |leaves| == 0 then st
    else
      var n := |leaves| - 1;
      FixedLeaf(leaves[n], ps, Fold(leaves[..n], ps, st))
  }

  /** The difference of team `c` against the rest, or `None` when one of
      the two teams gets no lanes. */
  function Cost(c: seq<int>, ps: seq<LanePlayer>): Option<int>
  {
    if !InRange(c, |ps|) then None
    else
      match Judge(c, Complement(c, |ps|), ps)
      case None => None
      case Some(v) => Some(v.diff)
  }

  function Costs(leaves: seq<seq<int>>, ps: seq<LanePlayer>): (r: seq<Option<int>>)
    ensures |r| == |leaves|
  {
    seq(|leaves|, i requires 0 <= i < |leaves| => Cost(leaves[i], ps))
  }

  /** The state after the scan's choice among `leaves`. */
  function Pick(leaves: seq<seq<int>>, ps: seq<LanePlayer>): Best
    requires AllInRange(leaves, |ps|)
  {
    match Scan(Costs(leaves, ps), Some(Limit))
    case None => Start
    case Some(i) => FixedLeaf(leaves[i], ps, Start)
  }

  /** The five-player teams A the split considers. */
  const Candidates := Choose(Range(0, Roster), TeamSize)

  /** Applying the corrected leaves in order keeps exactly the first
      feasible leaf of least difference below `1 << 30`. */
  lemma {:induction false} FoldScan(leaves: seq<seq<int>>, ps: seq<LanePlayer>)
    requires AllInRange(leaves, |ps|)
    ensures Fold(leaves, ps, Start) == Pick(leaves, ps)
  {
    if |leaves| > 0 {
      var front := leaves[..|leaves| - 1];
      FoldScan(front, ps);
      FoldScanStep(leaves, ps);
    }
  }

  /** One more leaf: if the fold of the front agrees with the scan of the
      front, the fold of all leaves agrees with the scan of all. */
  lemma FoldScanStep(leaves: seq<seq<int>>, ps: seq<LanePlayer>)
    requires AllInRange(leaves, |ps|) && |leaves| > 0
    requires Fold(leaves[..|leaves| - 1], ps, Start) == Pick(leaves[..|leaves| - 1], ps)
    ensures Fold(leaves, ps, Start) == Pick(leaves, ps)
  {
    var n := |leaves| - 1;
    var front := leaves[..n];
    FoldLast(leaves, ps, Start);
    PickMin(front, ps);
    LeafChoice(leaves[n], ps, Pick(front, ps));
    ScanLast(leaves, ps);
    if Cost(leaves[n], ps).Some? && Cost(leaves[n], ps).value < Pick(front, ps).minDiff {
      PickLast(leaves, ps);
    } else {
      PickFront(leaves, ps);
    }
  }

  /** Folding ends with the last leaf. */
  lemma FoldLast(leaves: seq<seq<int>>, ps: seq<LanePlayer>, st: Best)
    requires AllInRange(leaves, |ps|) && |leaves| > 0
    ensures AllInRange(leaves[..|leaves| - 1], |ps|)
    ensures Fold(leaves, ps, st) ==
      FixedLeaf(leaves[|leaves| - 1], ps, Fold(leaves[..|leaves| - 1], ps, st))
  {
  }

  /** When the scan keeps the last leaf, the pick is that leaf's state. */
  lemma PickLast(leaves: seq<seq<int>>, ps: seq<LanePlayer>)
    requires AllInRange(leaves, |ps|) && |leaves| > 0
    requires Scan(Costs(leaves, ps), Some(Limit)) == Some(|leaves| - 1)
    ensures Pick(leaves, ps) == FixedLeaf(leaves[|leaves| - 1], ps, Start)
  {
  }

  /** The scan of all leaves keeps the last one exactly when its cost is
      below the minimum the front left, and otherwise keeps the front's
      choice. */
  lemma ScanLast(leaves: seq<seq<int>>, ps: seq<LanePlayer>)
    requires AllInRange(leaves, |ps|) && |leaves| > 0
    ensures var n := |leaves| - 1;
      var c := Cost(leaves[n], ps);
      Scan(Costs(leaves, ps), Some(Limit)) ==
        if c.Some? && c.value < Pick(leaves[..n], ps).minDiff then Some(n)
        else Scan(Costs(leaves[..n], ps), Some(Limit))
  {
    var n := |leaves| - 1;
    var front := leaves[..n];
    var costs := Costs(leaves, ps);
    assert Costs(front, ps) == costs[..n];
    assert costs[n] == Cost(leaves[n], ps);
    PickMin(front, ps);
    var prev := Scan(costs[..n], Some(Limit));
    if prev.Some? {
      assert costs[prev.value] == Costs(front, ps)[prev.value];
    }
  }

  /** When the last leaf is not kept, the scan of all leaves picks what
      the scan of the front picked. */
  lemma PickFront(leaves: seq<seq<int>>, ps: seq<LanePlayer>)
    requires AllInRange(leaves, |ps|) && |leaves| > 0
    requires Scan(Costs(leaves, ps), Some(Limit)) ==
      Scan(Costs(leaves[..|leaves| - 1], ps), Some(Limit))
    ensures Pick(leaves, ps) == Pick(leaves[..|leaves| - 1], ps)
  {
    var front := leaves[..|leaves| - 1];
    match Scan(Costs(front, ps), Some(Limit))
    case None =>
    case Some(j) =>
      assert front[j] == leaves[j];
  }

  /** The running minimum after the scan of `leaves`: the kept leaf's cost,
      or the start value. */
  lemma PickMin(leaves: seq<seq<int>>, ps: seq<LanePlayer>)
    requires AllInRange(leaves, |ps|)
    ensures Pick(leaves, ps).minDiff ==
      match Scan(Costs(leaves, ps), Some(Limit))
      case None => Limit
      case Some(i) => Costs(leaves, ps)[i].value
    ensures Pick(leaves, ps).minDiff <= Limit
  {
    ScanSpec(Costs(leaves, ps), Some(Limit));
    match Scan(Costs(leaves, ps), Some(Limit))
    case None =>
    case Some(i) =>
      assert Costs(leaves, ps)[i] == Cost(leaves[i], ps);
      LeafIsVerdict(leaves[i], ps);
  }

  /** A leaf replaces the running best exactly when its cost is below the
      running minimum, and then records the same state as from the start. */
  lemma LeafChoice(c: seq<int>, ps: seq<LanePlayer>, st: Best)
    requires InRange(c, |ps|) && st.minDiff <= Limit
    ensures FixedLeaf(c, ps, st) ==
      if Cost(c, ps).Some? && Cost(c, ps).value < st.minDiff then FixedLeaf(c, ps, Start) else st
  {
    if Cost(c, ps).Some? && Cost(c, ps).value < st.minDiff {
      LeafIsVerdict(c, ps);
    }
  }

  lemma {:induction false} FoldAppend(a: seq<seq<int>>, b: seq<seq<int>>, ps: seq<LanePlayer>, st: Best)
    requires AllInRange(a, |ps|) && AllInRange(b, |ps|)
    ensures AllInRange(a + b, |ps|)
    ensures Fold(a + b, ps, st) == Fold(b, ps, Fold(a, ps, st))
    decreases |b|
  {
    assert AllInRange(a + b, |ps|) by {
      forall i | 0 <= i < |a + b|
        ensures InRange((a + b)[i], |ps|)
      {
        if i >= |a| {
          assert (a + b)[i] == b[i - |a|];
        }
      }
    }
    if |b| == 0 {
      assert a + b == a;
    } else {
      var n := |b| - 1;
      FoldAppend(a, b[..n], ps, st);
      assert (a + b)[..|a + b| - 1] == a + b[..n];
    }
  }

  lemma ExtendAppend(acc: seq<int>, x: seq<seq<int>>, y: seq<seq<int>>)
    ensures Extend(acc, x + y) == Extend(acc, x) + Extend(acc, y)
  {
  }

  lemma ExtendPrepend(acc: seq<int>, h: int, cs: seq<seq<int>>)
    ensures Extend(acc, Prepend(h, cs)) == Extend(acc + [h], cs)
  {
    forall i | 0 <= i < |cs|
      ensures Extend(acc, Prepend(h, cs))[i] == Extend(acc + [h], cs)[i]
    {
      assert acc + ([h] + cs[i]) == (acc + [h]) + cs[i];
    }
  }

  /** Combinations drawn from an in-range `arr`, after an in-range `acc`,
      are in range. */
  lemma ExtendInRange(acc: seq<int>, arr: seq<int>, n: int, m: int)
    requires InRange(acc, m) && InRange(arr, m)
    ensures AllInRange(Extend(acc, Choose(arr, n)), m)
  {
    ChooseWithin(arr, n);
    var e := Extend(acc, Choose(arr, n));
    forall i, j | 0 <= i < |e| && 0 <= j < |e[i]|
      ensures 0 <= e[i][j] < m
    {
      var c := Choose(arr, n)[i];
      assert c in Choose(arr, n);
      if j >= |acc| {
        assert e[i][j] == c[j - |acc|] && c[j - |acc|] in c;
        var q :| 0 <= q < |arr| && arr[q] == c[j - |acc|];
      }
    }
  }

  /** The corrected recursion visits the leaves `acc + c` for the
      combinations `c` of `arr`, in `Choose` order. */
  lemma {:induction false} FixedCombFold(arr: seq<int>, n: int, acc: seq<int>, ps: seq<LanePlayer>, st: Best)
    requires InRange(arr, |ps|) && InRange(acc, |ps|) && n >= 0 && n + |acc| == TeamSize
    ensures AllInRange(Extend(acc, Choose(arr, n)), |ps|)
    ensures FixedComb(arr, n, acc, ps, st) == Fold(Extend(acc, Choose(arr, n)), ps, st)
    decreases |arr|
  {
    ExtendInRange(acc, arr, n, |ps|);
    if |acc| == TeamSize {
      assert Choose(arr, n) == [[]];
      assert acc + [] == acc;
      assert Extend(acc, Choose(arr, n)) == [acc];
      assert [acc][..0] == [];
    } else if |arr| > 0 {
      var t := arr[1..];
      var h := arr[0];
      var acc1 := acc + [h];
      FixedCombFold(t, n - 1, acc1, ps, st);
      var st1 := FixedComb(t, n - 1, acc1, ps, st);
      FixedCombFold(t, n, acc, ps, st1);
      ExtendPrepend(acc, h, Choose(t, n - 1));
      ExtendAppend(acc, Prepend(h, Choose(t, n - 1)), Choose(t, n));
      FoldAppend(Extend(acc, Prepend(h, Choose(t, n - 1))), Extend(acc, Choose(t, n)), ps, st);
    }
  }

  /** The corrected split is the scan's choice among all candidates. */
  lemma LaneUniqueIsScan(ps: seq<LanePlayer>)
    requires |ps| == Roster
    ensures AllInRange(Candidates, |ps|)
    ensures LaneUnique(ps) == Report(Pick(Candidates, ps))
  {
    FixedCombFold(Range(0, Roster), TeamSize, [], ps, Start);
    forall i | 0 <= i < |Candidates|
      ensures Extend([], Candidates)[i] == Candidates[i]
    {
      assert [] + Candidates[i] == Candidates[i];
    }
    assert Extend([], Candidates) == Candidates;
    FoldScan(Candidates, ps);
  }

  /** Membership flags of `arr`'s entries in `acc`. */
  function Flags(arr: seq<int>, acc: seq<int>): (f: seq<bool>)
    ensures |f| == |arr|
  {
    seq(|arr|, i requires 0 <= i < |arr| => arr[i] in acc)
  }

  lemma {:induction false} OthersAsSide(arr: seq<int>, acc: seq<int>)
    ensures Others(arr, acc) == Side(arr, Flags(arr, acc), false)
  {
    if |arr| > 0 {
      OthersAsSide(arr[1..], acc);
      assert Flags(arr, acc)[1..] == Flags(arr[1..], acc);
    }
  }

  /** The complement of an increasing in-range team among `n` holds the
      other `n - |c|` players. */
  lemma ComplementSize(c: seq<int>, n: nat)
    requires Increasing(c) && InRange(c, n)
    ensures |Complement(c, n)| == n - |c|
  {
    OthersAsSide(Range(0, n), c);
    assert Flags(Range(0, n), c) == MaskOf(c, n);
    forall x | x in c
      ensures 0 <= x < n
    {
      var i :| 0 <= i < |c| && c[i] == x;
    }
    MaskOfCount(c, n);
    SidePartition(Range(0, n), MaskOf(c, n));
  }

  /** Facts about the candidate list used by the lemmas below. */
  lemma CandidatesShape()
    ensures forall c :: c in Candidates ==> |c| == TeamSize && Increasing(c) && InRange(c, Roster)
    ensures AllInRange(Candidates, Roster)
  {
    RangeIncreasing(0, Roster);
    ChooseShape(Range(0, Roster), TeamSize);
    forall c | c in Candidates
      ensures InRange(c, Roster)
    {
      forall j | 0 <= j < |c|
        ensures 0 <= c[j] < Roster
      {
        assert c[j] in c;
      }
    }
    forall i | 0 <= i < |Candidates|
      ensures InRange(Candidates[i], Roster)
    {
      assert Candidates[i] in Candidates;
    }
  }

  /** The corrected split reports a split exactly when some candidate team
      A gets lanes on both sides with a difference below `1 << 30`, and
      otherwise says no split exists; it never panics. */
  lemma LaneUniquePresent(ps: seq<LanePlayer>)
    requires |ps| == Roster
    ensures LaneUnique(ps).Found? || LaneUnique(ps).NoSplit?
    ensures LaneUnique(ps).Found? <==>
      exists c :: c in Candidates && Cost(c, ps).Some? && Cost(c, ps).value < Limit
  {
    LaneUniqueIsScan(ps);
    CandidatesShape();
    var costs := Costs(Candidates, ps);
    ScanSpec(costs, Some(Limit));
    match Scan(costs, Some(Limit))
    case None =>
      forall c | c in Candidates && Cost(c, ps).Some?
        ensures Cost(c, ps).value >= Limit
      {
        var j :| 0 <= j < |Candidates| && Candidates[j] == c;
        assert costs[j] == Cost(c, ps);
      }
    case Some(i) =>
      var c := Candidates[i];
      assert c in Candidates && costs[i] == Cost(c, ps);
      ComplementSize(c, Roster);
  }

  /** A reported split is the first candidate of least difference: team A
      is that candidate, team B is every other player, each of the ten
      players is on exactly one side, both teams have valid lanes, and the
      sums are the teams' sums. */
  lemma LaneUniqueFound(ps: seq<LanePlayer>) returns (i: nat)
    requires |ps| == Roster && LaneUnique(ps).Found?
    ensures i < |Candidates| && FirstMinimal(Costs(Candidates, ps), Some(Limit), i)
    ensures var a := LaneUnique(ps).assignment; a.teamA == Candidates[i]
    ensures var a := LaneUnique(ps).assignment; a.teamB == Complement(a.teamA, Roster)
    ensures var a := LaneUnique(ps).assignment; |a.teamA| == TeamSize && |a.teamB| == TeamSize
    ensures var a := LaneUnique(ps).assignment;
      forall x :: 0 <= x < Roster ==> (x in a.teamA <==> x !in a.teamB)
    ensures var a := LaneUnique(ps).assignment;
      ValidRoles(a.teamA, ps, a.rolesA) && ValidRoles(a.teamB, ps, a.rolesB)
    ensures var a := LaneUnique(ps).assignment;
      a.sumA == TeamSkill(a.teamA, ps) && a.sumB == TeamSkill(a.teamB, ps)
    ensures var a := LaneUnique(ps).assignment; Cost(a.teamA, ps) == Some(Abs(a.sumA - a.sumB))
  {
    LaneUniqueIsScan(ps);
    CandidatesShape();
    var costs := Costs(Candidates, ps);
    ScanSpec(costs, Some(Limit));
    i := Scan(costs, Some(Limit)).value;
    var c := Candidates[i];
    assert c in Candidates && costs[i] == Cost(c, ps);
    LeafFound(c, ps);
    ComplementSize(c, Roster);
    ComplementPartition(c, Roster);
  }

  /** The reported team A is the first candidate of least difference, and
      that difference is the reported one. */
  lemma LaneUniqueChoice(ps: seq<LanePlayer>) returns (i: nat)
    requires |ps| == Roster && LaneUnique(ps).Found?
    ensures i < |Candidates| && FirstMinimal(Costs(Candidates, ps), Some(Limit), i)
    ensures var a := LaneUnique(ps).assignment;
      a.teamA == Candidates[i] && Costs(Candidates, ps)[i] == Some(Abs(a.sumA - a.sumB))
  {
    i := LaneUniqueFound(ps);
  }

  /** A leaf whose difference beats the start value records team A, its
      complement, both teams' lanes and sums. */
  lemma LeafFound(c: seq<int>, ps: seq<LanePlayer>)
    requires InRange(c, |ps|) && Cost(c, ps).Some? && Cost(c, ps).value < Limit
    ensures var st := FixedLeaf(c, ps, Start);
      && st.teamA == c && st.teamB == Complement(c, |ps|)
      && ValidRoles(st.teamA, ps, st.rolesA) && ValidRoles(st.teamB, ps, st.rolesB)
      && st.sumA == TeamSkill(st.teamA, ps) && st.sumB == TeamSkill(st.teamB, ps)
      && Cost(c, ps) == Some(Abs(st.sumA - st.sumB))
  {
    LeafRecords(c, ps);
    LeafSums(c, ps);
    LeafCost(c, ps);
  }

  /** The leaf keeps team A, its complement and both teams' lanes. */
  lemma LeafRecords(c: seq<int>, ps: seq<LanePlayer>)
    requires InRange(c, |ps|) && Cost(c, ps).Some? && Cost(c, ps).value < Limit
    ensures var st := FixedLeaf(c, ps, Start);
      && st.teamA == c && st.teamB == Complement(c, |ps|)
      && ValidRoles(st.teamA, ps, st.rolesA) && ValidRoles(st.teamB, ps, st.rolesB)
  {
    LeafIsVerdict(c, ps);
  }

  /** The leaf keeps both teams' sums. */
  lemma LeafSums(c: seq<int>, ps: seq<LanePlayer>)
    requires InRange(c, |ps|) && Cost(c, ps).Some? && Cost(c, ps).value < Limit
    ensures var st := FixedLeaf(c, ps, Start);
      st.sumA == TeamSkill(c, ps) && st.sumB == TeamSkill(Complement(c, |ps|), ps)
  {
    LeafIsVerdict(c, ps);
    JudgeSome(c, Complement(c, |ps|), ps);
  }

  /** The leaf's cost is the difference of the sums it keeps. */
  lemma LeafCost(c: seq<int>, ps: seq<LanePlayer>)
    requires InRange(c, |ps|) && Cost(c, ps).Some? && Cost(c, ps).value < Limit
    ensures var st := FixedLeaf(c, ps, Start);
      Cost(c, ps) == Some(Abs(st.sumA - st.sumB))
  {
    LeafIsVerdict(c, ps);
    JudgeSome(c, Complement(c, |ps|), ps);
  }

  /** A leaf that beats the start value records its verdict. */
  lemma LeafIsVerdict(c: seq<int>, ps: seq<LanePlayer>)
    requires InRange(c, |ps|) && Cost(c, ps).Some? && Cost(c, ps).value < Limit
    ensures var b := Complement(c, |ps|);
      var v := Judge(c, b, ps);
      && v.Some? && Cost(c, ps) == Some(v.value.diff)
      && FixedLeaf(c, ps, Start) ==
        Best(v.value.diff, c, b, v.value.rolesA, v.value.rolesB, v.value.sumA, v.value.sumB)
  {
  }

  /** A verdict records both teams' lanes and sums, and their difference. */
  lemma JudgeSome(a: seq<int>, b: seq<int>, ps: seq<LanePlayer>)
    requires InRange(a, |ps|) && InRange(b, |ps|) && Judge(a, b, ps).Some?
    ensures var v := Judge(a, b, ps).value;
      && ValidRoles(a, ps, v.rolesA) && ValidRoles(b, ps, v.rolesB)
      && v.sumA == TeamSkill(a, ps) && v.sumB == TeamSkill(b, ps)
      && v.diff == Abs(v.sumA - v.sumB)
  {
  }

  /** Every player below `n` is either in `acc` or in its complement, and
      never in both. */
  lemma ComplementPartition(acc: seq<int>, n: nat)
    ensures forall x :: 0 <= x < n ==> (x in acc <==> x !in Complement(acc, n))
  {
    RangeIncreasing(0, n);
    OthersMembers(Range(0, n), acc);
  }

  /** No five-player team A with lanes on both sides has a smaller
      difference than the reported split. */
  lemma LaneUniqueOptimal(ps: seq<LanePlayer>)
    requires |ps| == Roster && LaneUnique(ps).Found?
    ensures var a := LaneUnique(ps).assignment;
      forall c :: Increasing(c) && |c| == TeamSize && InRange(c, Roster) && Cost(c, ps).Some? ==>
        Abs(a.sumA - a.sumB) <= Cost(c, ps).value
  {
    var i := LaneUniqueChoice(ps);
    var d := Abs(LaneUnique(ps).assignment.sumA - LaneUnique(ps).assignment.sumB);
    var costs := Costs(Candidates, ps);
    assert costs[i] == Some(d);
    forall c | Increasing(c) && |c| == TeamSize && InRange(c, Roster) && Cost(c, ps).Some?
      ensures d <= Cost(c, ps).value
    {
      CandidateOf(c);
      var j :| 0 <= j < |Candidates| && Candidates[j] == c;
      assert costs[j] == Cost(c, ps);
    }
  }

  /** Every candidate the recursion visits before the reported one has a
      strictly larger difference. */
  lemma LaneUniqueFirst(ps: seq<LanePlayer>)
    requires |ps| == Roster && LaneUnique(ps).Found?
    ensures var a := LaneUnique(ps).assignment;
      forall c :: c in Candidates && LexLess(c, a.teamA) && Cost(c, ps).Some? ==>
        Abs(a.sumA - a.sumB) < Cost(c, ps).value
  {
    var i := LaneUniqueChoice(ps);
    var teamA := LaneUnique(ps).assignment.teamA;
    var d := Abs(LaneUnique(ps).assignment.sumA - LaneUnique(ps).assignment.sumB);
    assert Costs(Candidates, ps)[i] == Some(d);
    forall c | c in Candidates && LexLess(c, teamA) && Cost(c, ps).Some?
      ensures d < Cost(c, ps).value
    {
      var j :| 0 <= j < |Candidates| && Candidates[j] == c;
      EarlierCostsMore(ps, i, j);
    }
  }

  /** A candidate before the first one of least difference costs more. */
  lemma EarlierCostsMore(ps: seq<LanePlayer>, i: nat, j: nat)
    requires i < |Candidates| && FirstMinimal(Costs(Candidates, ps), Some(Limit), i)
    requires j < |Candidates| && LexLess(Candidates[j], Candidates[i])
    requires Cost(Candidates[j], ps).Some?
    ensures Costs(Candidates, ps)[i].value < Cost(Candidates[j], ps).value
  {
    RangeIncreasing(0, Roster);
    ChooseSorted(Range(0, Roster), TeamSize);
    LexOrderIndex(Candidates, j, i);
    assert Costs(Candidates, ps)[j] == Cost(Candidates[j], ps);
  }

  // ---------------------------------------------------------------------
  // When first-fit succeeds, and when it does not
  // ---------------------------------------------------------------------

  /** The distinct lanes a player lists. */
  function LaneSet(p: LanePlayer): set<string>
  {
    set l | l in p.lanes
  }

  lemma {:induction false} SubsetCard<T>(a: set<T>, b: set<T>)
    ensures a <= b ==> |a| <= |b|
    decreases |a|
  {
    if a != {} && a <= b {
      var x :| x in a;
      SubsetCard(a - {x}, b - {x});
    }
  }

  /** A player listing more distinct lanes than are taken finds one. */
  lemma FreeLaneExists(p: LanePlayer, used: set<string>)
    requires |used| < |LaneSet(p)|
    ensures FirstFree(p.lanes, used).Some?
  {
    SubsetCard(LaneSet(p), used);
    assert FirstFree(p.lanes, used).None? ==> LaneSet(p) <= used;
  }

  /** First-fit gives every member a lane when each member lists at least
      as many distinct lanes as there are members plus lanes already taken
      (pigeonhole: a member never finds all of its lanes taken). */
  lemma {:induction false} AssignSucceeds(team: seq<int>, ps: seq<LanePlayer>, used: set<string>)
    requires InRange(team, |ps|)
    requires forall i :: 0 <= i < |team| ==> |team| + |used| <= |LaneSet(ps[team[i]])|
    ensures Assign(team, ps, used).Some?
    decreases |team|
  {
    if |team| > 0 {
      FreeLaneExists(ps[team[0]], used);
      var l := FirstFree(ps[team[0]].lanes, used).value;
      assert |used + {l}| == |used| + 1;
      assert forall i :: 0 <= i < |team| - 1 ==> team[1..][i] == team[i + 1];
      AssignSucceeds(team[1..], ps, used + {l});
    }
  }

  /** First-fit is not a matching: here player 0 takes TOP, player 1 then
      finds its only lane taken, although MIDDLE for player 0 and TOP for
      player 1 would be valid. */
  lemma FirstFitCanMiss(ps: seq<LanePlayer>)
    requires ps == [LanePlayer(2, ["TOP", "MIDDLE"]), LanePlayer(1, ["TOP"])]
    ensures Assign([0, 1], ps, {}).None?
    ensures ValidRoles([0, 1], ps, ["MIDDLE", "TOP"])
  {
    assert FirstFree(ps[0].lanes, {}) == Some("TOP");
    assert FirstFree(ps[1].lanes, {"TOP"}) == None;
    assert Assign([0, 1][1..], ps, {"TOP"}) == None;
  }

  // ---------------------------------------------------------------------
  // A roster where the app misses the balanced split
  // ---------------------------------------------------------------------

  const FiveLanes := ["TOP", "JUNGLE", "MIDDLE", "BOTTOM", "UTILITY"]

  /** The lane of player `i` in the roster below: players `i` and `i + 5`
      share one. */
  function LaneIndex(i: int): (l: int)
    ensures 0 <= i < Roster ==> 0 <= l < TeamSize
  {
    if i < TeamSize then i else i - TeamSize
  }

  /** Ten players with skills 10 down to 1, player `i` listing the one lane
      `FiveLanes[LaneIndex(i)]`. A player's lanes are its main lanes, of
      which there are at most two. */
  predicate Descending(ps: seq<LanePlayer>)
  {
    |ps| == Roster && forall i :: 0 <= i < Roster ==> ps[i] == LanePlayer(Roster - i, [FiveLanes[LaneIndex(i)]])
  }

  lemma FiveLanesDistinct()
    ensures |FiveLanes| == TeamSize
    ensures forall a, b :: 0 <= a < b < TeamSize ==> FiveLanes[a] != FiveLanes[b]
  {
  }

  /** First fit gives every member its one listed lane when those lanes
      differ from each other and from the lanes already taken. */
  lemma {:induction false} AssignSingles(team: seq<int>, ps: seq<LanePlayer>, used: set<string>)
    requires InRange(team, |ps|)
    requires forall i :: 0 <= i < |team| ==> |ps[team[i]].lanes| == 1 && ps[team[i]].lanes[0] !in used
    requires forall i, j :: 0 <= i < j < |team| ==> ps[team[i]].lanes[0] != ps[team[j]].lanes[0]
    ensures Assign(team, ps, used).Some?
    decreases |team|
  {
    if |team| > 0 {
      var l := ps[team[0]].lanes[0];
      assert FirstFree(ps[team[0]].lanes, used) == Some(l);
      var rest := team[1..];
      assert forall i :: 0 <= i < |rest| ==> rest[i] == team[i + 1];
      AssignSingles(rest, ps, used + {l});
    }
  }

  /** The five members of `team` take the lanes in turn, starting from
      lane `s`. */
  predicate InTurn(team: seq<int>, s: int)
    requires |team| == TeamSize
  {
    && LaneIndex(team[0]) == LaneIndex(s) && LaneIndex(team[1]) == LaneIndex(s + 1)
    && LaneIndex(team[2]) == LaneIndex(s + 2) && LaneIndex(team[3]) == LaneIndex(s + 3)
    && LaneIndex(team[4]) == LaneIndex(s + 4)
  }

  /** In that roster a team of five gets lanes when its members take the
      lanes in turn. */
  lemma DescendingAssign(team: seq<int>, ps: seq<LanePlayer>, s: int)
    requires Descending(ps) && InRange(team, Roster) && |team| == TeamSize && 0 <= s < TeamSize
    requires InTurn(team, s)
    ensures Assign(team, ps, {}).Some?
  {
    FiveLanesDistinct();
    InTurnApart(team, s);
    assert forall i :: 0 <= i < |team| ==> ps[team[i]].lanes == [FiveLanes[LaneIndex(team[i])]];
    AssignSingles(team, ps, {});
  }

  /** Members taking the lanes in turn never share one. */
  lemma InTurnApart(team: seq<int>, s: int)
    requires |team| == TeamSize && 0 <= s < TeamSize && InTurn(team, s)
    ensures forall i, j :: 0 <= i < j < TeamSize ==> LaneIndex(team[i]) != LaneIndex(team[j])
  {
    forall i | 0 <= i < TeamSize
      ensures LaneIndex(team[i]) == LaneIndex(i + s)
    {
      if i == 0 {
      } else if i == 1 {
      } else if i == 2 {
      } else if i == 3 {
      } else {
      }
    }
  }

  /** For that roster the app reports no lane-unique split at all, while
      the corrected split finds a difference of at most 5 (10+9+8+2+1
      against 7+6+5+4+3 is one such split). The app's first leaf, 10+9+8+7+6
      against 5+4+3+2+1, differs by 25; later leaves whose team B is short
      still lower `minDiff`, down to 15 at the last leaf (5+4+3+2+1 against
      nobody), and the first split is dropped. */
  lemma AppMissesBalancedSplit(ps: seq<LanePlayer>)
    requires Descending(ps)
    ensures AppLaneUnique(ps) == NoSplit
    ensures LaneUnique(ps).Found?
    ensures Abs(LaneUnique(ps).assignment.sumA - LaneUnique(ps).assignment.sumB) <= 5
  {
    AppReportsNothing(ps);
    FixedExampleBalanced(ps);
  }

  lemma AppReportsNothing(ps: seq<LanePlayer>)
    requires Descending(ps)
    ensures AppLaneUnique(ps) == NoSplit
  {
    AppTopInvariant(ps);
    var st := AppComb(Range(0, Roster), TeamSize, [], ps, Start).value;
    SkipChainBound(ps, 0, Start);
    if |st.teamA| == TeamSize && |st.teamB| == TeamSize {
      FirstRanges();
      FirstSplitGap(ps, Assignment(st.teamA, st.teamB, st.rolesA, st.rolesB, st.sumA, st.sumB));
    }
  }

  /** With fewer than five players left to choose from, `comb` reaches no
      leaf and leaves the state alone. */
  lemma {:induction false} AppCombShort(arr: seq<int>, n: int, acc: seq<int>, ps: seq<LanePlayer>, st: Best)
    requires InRange(arr, |ps|) && InRange(acc, |ps|)
    requires |acc| + |arr| < TeamSize
    ensures AppComb(arr, n, acc, ps, st) == Some(st)
    decreases |arr|
  {
    if n != 0 && |arr| > 0 {
      AppCombShort(arr[1..], n - 1, acc + [arr[0]], ps, st);
      AppCombShort(arr[1..], n, acc, ps, st);
    }
  }

  /** With exactly five players left to choose from, `comb` reaches one
      leaf, taking all of them, with nothing left for team B. */
  lemma {:induction false} AppCombExact(arr: seq<int>, acc: seq<int>, ps: seq<LanePlayer>, st: Best)
    requires InRange(arr, |ps|) && InRange(acc, |ps|)
    requires |acc| + |arr| == TeamSize
    ensures InRange(acc + arr, |ps|)
    ensures AppComb(arr, |arr|, acc, ps, st) == AppLeaf([], acc + arr, ps, st)
    decreases |arr|
  {
    if |arr| == 0 {
      assert acc + arr == acc;
    } else {
      var acc1 := acc + [arr[0]];
      AppCombExact(arr[1..], acc1, ps, st);
      assert acc1 + arr[1..] == acc + arr;
      AppCombShort(arr[1..], |arr|, acc, ps, AppLeaf([], acc + arr, ps, st).value);
    }
  }

  /** A leaf with nothing left in `arr` judges `acc` against nobody. */
  lemma AppLeafEmpty(acc: seq<int>, ps: seq<LanePlayer>, st: Best)
    requires InRange(acc, |ps|)
    ensures AppLeaf([], acc, ps, st) == Some(Update(st, acc, [], Judge(acc, [], ps)))
  {
    assert Others([], acc) == [];
    assert !Overflows([], ps);
  }

  /** Players 5 to 9 of the descending roster, against nobody, differ
      by 15. */
  lemma JudgeLast(ps: seq<LanePlayer>)
    requires Descending(ps)
    ensures InRange([5, 6, 7, 8, 9], |ps|) && InRange([], |ps|)
    ensures Judge([5, 6, 7, 8, 9], [], ps).Some? && Judge([5, 6, 7, 8, 9], [], ps).value.diff == 15
  {
    FirstHalves();
    ExampleTeam(ps, [5, 6, 7, 8, 9], 0, 15);
    assert Assign([], ps, {}) == Some([]);
    assert TeamSkill([], ps) == 0;
  }

  /** On the descending roster the last leaf, players 5 to 9 against
      nobody, differs by 15, so `minDiff` ends at most there. */
  lemma LastLeafBound(ps: seq<LanePlayer>, st: Best)
    requires Descending(ps)
    ensures AppComb(Range(TeamSize, Roster), TeamSize, [], ps, st).Some?
    ensures AppComb(Range(TeamSize, Roster), TeamSize, [], ps, st).value.minDiff <= 15
  {
    var last := [5, 6, 7, 8, 9];
    FirstRanges();
    JudgeLast(ps);
    AppCombExact(last, [], ps, st);
    assert [] + last == last;
    AppLeafEmpty(last, ps, st);
  }

  /** Skipping players `k` to 4 at the top keeps the bound of the last
      leaf. */
  lemma {:induction false} SkipChainBound(ps: seq<LanePlayer>, k: int, st: Best)
    requires Descending(ps) && 0 <= k <= TeamSize
    requires OnlyFirst(st) && Consistent(st, ps)
    ensures AppComb(Range(k, Roster), TeamSize, [], ps, st).Some?
    ensures AppComb(Range(k, Roster), TeamSize, [], ps, st).value.minDiff <= 15
    decreases TeamSize - k
  {
    if k == TeamSize {
      LastLeafBound(ps, st);
    } else {
      var arr := Range(k, Roster);
      RangeTail(k, Roster);
      var acc1 := [] + [arr[0]];
      TakeShaped(k);
      AppCombInvariant(arr[1..], TeamSize - 1, acc1, ps, st, k + 1);
      var st1 := AppComb(arr[1..], TeamSize - 1, acc1, ps, st).value;
      SkipChainBound(ps, k + 1, st1);
      AppCombSplit(arr, TeamSize, [], ps, st);
    }
  }

  /** Taking player `k` first at the top keeps the recursion's shape. */
  lemma TakeShaped(k: int)
    requires 0 <= k < Roster
    ensures Shaped(Range(k + 1, Roster), [] + [k], k + 1)
  {
    assert [] + [k] == [k];
  }

  lemma FirstSplitGap(ps: seq<LanePlayer>, a: Assignment)
    requires Descending(ps) && a.teamA == [0, 1, 2, 3, 4] && a.teamB == [5, 6, 7, 8, 9]
    requires a.sumA == TeamSkill(a.teamA, ps) && a.sumB == TeamSkill(a.teamB, ps)
    ensures Abs(a.sumA - a.sumB) == 25
  {
    FirstHalves();
    ExampleTeam(ps, a.teamA, 0, 40);
    ExampleTeam(ps, a.teamB, 0, 15);
  }

  lemma FirstHalves()
    ensures InRange([0, 1, 2, 3, 4], Roster) && Sum([0, 1, 2, 3, 4]) == 10
    ensures InRange([5, 6, 7, 8, 9], Roster) && Sum([5, 6, 7, 8, 9]) == 35
  {
  }

  lemma FixedExampleBalanced(ps: seq<LanePlayer>)
    requires Descending(ps)
    ensures LaneUnique(ps).Found?
    ensures Abs(LaneUnique(ps).assignment.sumA - LaneUnique(ps).assignment.sumB) <= 5
  {
    BalancedCost(ps);
    ExampleCandidate();
    FoundWithin(ps, [0, 1, 2, 8, 9], 5);
  }

  /** A candidate with lanes on both sides and difference `k` below the
      start value guarantees a reported split whose difference is at most
      `k`. */
  lemma FoundWithin(ps: seq<LanePlayer>, c: seq<int>, k: int)
    requires |ps| == Roster
    requires Increasing(c) && |c| == TeamSize && InRange(c, Roster)
    requires Cost(c, ps) == Some(k) && k < Limit
    ensures LaneUnique(ps).Found?
    ensures Abs(LaneUnique(ps).assignment.sumA - LaneUnique(ps).assignment.sumB) <= k
  {
    CandidateOf(c);
    LaneUniquePresent(ps);
    LaneUniqueOptimal(ps);
  }

  lemma ExampleCandidate()
    ensures var c := [0, 1, 2, 8, 9];
      c in Candidates && Increasing(c) && |c| == TeamSize && InRange(c, Roster)
  {
    CandidateOf([0, 1, 2, 8, 9]);
  }

  /** An increasing five-player team drawn from the roster is a
      candidate. */
  lemma CandidateOf(c: seq<int>)
    requires Increasing(c) && |c| == TeamSize && InRange(c, Roster)
    ensures c in Candidates
  {
    RangeIncreasing(0, Roster);
    forall x | x in c
      ensures x in Range(0, Roster)
    {
      var q :| 0 <= q < |c| && c[q] == x;
    }
    ChooseComplete(Range(0, Roster), TeamSize, c);
  }

  /** In that roster a team's skill is ten per member less the sum of
      its indices. */
  lemma {:induction false} DescendingSkill(team: seq<int>, ps: seq<LanePlayer>)
    requires Descending(ps) && InRange(team, Roster)
    ensures TeamSkill(team, ps) == Roster * |team| - Sum(team)
  {
    if |team| > 0 {
      DescendingSkill(team[1..], ps);
    }
  }

  lemma ExampleComplement()
    ensures Complement([0, 1, 2, 8, 9], Roster) == [3, 4, 5, 6, 7]
  {
    OthersOfSplit([0, 1, 2, 8, 9], 3, 8, Roster);
    assert Range(3, 8) == [3, 4, 5, 6, 7];
  }

  /** A team holding the players below `lo` and from `hi` up leaves the
      players from `lo` to `hi`. */
  lemma OthersOfSplit(acc: seq<int>, lo: int, hi: int, n: int)
    requires 0 <= lo <= hi <= n
    requires forall x :: 0 <= x < lo ==> x in acc
    requires forall x :: lo <= x < hi ==> x !in acc
    requires forall x :: hi <= x < n ==> x in acc
    ensures Others(Range(0, n), acc) == Range(lo, hi)
  {
    OthersOfThirds(acc, lo, hi, n);
    OthersRange(acc, 0, lo, true);
    OthersRange(acc, lo, hi, false);
    OthersRange(acc, hi, n, true);
  }

  /** Of a range wholly inside `acc` nothing survives; of a range wholly
      outside it everything does. */
  lemma {:induction false} OthersRange(acc: seq<int>, lo: int, hi: int, inside: bool)
    requires lo <= hi
    requires forall x :: lo <= x < hi ==> (x in acc <==> inside)
    ensures Others(Range(lo, hi), acc) == if inside then [] else Range(lo, hi)
    decreases hi - lo
  {
    if lo < hi {
      RangeTail(lo, hi);
      OthersRange(acc, lo + 1, hi, inside);
    }
  }

  lemma OthersOfThirds(acc: seq<int>, lo: int, hi: int, n: int)
    requires 0 <= lo <= hi <= n
    ensures Others(Range(0, n), acc) == Others(Range(0, lo), acc) + Others(Range(lo, hi), acc) + Others(Range(hi, n), acc)
  {
    var a, b, c := Range(0, lo), Range(lo, hi), Range(hi, n);
    RangeSplit(0, hi, n);
    RangeSplit(0, lo, hi);
    OthersAppend(a + b, c, acc);
    OthersAppend(a, b, acc);
  }

  lemma RangeSplit(lo: int, mid: int, hi: int)
    requires lo <= mid <= hi
    ensures Range(lo, hi) == Range(lo, mid) + Range(mid, hi)
  {
  }

  lemma ExampleRange()
    ensures Range(0, Roster) == [0, 1, 2, 3, 4, 5, 6, 7, 8, 9]
  {
  }

  /** `Others` over two lists in a row walks one, then the other. */
  lemma {:induction false} OthersAppend(a: seq<int>, b: seq<int>, acc: seq<int>)
    ensures Others(a + b, acc) == Others(a, acc) + Others(b, acc)
    decreases |a|
  {
    if |a| == 0 {
      assert a + b == b;
    } else {
      var ab, h := a + b, if a[0] in acc then [] else [a[0]];
      assert ab[0] == a[0] && ab[1..] == a[1..] + b;
      assert Others(ab, acc) == h + Others(a[1..] + b, acc);
      OthersAppend(a[1..], b, acc);
      assert h + (Others(a[1..], acc) + Others(b, acc)) == (h + Others(a[1..], acc)) + Others(b, acc);
    }
  }

  /** Team 0, 1, 2, 8, 9 against the rest: 30 against 25. */
  lemma BalancedCost(ps: seq<LanePlayer>)
    requires Descending(ps)
    ensures Cost([0, 1, 2, 8, 9], ps) == Some(5)
  {
    var a, b := [0, 1, 2, 8, 9], [3, 4, 5, 6, 7];
    ExampleComplement();
    BalancedSides(ps);
    CostOfSides(a, b, ps);
  }

  lemma BalancedSides(ps: seq<LanePlayer>)
    requires Descending(ps)
    ensures InRange([0, 1, 2, 8, 9], Roster) && InRange([3, 4, 5, 6, 7], Roster)
    ensures Assign([0, 1, 2, 8, 9], ps, {}).Some? && TeamSkill([0, 1, 2, 8, 9], ps) == 30
    ensures Assign([3, 4, 5, 6, 7], ps, {}).Some? && TeamSkill([3, 4, 5, 6, 7], ps) == 25
  {
    BalancedHalves();
    ExampleTeam(ps, [0, 1, 2, 8, 9], 0, 30);
    ExampleTeam(ps, [3, 4, 5, 6, 7], 3, 25);
  }

  lemma BalancedHalves()
    ensures InRange([0, 1, 2, 8, 9], Roster) && Sum([0, 1, 2, 8, 9]) == 20
    ensures InRange([3, 4, 5, 6, 7], Roster) && Sum([3, 4, 5, 6, 7]) == 25
  {
  }

  /** The difference of a team A whose complement is `b`, when both get
      lanes. */
  lemma CostOfSides(a: seq<int>, b: seq<int>, ps: seq<LanePlayer>)
    requires InRange(a, |ps|) && Complement(a, |ps|) == b
    requires Assign(a, ps, {}).Some? && Assign(b, ps, {}).Some?
    ensures Cost(a, ps) == Some(Abs(TeamSkill(a, ps) - TeamSkill(b, ps)))
  {
    var v := Judge(a, b, ps);
    assert v.Some? && v.value.diff == Abs(TeamSkill(a, ps) - TeamSkill(b, ps));
  }

  /** A five-member team of that roster whose members take the lanes in
      turn gets lanes, and its skill is fifty less the sum of its indices. */
  lemma ExampleTeam(ps: seq<LanePlayer>, team: seq<int>, s: int, skill: int)
    requires Descending(ps) && InRange(team, Roster) && |team| == TeamSize && 0 <= s < TeamSize
    requires InTurn(team, s)
    requires skill == Roster * TeamSize - Sum(team)
    ensures Assign(team, ps, {}).Some? && TeamSkill(team, ps) == skill
  {
    DescendingAssign(team, ps, s);
    DescendingSkill(team, ps);
  }
}

=== FILE: limiter.dfy ===
/** The two-window rate limiter `RiotLimiter` as a state-transition function.

    The limiter keeps two logs of admission timestamps: a one-second log
    capped at 20 entries and a two-minute log capped at 100. One pass of the
    loop in `Wait` is `Attempt`: it drops from the front of each log every
    entry strictly before `now` minus the window, then either admits `now`
    (appending it to both logs) or reports how long to sleep.

    Time is an explicit integer clock in milliseconds; the source reads
    `time.Now()` and calls `time.Sleep`, which here become the `now`
    argument and the returned `sleepMs`.
 */
module Limiter {
  import opened Common

  const ShortWindowMs := 1000
  const ShortCap := 20
  const LongWindowMs := 120000
  const LongCap := 100
  const MinSleepMs := 10

  datatype State = State(secWin: seq<int>, twoMin: seq<int>)

  datatype Step =
    | Admitted(next: State)
    | Blocked(next: State, sleepMs: int)

  const Empty := State([], [])

  /** Drop leading entries strictly before `cutoff` (Go's `Before`). */
  function Prune(log: seq<int>, cutoff: int): (r: seq<int>)
    ensures |r| <= |log|
  {
    if |log| > 0 && log[0] < cutoff then Prune(log[1..], cutoff) else log
  }

  /** Pruning keeps a suffix of the log, drops exactly the leading entries
      strictly before the cutoff, and stops at the first entry that is not. */
  lemma {:induction false} PruneSpec(log: seq<int>, cutoff: int)
    ensures var r := Prune(log, cutoff);
      && r == log[|log| - |r|..]
      && (|r| > 0 ==> r[0] >= cutoff)
      && (forall k :: 0 <= k < |log| - |r| ==> log[k] < cutoff)
  {
    if |log| > 0 && log[0] < cutoff {
      var r := Prune(log[1..], cutoff);
      PruneSpec(log[1..], cutoff);
      assert log[1..][|log[1..]| - |r|..] == log[|log| - |r|..];
    }
  }

  /** How long the oldest entry of a full log still blocks: zero if the log
      is under its cap or the entry has already left the window. */
  function WaitFor(log: seq<int>, cap: int, window: int, now: int): (w: int)
    ensures w >= 0
    ensures |log| >= cap && |log| > 0 ==> w >= log[0] + window - now
    ensures w > 0 ==> |log| >= cap && |log| > 0 && w == log[0] + window - now
  {
    if |log| >= cap && |log| > 0 then Max(0, log[0] + window - now) else 0
  }

  /** One pass of the loop in `RiotLimiter.Wait` at time `now`. */
  function Attempt(s: State, now: int): (r: Step)
    ensures var sec, two := Prune(s.secWin, now - ShortWindowMs), Prune(s.twoMin, now - LongWindowMs);
      && (r.Admitted? <==> |sec| < ShortCap && |two| < LongCap)
      && (r.Admitted? ==> r.next == State(sec + [now], two + [now]))
      && (r.Blocked? ==> r.next == State(sec, two))
      && (r.Blocked? ==>
            && r.sleepMs >= MinSleepMs
            && r.sleepMs >= WaitFor(sec, ShortCap, ShortWindowMs, now)
            && r.sleepMs >= WaitFor(two, LongCap, LongWindowMs, now)
            && (|| r.sleepMs == MinSleepMs
                || r.sleepMs == WaitFor(sec, ShortCap, ShortWindowMs, now)
                || r.sleepMs == WaitFor(two, LongCap, LongWindowMs, now)))
  {
    var sec := Prune(s.secWin, now - ShortWindowMs);
    var two := Prune(s.twoMin, now - LongWindowMs);
    if |sec| < ShortCap && |two| < LongCap then
      Admitted(State(sec + [now], two + [now]))
    else
      var wait1 := WaitFor(sec, ShortCap, ShortWindowMs, now);
      var wait2 := WaitFor(two, LongCap, LongWindowMs, now);
      var sleepFor := Max(wait1, wait2);
      Blocked(State(sec, two), Max(sleepFor, MinSleepMs))
  }

  // ---------------------------------------------------------------------
  // History and the window caps
  // ---------------------------------------------------------------------

  /** Number of entries of `h` in the closed interval [lo, hi]. */
  function CountIn(h: seq<int>, lo: int, hi: int): (c: nat)
    ensures c <= |h|
  {
    if |h| == 0 then 0
    else (if lo <= h[0] <= hi then 1 else 0) + CountIn(h[1..], lo, hi)
  }

  ghost predicate Ascending(h: seq<int>)
  {
    forall i, j :: 0 <= i < j < |h| ==> h[i] <= h[j]
  }

  /** Every admission respected both caps: counting all admissions up to and
      including the k-th, at most 20 fall in the closed second before it and
      at most 100 in the closed two minutes before it. */
  ghost predicate CapsHeld(h: seq<int>)
  {
    forall k :: 0 <= k < |h| ==> AdmissionWithinCaps(h, k)
  }

  /** The k-th admission of `h`, counted with everything admitted before it,
      leaves both windows ending at it within their caps. */
  ghost predicate AdmissionWithinCaps(h: seq<int>, k: int)
    requires 0 <= k < |h|
  {
    && CountIn(h[..k + 1], h[k] - ShortWindowMs, h[k]) <= ShortCap
    && CountIn(h[..k + 1], h[k] - LongWindowMs, h[k]) <= LongCap
  }

  /** `log` is what is left of the admission history `h` once every entry
      strictly before `now - window` has been dropped from the front. */
  ghost predicate WindowOf(log: seq<int>, h: seq<int>, now: int, window: int)
  {
    && |log| <= |h| && log == h[|h| - |log|..]
    && (forall k :: 0 <= k < |h| - |log| ==> h[k] < now - window)
    && (|log| > 0 ==> log[0] >= now - window)
  }

  /** The limiter state after an attempt at `now`, given the history `h` of
      all admissions so far. */
  ghost predicate Inv(s: State, h: seq<int>, now: int)
  {
    && Ascending(h)
    && (forall k :: 0 <= k < |h| ==> h[k] <= now)
    && WindowOf(s.secWin, h, now, ShortWindowMs)
    && WindowOf(s.twoMin, h, now, LongWindowMs)
    && |s.secWin| <= ShortCap && |s.twoMin| <= LongCap
    && CapsHeld(h)
  }

  lemma {:induction false} CountInAppend(a: seq<int>, b: seq<int>, lo: int, hi: int)
    ensures CountIn(a + b, lo, hi) == CountIn(a, lo, hi) + CountIn(b, lo, hi)
  {
    if |a| == 0 {
      assert a + b == b;
    } else {
      assert (a + b)[1..] == a[1..] + b;
      CountInAppend(a[1..], b, lo, hi);
    }
  }

  lemma {:induction false} CountInNone(h: seq<int>, lo: int, hi: int)
    requires forall k :: 0 <= k < |h| ==> h[k] < lo || h[k] > hi
    ensures CountIn(h, lo, hi) == 0
  {
    if |h| > 0 {
      CountInNone(h[1..], lo, hi);
    }
  }

  lemma {:induction false} CountInAll(h: seq<int>, lo: int, hi: int)
    requires forall k :: 0 <= k < |h| ==> lo <= h[k] <= hi
    ensures CountIn(h, lo, hi) == |h|
  {
    if |h| > 0 {
      CountInAll(h[1..], lo, hi);
    }
  }

  /** A window holding every entry that another window holds counts at least
      as many. */
  lemma {:induction false} CountInMono(h: seq<int>, lo: int, hi: int, lo': int, hi': int)
    requires forall k :: 0 <= k < |h| && lo <= h[k] <= hi ==> lo' <= h[k] <= hi'
    ensures CountIn(h, lo, hi) <= CountIn(h, lo', hi')
  {
    if |h| > 0 {
      CountInMono(h[1..], lo, hi, lo', hi');
    }
  }

  /** Pruning at a later time keeps a log a window of the history. */
  lemma PruneWindow(log: seq<int>, h: seq<int>, last: int, now: int, window: int)
    requires WindowOf(log, h, last, window) && last <= now
    ensures WindowOf(Prune(log, now - window), h, now, window)
  {
    var r := Prune(log, now - window);
    PruneSpec(log, now - window);
    assert forall k :: |h| - |log| <= k < |h| - |r| ==> h[k] == log[k - (|h| - |log|)];
  }

  /** Every entry of a log kept for `window` lies inside the window ending
      at `now`. */
  lemma WindowBounds(log: seq<int>, h: seq<int>, now: int, window: int)
    requires WindowOf(log, h, now, window) && Ascending(h)
    requires forall k :: 0 <= k < |h| ==> h[k] <= now
    ensures forall k :: 0 <= k < |log| ==> now - window <= log[k] <= now
  {
    var off := |h| - |log|;
    forall k | 0 <= k < |log|
      ensures now - window <= log[k] <= now
    {
      assert log[k] == h[off + k] && log[0] == h[off];
      assert h[off] <= h[off + k];
    }
  }

  /** Admitting `now` extends both the history and the log by `now`; the
      window ending at `now` then counts the log plus the admission. */
  lemma AdmitWindow(log: seq<int>, h: seq<int>, now: int, window: int)
    requires window >= 0 && WindowOf(log, h, now, window)
    requires forall k :: 0 <= k < |log| ==> now - window <= log[k] <= now
    ensures WindowOf(log + [now], h + [now], now, window)
    ensures CountIn(h + [now], now - window, now) == |log| + 1
  {
    AdmitWindowOf(log, h, now, window);
    AdmitCount(log, h, now, window);
  }

  lemma AdmitCount(log: seq<int>, h: seq<int>, now: int, window: int)
    requires window >= 0 && WindowOf(log, h, now, window)
    requires forall k :: 0 <= k < |log| ==> now - window <= log[k] <= now
    ensures CountIn(h + [now], now - window, now) == |log| + 1
  {
    var p := h[..|h| - |log|];
    var l := log + [now];
    assert h + [now] == p + l by {
      assert h == p + log;
    }
    CountInAppend(p, l, now - window, now);
    PrunedPartNone(log, h, now, window);
    CountInAll(l, now - window, now);
  }

  /** What pruning dropped lies wholly before the window. */
  lemma PrunedPartNone(log: seq<int>, h: seq<int>, now: int, window: int)
    requires WindowOf(log, h, now, window)
    ensures CountIn(h[..|h| - |log|], now - window, now) == 0
  {
    var p := h[..|h| - |log|];
    assert forall k :: 0 <= k < |p| ==> p[k] == h[k];
    CountInNone(p, now - window, now);
  }

  lemma AdmitWindowOf(log: seq<int>, h: seq<int>, now: int, window: int)
    requires window >= 0 && WindowOf(log, h, now, window)
    ensures WindowOf(log + [now], h + [now], now, window)
  {
    var h', l' := h + [now], log + [now];
    assert h'[|h'| - |l'|..] == h[|h| - |log|..] + [now];
    forall k | 0 <= k < |h'| - |l'|
      ensures h'[k] < now - window
    {
      assert h'[k] == h[k];
    }
  }

  /** Appending an admission whose own windows are within the caps keeps
      every earlier admission's windows as they were. */
  lemma CapsHeldExtend(h: seq<int>, t: int)
    requires CapsHeld(h)
    requires CountIn(h + [t], t - ShortWindowMs, t) <= ShortCap
    requires CountIn(h + [t], t - LongWindowMs, t) <= LongCap
    ensures CapsHeld(h + [t])
  {
    var h' := h + [t];
    forall k | 0 <= k < |h'|
      ensures AdmissionWithinCaps(h', k)
    {
      if k < |h| {
        assert h'[..k + 1] == h[..k + 1];
        assert AdmissionWithinCaps(h, k);
      } else {
        assert h'[..k + 1] == h';
      }
    }
  }

  /** Both logs are ascending, and the one-second log is a suffix of the
      two-minute log. */
  lemma LogsShape(s: State, h: seq<int>, now: int)
    requires Inv(s, h, now)
    ensures Ascending(s.secWin) && Ascending(s.twoMin)
    ensures |s.secWin| <= |s.twoMin| && s.secWin == s.twoMin[|s.twoMin| - |s.secWin|..]
  {
    assert forall i :: 0 <= i < |s.secWin| ==> s.secWin[i] == h[|h| - |s.secWin| + i];
    assert forall i :: 0 <= i < |s.twoMin| ==> s.twoMin[i] == h[|h| - |s.twoMin| + i];
  }

  /** One attempt at a time no earlier than the previous one keeps the
      invariant; an admission extends the history by `now` and the windows
      ending at `now` are within their caps. */
  lemma AttemptPreserves(s: State, h: seq<int>, last: int, now: int)
    requires Inv(s, h, last) && last <= now
    ensures Attempt(s, now).Admitted? ==>
      && Inv(Attempt(s, now).next, h + [now], now)
      && CountIn(h + [now], now - ShortWindowMs, now) <= ShortCap
      && CountIn(h + [now], now - LongWindowMs, now) <= LongCap
    ensures Attempt(s, now).Blocked? ==> Inv(Attempt(s, now).next, h, now)
  {
    var sec := Prune(s.secWin, now - ShortWindowMs);
    var two := Prune(s.twoMin, now - LongWindowMs);
    PruneWindow(s.secWin, h, last, now, ShortWindowMs);
    PruneWindow(s.twoMin, h, last, now, LongWindowMs);
    assert forall k :: 0 <= k < |h| ==> h[k] <= now;
    if |sec| < ShortCap && |two| < LongCap {
      AdmitPreserves(sec, two, h, now);
      assert Attempt(s, now).next == State(sec + [now], two + [now]);
    } else {
      BlockedPreserves(sec, two, h, now);
      assert Attempt(s, now).next == State(sec, two);
    }
  }

  lemma BlockedPreserves(sec: seq<int>, two: seq<int>, h: seq<int>, now: int)
    requires Ascending(h) && (forall k :: 0 <= k < |h| ==> h[k] <= now) && CapsHeld(h)
    requires WindowOf(sec, h, now, ShortWindowMs) && WindowOf(two, h, now, LongWindowMs)
    requires |sec| <= ShortCap && |two| <= LongCap
    ensures Inv(State(sec, two), h, now)
  {
  }

  lemma AdmitPreserves(sec: seq<int>, two: seq<int>, h: seq<int>, now: int)
    requires Ascending(h) && (forall k :: 0 <= k < |h| ==> h[k] <= now) && CapsHeld(h)
    requires WindowOf(sec, h, now, ShortWindowMs) && WindowOf(two, h, now, LongWindowMs)
    requires |sec| < ShortCap && |two| < LongCap
    ensures Inv(State(sec + [now], two + [now]), h + [now], now)
    ensures CountIn(h + [now], now - ShortWindowMs, now) <= ShortCap
    ensures CountIn(h + [now], now - LongWindowMs, now) <= LongCap
  {
    WindowBounds(sec, h, now, ShortWindowMs);
    WindowBounds(two, h, now, LongWindowMs);
    AdmitWindow(sec, h, now, ShortWindowMs);
    AdmitWindow(two, h, now, LongWindowMs);
    CapsHeldExtend(h, now);
    HistoryExtend(h, now);
  }

  lemma HistoryExtend(h: seq<int>, now: int)
    requires Ascending(h) && forall k :: 0 <= k < |h| ==> h[k] <= now
    ensures Ascending(h + [now]) && forall k :: 0 <= k < |h + [now]| ==> (h + [now])[k] <= now
  {
  }

  /** The sliding-window guarantee over the whole history: ANY closed window
      of one second holds at most 20 admissions and any closed window of two
      minutes at most 100. */
  lemma SlidingWindows(h: seq<int>, t: int)
    requires Ascending(h) && CapsHeld(h)
    ensures CountIn(h, t - ShortWindowMs, t) <= ShortCap
    ensures CountIn(h, t - LongWindowMs, t) <= LongCap
  {
    var j := LastAtOrBefore(h, t);
    if j > 0 {
      assert AdmissionWithinCaps(h, j - 1);
      assert h[..j] == h[..(j - 1) + 1];
      assert forall k :: 0 <= k < j ==> h[k] <= h[j - 1];
    }
    SlidingWindow(h, t, j, ShortWindowMs, ShortCap);
    SlidingWindow(h, t, j, LongWindowMs, LongCap);
  }

  /** Number of leading entries of an ascending `h` that are at most `t`. */
  lemma LastAtOrBefore(h: seq<int>, t: int) returns (j: int)
    requires Ascending(h)
    ensures 0 <= j <= |h|
    ensures forall k :: j <= k < |h| ==> h[k] > t
    ensures j > 0 ==> h[j - 1] <= t
  {
    j := |h|;
    while j > 0 && h[j - 1] > t
      invariant 0 <= j <= |h|
      invariant forall k :: j <= k < |h| ==> h[k] > t
    {
      j := j - 1;
    }
  }

  lemma SlidingWindow(h: seq<int>, t: int, j: int, window: int, cap: int)
    requires window >= 0 && 0 <= j <= |h|
    requires forall k :: j <= k < |h| ==> h[k] > t
    requires j > 0 ==> h[j - 1] <= t && CountIn(h[..j], h[j - 1] - window, h[j - 1]) <= cap
    requires j > 0 ==> forall k :: 0 <= k < j ==> h[k] <= h[j - 1]
    requires j == 0 ==> cap >= 0
    ensures CountIn(h, t - window, t) <= cap
  {
    var pre, post := h[..j], h[j..];
    assert h == pre + post;
    CountInAppend(pre, post, t - window, t);
    CountInNone2(post, t - window, t);
    if j > 0 {
      var e := h[j - 1];
      CountInMono(pre, t - window, t, e - window, e);
    }
  }

  lemma {:induction false} CountInNone2(h: seq<int>, lo: int, hi: int)
    requires forall k :: 0 <= k < |h| ==> h[k] > hi
    ensures CountIn(h, lo, hi) == 0
  {
    if |h| > 0 {
      CountInNone2(h[1..], lo, hi);
    }
  }

  // ---------------------------------------------------------------------
  // Driving the limiter
  // ---------------------------------------------------------------------

  datatype Trace = Trace(final: State, admitted: seq<int>)

  /** Feed the limiter one attempt per clock reading in `times`, collecting the
      times that were admitted. */
  function Drive(s: State, times: seq<int>): Trace
    decreases |times|
  {
    if |times| == 0 then Trace(s, [])
    else
      match Attempt(s, times[0])
      case Admitted(next) =>
        var t := Drive(next, times[1..]);
        Trace(t.final, [times[0]] + t.admitted)
      case Blocked(next, _) => Drive(next, times[1..])
  }

  /** The clock reading after the attempts in `times`. */
  function LastTime(last: int, times: seq<int>): int
  {
    if |times| == 0 then last else times[|times| - 1]
  }

  lemma AppendAssoc(a: seq<int>, b: seq<int>, c: seq<int>)
    ensures a + b + c == a + (b + c)
  {
  }

  lemma AscendingTail(times: seq<int>)
    requires |times| > 0 && Ascending(times)
    ensures Ascending(times[1..])
    ensures forall i :: 0 <= i < |times[1..]| ==> times[0] <= times[1..][i]
    ensures LastTime(times[0], times[1..]) == times[|times| - 1]
  {
  }

  /** Under a non-decreasing clock the invariant holds after any number of
      attempts, with the admitted times appended to the history. */
  lemma {:induction false} DriveKeepsCaps(s: State, h: seq<int>, last: int, times: seq<int>)
    requires Inv(s, h, last)
    requires forall i :: 0 <= i < |times| ==> last <= times[i]
    requires Ascending(times)
    ensures Inv(Drive(s, times).final, h + Drive(s, times).admitted, LastTime(last, times))
    decreases |times|
  {
    if |times| == 0 {
      assert h + [] == h;
    } else {
      var now, rest := times[0], times[1..];
      AscendingTail(times);
      AttemptPreserves(s, h, last, now);
      var step := Attempt(s, now);
      if step.Admitted? {
        DriveKeepsCaps(step.next, h + [now], now, rest);
        var tr := Drive(step.next, rest);
        assert Drive(s, times) == Trace(tr.final, [now] + tr.admitted);
        AppendAssoc(h, [now], tr.admitted);
      } else {
        DriveKeepsCaps(step.next, h, now, rest);
        assert Drive(s, times) == Drive(step.next, rest);
      }
    }
  }

  /** From a fresh limiter, no sliding window is ever over its cap. */
  lemma FreshLimiterNeverExceeds(times: seq<int>, t: int)
    requires Ascending(times)
    ensures CountIn(Drive(Empty, times).admitted, t - ShortWindowMs, t) <= ShortCap
    ensures CountIn(Drive(Empty, times).admitted, t - LongWindowMs, t) <= LongCap
  {
    if |times| > 0 {
      assert Inv(Empty, [], times[0]);
      DriveKeepsCaps(Empty, [], times[0], times);
      assert [] + Drive(Empty, times).admitted == Drive(Empty, times).admitted;
      assert Inv(Drive(Empty, times).final, Drive(Empty, times).admitted, LastTime(times[0], times));
      SlidingWindows(Drive(Empty, times).admitted, t);
    }
  }

  // ---------------------------------------------------------------------
  // The blocking loop
  // ---------------------------------------------------------------------

  datatype WaitResult = WaitResult(final: State, admittedAt: int, sleeps: seq<int>)

  /** `RiotLimiter.Wait` when every sleep lasts exactly as long as asked:
      after a blocked pass the next pass runs at `now + sleepMs`. `fuel`
      bounds the number of passes. */
  function Wait(s: State, now: int, fuel: nat): Option<WaitResult>
    decreases fuel
  {
    if fuel == 0 then None
    else
      match Attempt(s, now)
      case Admitted(next) => Some(WaitResult(next, now, []))
      case Blocked(next, d) =>
        match Wait(next, now + d, fuel - 1)
        case None => None
        case Some(r) => Some(WaitResult(r.final, r.admittedAt, [d] + r.sleeps))
  }

  /** The admission time is the start time plus every sleep taken. */
  lemma {:induction false} WaitTimeAccounts(s: State, now: int, fuel: nat)
    requires Wait(s, now, fuel).Some?
    ensures Wait(s, now, fuel).value.admittedAt == now + Sum(Wait(s, now, fuel).value.sleeps)
    ensures forall i :: 0 <= i < |Wait(s, now, fuel).value.sleeps| ==>
      Wait(s, now, fuel).value.sleeps[i] >= MinSleepMs
    decreases fuel
  {
    match Attempt(s, now)
    case Admitted(_) =>
    case Blocked(next, d) =>
      WaitTimeAccounts(next, now + d, fuel - 1);
  }

  /** With exact sleeps a waiting caller gets through on the third pass at the
      latest, from any state whose logs are within their caps (every state
      the limiter reaches): the first sleep outlasts the oldest entry of each
      full log except possibly for a tie on the window boundary, which the
      10 ms floor of the second sleep then clears. */
  lemma WaitAdmitsWithinThreePasses(s: State, now: int)
    requires |s.secWin| <= ShortCap && |s.twoMin| <= LongCap
    ensures Wait(s, now, 3).Some?
    ensures |Wait(s, now, 3).value.sleeps| <= 2
  {
    var step0 := Attempt(s, now);
    if step0.Blocked? {
      var s1, t1 := step0.next, now + step0.sleepMs;
      LogAfterSleep(s.secWin, ShortCap, ShortWindowMs, now, step0.sleepMs);
      LogAfterSleep(s.twoMin, LongCap, LongWindowMs, now, step0.sleepMs);
      var step1 := Attempt(s1, t1);
      if step1.Blocked? {
        var s2, t2 := step1.next, t1 + step1.sleepMs;
        assert step1.sleepMs == MinSleepMs;
        var step2 := Attempt(s2, t2);
        assert step2.Admitted?;
        assert Wait(s2, t2, 1) == Some(WaitResult(step2.next, t2, []));
        assert [step1.sleepMs] + [] == [MinSleepMs];
        assert Wait(s1, t1, 2) == Some(WaitResult(step2.next, t2, [MinSleepMs]));
      } else {
        assert Wait(s1, t1, 2) == Some(WaitResult(step1.next, t1, []));
      }
    }
  }

  /** One log across the first two sleeps: pruned at `now`, then at
      `now + d` where `d` covers the log's own wait. After that second prune a
      still-full log asks for no wait, and ten milliseconds later it is no
      longer full. */
  lemma LogAfterSleep(log: seq<int>, cap: int, window: int, now: int, d: int)
    requires cap > 0 && |log| <= cap
    requires d >= WaitFor(Prune(log, now - window), cap, window, now)
    ensures var p1 := Prune(Prune(log, now - window), now + d - window);
      && WaitFor(p1, cap, window, now + d) == 0
      && |Prune(p1, now + d + MinSleepMs - window)| < cap
  {
    var p0 := Prune(log, now - window);
    var p1 := Prune(p0, now + d - window);
    PruneSpec(log, now - window);
    PruneSpec(p0, now + d - window);
    PruneSpec(p1, now + d + MinSleepMs - window);
    if |p1| >= cap {
      assert p1 == p0;
      assert p0[0] <= now + d - window;
    }
  }
}

=== FILE: match_window.dfy ===
/** How many of a player's recent matches are read, and which participant
    ids the command-line tool gathers for the average match rank.

    The web app clamps its `matchLimit` parameter to the length of each
    player's match list, but does so by assigning to the parameter itself,
    so a clamp made for one player carries over to every later player of
    the same request. The command-line tool reads at most ten matches.
 */
module MatchWindow {
  import opened Common
  import opened Tally

  /** `if matchLimit <= 0 || matchLimit > len(matchIDs) { matchLimit =
      len(matchIDs) }`. */
  function Clamp(limit: int, n: nat): (w: nat)
    ensures w <= n
    ensures 0 < limit <= n ==> w == limit
    ensures !(0 < limit <= n) ==> w == n
  {
    if limit <= 0 || limit > n then n else limit
  }

  /** The window of each player who reaches the clamp, as written: each
      player starts from the value the previous player's clamp left behind.
      `lens` are the lengths of the players' match lists, in request
      order. */
  function AppWindowsAsWritten(limit: int, lens: seq<nat>): (ws: seq<nat>)
    ensures |ws| == |lens|
    ensures forall i :: 0 <= i < |lens| ==> ws[i] <= lens[i]
    decreases |lens|
  {
    if |lens| == 0 then []
    else
      var w := Clamp(limit, lens[0]);
      [w] + AppWindowsAsWritten(w, lens[1..])
  }

  /** The window each player evidently should get: the request's limit
      clamped to that player's own list. */
  function AppWindows(limit: int, lens: seq<nat>): (ws: seq<nat>)
    ensures |ws| == |lens|
    ensures forall i :: 0 <= i < |lens| ==> ws[i] <= lens[i]
  {
    seq(|lens|, i requires 0 <= i < |lens| => Clamp(limit, lens[i]))
  }

  /** Each player reads the request's limit of matches, or the whole list
      when it is shorter or the limit is not positive; the window never
      reaches past the list, so `matchIDs[i]` stays in bounds. */
  lemma AppWindowsSpec(limit: int, lens: seq<nat>)
    ensures forall i :: 0 <= i < |lens| ==>
      AppWindows(limit, lens)[i] == (if 0 < limit <= lens[i] then limit else lens[i])
  {
  }

  /** As written, every window after the first is the previous one or, if
      that was empty, the whole list: while lists are non-empty the windows
      never grow. */
  lemma {:induction false} AsWrittenNeverGrows(limit: int, lens: seq<nat>)
    requires forall i :: 0 <= i < |lens| ==> lens[i] > 0
    ensures var ws := AppWindowsAsWritten(limit, lens);
      forall i :: 0 < i < |ws| ==> ws[i] <= ws[i - 1]
    decreases |lens|
  {
    if |lens| > 1 {
      var w := Clamp(limit, lens[0]);
      AsWrittenNeverGrows(w, lens[1..]);
      var ws := AppWindowsAsWritten(limit, lens);
      assert ws[1..] == AppWindowsAsWritten(w, lens[1..]);
      assert ws[1] == Clamp(w, lens[1]);
    }
  }

  /** When the limit is positive and fits every list, the carried value
      never changes and the code does what was intended. */
  lemma {:induction false} AsWrittenAgreesWhenLimitFits(limit: int, lens: seq<nat>)
    requires forall i :: 0 <= i < |lens| ==> 0 < limit <= lens[i]
    ensures AppWindowsAsWritten(limit, lens) == AppWindows(limit, lens)
    decreases |lens|
  {
    if |lens| > 0 {
      var rest := lens[1..];
      forall i | 0 <= i < |rest|
        ensures 0 < limit <= rest[i]
      {
        assert rest[i] == lens[i + 1];
      }
      assert 0 < limit <= lens[0];
      AsWrittenAgreesWhenLimitFits(limit, rest);
      var ws := AppWindowsAsWritten(limit, lens);
      assert ws == [limit] + AppWindows(limit, lens[1..]);
    }
  }

  /** The default limit of ten with a five-match player first: the second
      player, who has twenty matches, is read for five only instead of
      ten. */
  lemma ClampLeaks()
    ensures AppWindowsAsWritten(10, [5, 20]) == [5, 5]
    ensures AppWindows(10, [5, 20]) == [5, 10]
  {
    assert AppWindowsAsWritten(5, [20]) == [5];
  }

  /** `maxMatches := 10; if len(matchIDs) < maxMatches { maxMatches =
      len(matchIDs) }`. */
  const CliMaxMatches := 10

  function CliWindow(n: nat): (w: nat)
    ensures w <= n && w <= CliMaxMatches
    ensures w == n || w == CliMaxMatches
  {
    if n < CliMaxMatches then n else CliMaxMatches
  }

  /** The ids the command-line tool's average-rank pass gathers: every
      participant of every match it fetched and decoded, whatever the queue.
      `None` is a fetch it `continue`s past: no response under the SKIP
      setting, a non-200 status or a failed decode. A fetch that errors ends
      the run instead; `CliIdsRun` has that exit. */
  function CliIds(ds: seq<Option<MatchDetail>>): seq<string>
  {
    if |ds| == 0 then []
    else
      var prev := CliIds(ds[..|ds| - 1]);
      var d := ds[|ds| - 1];
      if d.Some? then AddAll(prev, Ids(d.value.participants)) else prev
  }

  /** The matches that could be fetched and decoded, in order. */
  function Fetched(ds: seq<Option<MatchDetail>>): (ms: seq<MatchDetail>)
    ensures forall m :: m in ms <==> Some(m) in ds
  {
    if |ds| == 0 then []
    else
      var init := Fetched(ds[..|ds| - 1]);
      assert ds == ds[..|ds| - 1] + [ds[|ds| - 1]];
      if ds[|ds| - 1].Some? then init + [ds[|ds| - 1].value] else init
  }

  /** The gathered ids are each participant id of a fetched match, once,
      in first-seen order. */
  lemma {:induction false} CliIdsSpec(ds: seq<Option<MatchDetail>>)
    ensures CliIds(ds) == AddAll([], AllIds(Fetched(ds)))
    decreases |ds|
  {
    if |ds| > 0 {
      var init, d := ds[..|ds| - 1], ds[|ds| - 1];
      CliIdsSpec(init);
      if d.Some? {
        var ms0 := Fetched(init);
        assert (ms0 + [d.value])[..|ms0|] == ms0;
        assert AllIds(ms0 + [d.value]) == AllIds(ms0) + Ids(d.value.participants);
        AddAllAppend([], AllIds(ms0), Ids(d.value.participants));
      }
    }
  }

  /** The id pass as the command-line tool runs it, fetch by fetch: the
      first fetch that errors ends the run (`log.Fatalf`), leaving no ids. */
  function CliIdsRun(fs: seq<CliFetch>): Option<seq<string>>
  {
    if |fs| == 0 then Some([])
    else
      var prev := CliIdsRun(fs[..|fs| - 1]);
      var f := fs[|fs| - 1];
      if prev.None? || f.Aborted? then None
      else if f.Decoded? then Some(AddAll(prev.value, Ids(f.detail.participants)))
      else prev
  }

  lemma {:induction false} CliIdsRunAgrees(fs: seq<CliFetch>)
    ensures CliIdsRun(fs).None? <==> Aborts(fs)
    ensures !Aborts(fs) ==> CliIdsRun(fs) == Some(CliIds(Outcomes(fs)))
    decreases |fs|
  {
    if |fs| > 0 {
      CliIdsRunAgrees(fs[..|fs| - 1]);
      CliLast(fs);
      var ds := Outcomes(fs);
      assert ds[|fs| - 1] == Outcome(fs[|fs| - 1]);
      assert ds[..|ds| - 1] == Outcomes(fs[..|fs| - 1]);
    }
  }

  /** The id pass ends the run exactly when some fetch in the window errors;
      otherwise it gathers each participant id of a decoded match once, in
      first-seen order. */
  lemma CliIdsRunSpec(fs: seq<CliFetch>)
    ensures CliIdsRun(fs).None? <==> Aborts(fs)
    ensures !Aborts(fs) ==> CliIdsRun(fs) == Some(AddAll([], AllIds(Fetched(Outcomes(fs)))))
  {
    CliIdsRunAgrees(fs);
    CliIdsSpec(Outcomes(fs));
  }

  /** Unlike the web app, which keeps only ids from counted queues, the
      command-line tool also averages over players met in an ARAM game. */
  lemma AramCountsOnlyOnTheCommandLine()
    ensures var ds := [Some(MatchDetail(450, [Participant("p", 1, "", true)]))];
      && CliIds(ds) == ["p"]
      && TallyMatches(ds, "me", true).puuids == []
  {
    var ds := [Some(MatchDetail(450, [Participant("p", 1, "", true)]))];
    assert ds[..0] == [];
    assert Ids(ds[0].value.participants) == ["p"];
    assert AddAll([], ["p"]) == ["p"] by {
      assert ["p"][..0] == [];
    }
  }
}

=== FILE: picks.dfy ===
/** Choosing what a player is known for: the main and sub lanes from the lane
    counter, and up to six main champions merged from the mastery list and
    the champions played.

    Both choices read a descending `sort.Slice` whose order among equal
    counts Go leaves open. The model sorts with `Common.SortDescBy`; the
    lemmas state what holds whatever the tie order (counts of chosen lanes
    dominate those left out) and, for names, what is read off the model's
    arrangement.
 */
module Picks {
  import opened Common
  import opened Tally
  import opened Scoring

  // ---------------------------------------------------------------------
  // Lanes
  // ---------------------------------------------------------------------

  datatype LanePicks = LanePicks(main: seq<string>, sub: seq<string>)

  function LaneTally(b: Bin<string>): int
  {
    b.count
  }

  /** Sort the lane counter by count, descending; the first two lanes are
      the main lanes and the next two the sub lanes. */
  function ChooseLanes(laneCount: seq<Bin<string>>): (r: LanePicks)
    ensures |r.main| == Min(2, |laneCount|)
    ensures |r.sub| == Min(4, |laneCount|) - Min(2, |laneCount|)
  {
    var s := SortDescBy(laneCount, LaneTally);
    assert |s| == |multiset(s)| == |laneCount|;
    LanePicks(BinKeys(s[..Min(2, |s|)]), BinKeys(s[Min(2, |s|)..Min(4, |s|)]))
  }

  /** A bin of a counter with distinct keys is what a lookup of its key
      finds. */
  lemma LookupMember<K(!new)>(bins: seq<Bin<K>>, b: Bin<K>)
    requires DistinctKeys(bins) && b in bins
    ensures Lookup(bins, b.key) == b.count
  {
    var j :| 0 <= j < |bins| && bins[j] == b;
    LookupDistinct(bins, j);
  }

  /** A key occurs once in a counter with distinct keys. */
  lemma SingleOccurrence<K>(a: seq<Bin<K>>, i: int)
    requires DistinctKeys(a) && 0 <= i < |a|
    ensures multiset(a)[a[i]] == 1
  {
    var x := a[i];
    assert a == a[..i] + [x] + a[i + 1..];
    assert x !in a[..i];
    assert x !in a[i + 1..];
  }

  /** A value found at two positions occurs at least twice. */
  lemma TwoPositions<T>(b: seq<T>, p: int, q: int)
    requires 0 <= p < q < |b|
    ensures b[p] == b[q] ==> multiset(b)[b[q]] >= 2
  {
    assert b == b[..q] + [b[q]] + b[q + 1..];
    assert b[p] in b[..q];
  }

  /** Reordering a counter keeps its keys distinct. */
  lemma PermutationDistinctKeys<K>(a: seq<Bin<K>>, b: seq<Bin<K>>)
    requires multiset(a) == multiset(b) && DistinctKeys(a)
    ensures DistinctKeys(b)
  {
    forall p, q | 0 <= p < q < |b|
      ensures b[p].key != b[q].key
    {
      assert b[p] in multiset(a) && b[q] in multiset(a);
      var i :| 0 <= i < |a| && a[i] == b[p];
      var j :| 0 <= j < |a| && a[j] == b[q];
      SingleOccurrence(a, i);
      TwoPositions(b, p, q);
    }
  }

  /** The keys of a distinct-keyed counter's prefix are distinct, and they
      are exactly the keys of its first bins. */
  lemma PrefixKeys<K>(s: seq<Bin<K>>, k: int)
    requires 0 <= k <= |s|
    ensures forall p :: 0 <= p < k ==> s[p].key in BinKeys(s[..k])
    ensures forall x :: x in BinKeys(s[..k]) ==> exists p :: 0 <= p < k && s[p].key == x
    ensures DistinctKeys(s) ==> Distinct(BinKeys(s[..k]))
  {
    forall p | 0 <= p < k
      ensures s[p].key in BinKeys(s[..k])
    {
      assert BinKeys(s[..k])[p] == s[p].key;
    }
    forall x | x in BinKeys(s[..k])
      ensures exists p :: 0 <= p < k && s[p].key == x
    {
      var p :| 0 <= p < k && BinKeys(s[..k])[p] == x;
      assert s[p].key == x;
    }
  }

  /** In a descending arrangement, the first `k` bins count at least as much
      as any bin of the counter whose key is not among them. */
  lemma SortedCut(bins: seq<Bin<string>>, s: seq<Bin<string>>, k: int)
    requires multiset(s) == multiset(bins) && SortedDescBy(s, LaneTally)
    requires 0 <= k <= |s|
    ensures forall i, j :: 0 <= i < k && 0 <= j < |bins| && bins[j].key !in BinKeys(s[..k]) ==>
      s[i].count >= bins[j].count
  {
    PrefixKeys(s, k);
    forall i, j | 0 <= i < k && 0 <= j < |bins| && bins[j].key !in BinKeys(s[..k])
      ensures s[i].count >= bins[j].count
    {
      assert bins[j] in multiset(s);
      var p :| 0 <= p < |s| && s[p] == bins[j];
      assert LaneTally(s[i]) >= LaneTally(s[p]);
    }
  }

  /** The lanes chosen, in order, are the keys of the first bins of the
      sorted counter. */
  lemma ChooseLanesSorted(laneCount: seq<Bin<string>>)
    ensures var s := SortDescBy(laneCount, LaneTally);
      var r := ChooseLanes(laneCount);
      && |s| == |laneCount|
      && r.main == BinKeys(s[..Min(2, |s|)])
      && r.main + r.sub == BinKeys(s[..Min(4, |s|)])
  {
    var s := SortDescBy(laneCount, LaneTally);
    assert |s| == |multiset(s)| == |laneCount|;
    var a, b := Min(2, |s|), Min(4, |s|);
    assert s[..b] == s[..a] + s[a..b];
    BinKeysAppend(s[..a], s[a..b]);
  }

  lemma BinKeysAppend<K>(x: seq<Bin<K>>, y: seq<Bin<K>>)
    ensures BinKeys(x + y) == BinKeys(x) + BinKeys(y)
  {
    assert forall i :: 0 <= i < |x| + |y| ==> BinKeys(x + y)[i] == (BinKeys(x) + BinKeys(y))[i];
  }

  /** The two lists name distinct lanes the player was counted in. */
  lemma ChooseLanesDistinct(laneCount: seq<Bin<string>>)
    requires DistinctKeys(laneCount)
    ensures var r := ChooseLanes(laneCount);
      && Distinct(r.main + r.sub)
      && (forall x :: x in r.main + r.sub ==> x in BinKeys(laneCount))
  {
    var s := SortDescBy(laneCount, LaneTally);
    ChooseLanesSorted(laneCount);
    var b := Min(4, |s|);
    PermutationDistinctKeys(laneCount, s);
    PrefixKeys(s, b);
    PrefixKeys(laneCount, |laneCount|);
    assert laneCount[..|laneCount|] == laneCount;
    forall p | 0 <= p < b
      ensures s[p].key in BinKeys(laneCount)
    {
      assert s[p] in multiset(laneCount);
    }
  }

  /** Looking up a lane of the sorted counter finds its count. */
  lemma SortedLookup(laneCount: seq<Bin<string>>, i: int)
    requires DistinctKeys(laneCount)
    requires 0 <= i < |SortDescBy(laneCount, LaneTally)|
    ensures Lookup(laneCount, SortDescBy(laneCount, LaneTally)[i].key) == SortDescBy(laneCount, LaneTally)[i].count
  {
    var s := SortDescBy(laneCount, LaneTally);
    assert s[i] in multiset(laneCount);
    LookupMember(laneCount, s[i]);
  }

  /** The main lanes are the most played: each was played at least as often
      as any lane left out of them. */
  lemma ChooseLanesMain(laneCount: seq<Bin<string>>)
    requires DistinctKeys(laneCount)
    ensures var r := ChooseLanes(laneCount);
      forall i, j :: 0 <= i < |r.main| && 0 <= j < |laneCount| && laneCount[j].key !in r.main ==>
        Lookup(laneCount, r.main[i]) >= laneCount[j].count
  {
    var s := SortDescBy(laneCount, LaneTally);
    ChooseLanesSorted(laneCount);
    var r := ChooseLanes(laneCount);
    SortedCut(laneCount, s, Min(2, |s|));
    forall i | 0 <= i < |r.main|
      ensures Lookup(laneCount, r.main[i]) == s[i].count
    {
      SortedLookup(laneCount, i);
    }
  }

  /** Keys listed in descending count order: an earlier key counts at least
      as much as a later one. */
  lemma ListedInOrder(laneCount: seq<Bin<string>>, s: seq<Bin<string>>, keys: seq<string>)
    requires |keys| <= |s| && SortedDescBy(s, LaneTally)
    requires forall i :: 0 <= i < |keys| ==> Lookup(laneCount, keys[i]) == s[i].count
    ensures forall i, j :: 0 <= i < j < |keys| ==> Lookup(laneCount, keys[i]) >= Lookup(laneCount, keys[j])
  {
    forall i, j | 0 <= i < j < |keys|
      ensures Lookup(laneCount, keys[i]) >= Lookup(laneCount, keys[j])
    {
      assert LaneTally(s[i]) >= LaneTally(s[j]);
    }
  }

  /** The chosen lanes, looked up in the counter, count what the sorted
      counter's first bins hold. */
  lemma ChosenLookups(laneCount: seq<Bin<string>>)
    requires DistinctKeys(laneCount)
    ensures var s, r := SortDescBy(laneCount, LaneTally), ChooseLanes(laneCount);
      && |r.main + r.sub| <= |s|
      && forall i :: 0 <= i < |r.main + r.sub| ==> Lookup(laneCount, (r.main + r.sub)[i]) == s[i].count
  {
    ChooseLanesSorted(laneCount);
    var r := ChooseLanes(laneCount);
    forall i | 0 <= i < |r.main + r.sub|
      ensures Lookup(laneCount, (r.main + r.sub)[i]) == SortDescBy(laneCount, LaneTally)[i].count
    {
      SortedLookup(laneCount, i);
    }
  }

  /** Each sub lane was played at least as often as any lane chosen for
      neither list. */
  lemma SubLanesBeatRest(laneCount: seq<Bin<string>>)
    requires DistinctKeys(laneCount)
    ensures var r := ChooseLanes(laneCount);
      forall i, j :: 0 <= i < |r.sub| && 0 <= j < |laneCount| && laneCount[j].key !in r.main + r.sub ==>
        Lookup(laneCount, r.sub[i]) >= laneCount[j].count
  {
    var s := SortDescBy(laneCount, LaneTally);
    ChooseLanesSorted(laneCount);
    ChosenLookups(laneCount);
    var r := ChooseLanes(laneCount);
    SortedCut(laneCount, s, Min(4, |s|));
    BackBeatsRest(laneCount, s, r.main, r.sub);
  }

  /** When the keys `front + back` count what the first bins of `s` hold,
      and those bins count at least as much as any bin whose key is not
      listed, so does every key of `back`. */
  lemma BackBeatsRest(laneCount: seq<Bin<string>>, s: seq<Bin<string>>, front: seq<string>, back: seq<string>)
    requires |front + back| <= |s|
    requires forall i :: 0 <= i < |front + back| ==> Lookup(laneCount, (front + back)[i]) == s[i].count
    requires forall i, j :: 0 <= i < |front + back| && 0 <= j < |laneCount| && laneCount[j].key !in front + back ==>
      s[i].count >= laneCount[j].count
    ensures forall i, j :: 0 <= i < |back| && 0 <= j < |laneCount| && laneCount[j].key !in front + back ==>
      Lookup(laneCount, back[i]) >= laneCount[j].count
  {
    var all := front + back;
    forall i, j | 0 <= i < |back| && 0 <= j < |laneCount| && laneCount[j].key !in all
      ensures Lookup(laneCount, back[i]) >= laneCount[j].count
    {
      assert back[i] == all[|front| + i];
    }
  }

  /** No sub lane was played more often than a main lane. */
  lemma SubLanesBelowMain(laneCount: seq<Bin<string>>)
    requires DistinctKeys(laneCount)
    ensures var r := ChooseLanes(laneCount);
      forall i, j :: 0 <= i < |r.main| && 0 <= j < |r.sub| ==>
        Lookup(laneCount, r.main[i]) >= Lookup(laneCount, r.sub[j])
  {
    ChosenLookups(laneCount);
    var r := ChooseLanes(laneCount);
    ListedInOrder(laneCount, SortDescBy(laneCount, LaneTally), r.main + r.sub);
    FrontBeforeBack(laneCount, r.main, r.sub);
  }

  /** When `front + back` is listed in descending count order, every key of
      `front` counts at least as much as every key of `back`. */
  lemma FrontBeforeBack(laneCount: seq<Bin<string>>, front: seq<string>, back: seq<string>)
    requires forall i, j :: 0 <= i < j < |front + back| ==>
      Lookup(laneCount, (front + back)[i]) >= Lookup(laneCount, (front + back)[j])
    ensures forall i, j :: 0 <= i < |front| && 0 <= j < |back| ==>
      Lookup(laneCount, front[i]) >= Lookup(laneCount, back[j])
  {
    var all := front + back;
    forall i, j | 0 <= i < |front| && 0 <= j < |back|
      ensures Lookup(laneCount, front[i]) >= Lookup(laneCount, back[j])
    {
      assert front[i] == all[i] && back[j] == all[|front| + j];
    }
  }

  /** The sub lanes come next: each was played at least as often as any
      lane chosen for neither list, and no more often than a main lane. */
  lemma ChooseLanesSub(laneCount: seq<Bin<string>>)
    requires DistinctKeys(laneCount)
    ensures var r := ChooseLanes(laneCount);
      && (forall i, j :: 0 <= i < |r.sub| && 0 <= j < |laneCount| && laneCount[j].key !in r.main + r.sub ==>
            Lookup(laneCount, r.sub[i]) >= laneCount[j].count)
      && (forall i, j :: 0 <= i < |r.main| && 0 <= j < |r.sub| ==>
            Lookup(laneCount, r.main[i]) >= Lookup(laneCount, r.sub[j]))
  {
    SubLanesBeatRest(laneCount);
    SubLanesBelowMain(laneCount);
  }

  // ---------------------------------------------------------------------
  // Main champions
  // ---------------------------------------------------------------------

  function MasteryNames(ms: seq<Mastery>, nameOf: int -> string): seq<string>
  {
    NamesOf(ms, (m: Mastery) => nameOf(m.championId))
  }

  function UsageNames(bins: seq<Bin<int>>, nameOf: int -> string): seq<string>
  {
    NamesOf(bins, (b: Bin<int>) => nameOf(b.key))
  }

  function UseCount(b: Bin<int>): int
  {
    b.count
  }

  /** Reordering does not change which names occur. */
  lemma NamesPermutation<T>(a: seq<T>, b: seq<T>, name: T -> string)
    requires multiset(a) == multiset(b)
    ensures forall x :: x in NamesOf(a, name) <==> x in NamesOf(b, name)
  {
    forall x | x in NamesOf(a, name)
      ensures x in NamesOf(b, name)
    {
      var i :| 0 <= i < |a| && NamesOf(a, name)[i] == x;
      assert a[i] in multiset(b);
      var j :| 0 <= j < |b| && b[j] == a[i];
      assert NamesOf(b, name)[j] == x;
    }
    forall x | x in NamesOf(b, name)
      ensures x in NamesOf(a, name)
    {
      var j :| 0 <= j < |b| && NamesOf(b, name)[j] == x;
      assert b[j] in multiset(a);
      var i :| 0 <= i < |a| && a[i] == b[j];
      assert NamesOf(a, name)[i] == x;
    }
  }

  /** The web app's merging loop: walk `names` in order while fewer than
      `cap` are kept, keeping each non-empty name not kept yet. */
  function AddNames(acc: seq<string>, names: seq<string>, cap: int): seq<string>
    decreases |names|
  {
    if |names| == 0 || |acc| >= cap then acc
    else
      var n := names[0];
      AddNames(if n != "" && n !in acc then acc + [n] else acc, names[1..], cap)
  }

  /** The kept names extend `acc`, stop at `cap`, and are new, non-empty
      names taken from `names`. */
  lemma {:induction false} AddNamesShape(acc: seq<string>, names: seq<string>, cap: int)
    ensures var r := AddNames(acc, names, cap);
      && |acc| <= |r| <= Max(|acc|, cap)
      && r[..|acc|] == acc
      && (forall i :: |acc| <= i < |r| ==> r[i] != "" && r[i] in names)
      && (Distinct(acc) ==> Distinct(r))
    decreases |names|
  {
    if |names| > 0 && |acc| < cap {
      var n := names[0];
      var acc' := if n != "" && n !in acc then acc + [n] else acc;
      AddNamesShape(acc', names[1..], cap);
      var r := AddNames(acc, names, cap);
      assert r == AddNames(acc', names[1..], cap);
      assert r[..|acc'|][..|acc|] == r[..|acc|];
      forall i | |acc| <= i < |r|
        ensures r[i] != "" && r[i] in names
      {
        if i >= |acc'| {
          assert r[i] in names[1..];
        } else {
          assert r[i] == acc'[i] == n;
        }
      }
    }
  }

  /** If fewer than `cap` names are kept, every non-empty name was kept. */
  lemma {:induction false} AddNamesComplete(acc: seq<string>, names: seq<string>, cap: int)
    ensures |AddNames(acc, names, cap)| < cap ==>
      forall x :: x in names && x != "" ==> x in AddNames(acc, names, cap)
    decreases |names|
  {
    if |names| > 0 && |acc| < cap {
      var n := names[0];
      var acc' := if n != "" && n !in acc then acc + [n] else acc;
      AddNamesComplete(acc', names[1..], cap);
      AddNamesShape(acc', names[1..], cap);
      var r := AddNames(acc, names, cap);
      if |r| < cap {
        forall x | x in names && x != ""
          ensures x in r
        {
          if x == n {
            assert x in acc';
            assert r[..|acc'|] == acc';
            assert x in r[..|acc'|];
          } else {
            assert x in names[1..];
          }
        }
      }
    }
  }

  /** The web app's top mastery names: walk the masteries by points,
      descending, keeping up to three distinct non-empty names. A failed
      lookup keeps none. */
  function AppMasteryPicks(mastery: Option<seq<Mastery>>, nameOf: int -> string): seq<string>
  {
    match mastery
    case None => []
    case Some(ms) => AddNames([], MasteryNames(SortDescBy(ms, Points), nameOf), 3)
  }

  /** `mainChamps` in the web app: the mastery picks, then (while fewer than
      six) the most played champions' names. */
  function AppMainChamps(mastery: Option<seq<Mastery>>, championCount: seq<Bin<int>>, nameOf: int -> string): seq<string>
  {
    var first := AppMasteryPicks(mastery, nameOf);
    if |first| < 6 then AddNames(first, UsageNames(SortDescBy(championCount, UseCount), nameOf), 6) else first
  }

  /** At most six distinct non-empty names, mastery names first: at most
      three, each the name of a mastery entry; the rest are names of
      champions played. Nothing is missed: with fewer than three mastery
      picks every named mastery champion is among them, and with fewer than
      six picks every named champion played is among them. */
  lemma AppMainChampsSpec(mastery: Option<seq<Mastery>>, championCount: seq<Bin<int>>, nameOf: int -> string)
    ensures var first := AppMasteryPicks(mastery, nameOf);
      var r := AppMainChamps(mastery, championCount, nameOf);
      && |first| <= 3 && |first| <= |r| <= 6
      && r[..|first|] == first
      && Distinct(r) && "" !in r
      && (forall i :: 0 <= i < |first| ==> mastery.Some? && first[i] in MasteryNames(mastery.value, nameOf))
      && (forall i :: |first| <= i < |r| ==> r[i] in UsageNames(championCount, nameOf))
      && (|first| < 3 && mastery.Some? ==>
            forall x :: x in MasteryNames(mastery.value, nameOf) && x != "" ==> x in first)
      && (|r| < 6 ==> forall x :: x in UsageNames(championCount, nameOf) && x != "" ==> x in r)
  {
    var first := AppMasteryPicks(mastery, nameOf);
    if mastery.Some? {
      var ms := mastery.value;
      var sorted := SortDescBy(ms, Points);
      AddNamesShape([], MasteryNames(sorted, nameOf), 3);
      AddNamesComplete([], MasteryNames(sorted, nameOf), 3);
      NamesPermutation(sorted, ms, (m: Mastery) => nameOf(m.championId));
    }
    var usage := SortDescBy(championCount, UseCount);
    AddNamesShape(first, UsageNames(usage, nameOf), 6);
    AddNamesComplete(first, UsageNames(usage, nameOf), 6);
    NamesPermutation(usage, championCount, (b: Bin<int>) => nameOf(b.key));
    var r := AppMainChamps(mastery, championCount, nameOf);
    forall i | 0 <= i < |r|
      ensures r[i] != ""
    {
      if i < |first| {
        assert r[i] == first[i];
      }
    }
  }

  /** The name the command-line tool prints for a champion it has no name
      for ("不明", unknown). */
  const UnknownName := "\U{4E0D}\U{660E}"

  /** The command-line tool's merging loops: a missing name reads as
      unknown and is dropped, a name kept already is dropped, and the loop
      stops once `cap` names are kept. */
  function CliAddNames(acc: seq<string>, names: seq<string>, cap: int): seq<string>
    decreases |names|
  {
    if |names| == 0 then acc
    else
      var n := if names[0] == "" then UnknownName else names[0];
      var acc' := if n !in acc && n != UnknownName then acc + [n] else acc;
      if |acc'| >= cap then acc' else CliAddNames(acc', names[1..], cap)
  }

  /** The kept names extend `acc` by new, known names taken from `names`,
      never past `cap`. When the loop cannot reach `cap` early (the names
      fit) or ends below it, every known name was kept. */
  lemma {:induction false} CliAddNamesShape(acc: seq<string>, names: seq<string>, cap: int)
    ensures var r := CliAddNames(acc, names, cap);
      && |acc| <= |r| <= |acc| + |names|
      && (|acc| < cap ==> |r| <= cap)
      && r[..|acc|] == acc
      && (forall i :: |acc| <= i < |r| ==> r[i] != "" && r[i] != UnknownName && r[i] in names)
      && (Distinct(acc) ==> Distinct(r))
      && (|r| < cap || |acc| + |names| <= cap ==>
            forall x :: x in names && x != "" && x != UnknownName ==> x in r)
    decreases |names|
  {
    if |names| > 0 {
      var n := if names[0] == "" then UnknownName else names[0];
      var acc' := if n !in acc && n != UnknownName then acc + [n] else acc;
      if |acc'| >= cap {
        var r := CliAddNames(acc, names, cap);
        if |acc| + |names| <= cap {
          forall x | x in names && x != "" && x != UnknownName
            ensures x in r
          {
            assert |names| == 1;
          }
        }
      } else {
        CliAddNamesShape(acc', names[1..], cap);
        var r := CliAddNames(acc, names, cap);
        assert r[..|acc'|][..|acc|] == r[..|acc|];
        forall i | |acc| <= i < |r|
          ensures r[i] != "" && r[i] != UnknownName && r[i] in names
        {
          if i >= |acc'| {
            assert r[i] in names[1..];
          } else {
            assert r[i] == acc'[i] == n;
          }
        }
        if |r| < cap || |acc| + |names| <= cap {
          forall x | x in names && x != "" && x != UnknownName
            ensures x in r
          {
            if x == names[0] {
              assert x in acc';
              assert x in r[..|acc'|];
            } else {
              assert x in names[1..];
            }
          }
        }
      }
    }
  }

  /** `mainChamps` in the command-line tool: the names of the top three
      masteries by points, then (while fewer than six) of the three most
      played champions; unknown names and repeats are dropped. */
  function CliMainChamps(ms: seq<Mastery>, championCount: seq<Bin<int>>, nameOf: int -> string): seq<string>
  {
    var first := CliMasteryPicks(ms, nameOf);
    var used := UsageNames(SortDescBy(championCount, UseCount), nameOf);
    if |first| < 6 then CliAddNames(first, used[..Min(3, |used|)], 6) else first
  }

  /** The command-line tool's first loop: the known names among the three
      top masteries by points, or none for an empty list. */
  function CliMasteryPicks(ms: seq<Mastery>, nameOf: int -> string): seq<string>
  {
    var top := MasteryNames(SortDescBy(ms, Points), nameOf);
    if |ms| > 0 then CliAddNames([], top[..Min(3, |top|)], 6) else []
  }

  /** At most six distinct names, none empty or unknown: first, as a
      prefix, up to three from the three top mastery entries, then up to
      three from the three most played champions. With fewer than six,
      every known name among those six entries is kept. */
  lemma CliMainChampsSpec(ms: seq<Mastery>, championCount: seq<Bin<int>>, nameOf: int -> string)
    ensures var top := MasteryNames(SortDescBy(ms, Points), nameOf);
      var used := UsageNames(SortDescBy(championCount, UseCount), nameOf);
      var first := CliMasteryPicks(ms, nameOf);
      var r := CliMainChamps(ms, championCount, nameOf);
      && |first| <= 3 && |first| <= |r| <= 6
      && r[..|first|] == first
      && Distinct(r) && "" !in r && UnknownName !in r
      && (forall i :: 0 <= i < |first| ==> first[i] in top[..Min(3, |top|)])
      && (forall i :: |first| <= i < |r| ==> r[i] in used[..Min(3, |used|)])
      && (forall x :: x in r ==> x in top[..Min(3, |top|)] || x in used[..Min(3, |used|)])
      && (|r| < 6 ==> forall x :: (x in top[..Min(3, |top|)] || x in used[..Min(3, |used|)]) && x != "" && x != UnknownName ==> x in r)
  {
    var top := MasteryNames(SortDescBy(ms, Points), nameOf);
    var used := UsageNames(SortDescBy(championCount, UseCount), nameOf);
    var t3, u3 := top[..Min(3, |top|)], used[..Min(3, |used|)];
    assert |top| == |SortDescBy(ms, Points)| == |multiset(ms)| == |ms|;
    CliMainPhases(t3, u3, |ms| > 0);
    var first := if |ms| > 0 then CliAddNames([], t3, 6) else [];
    assert CliMasteryPicks(ms, nameOf) == first;
    assert CliMainChamps(ms, championCount, nameOf) == if |first| < 6 then CliAddNames(first, u3, 6) else first;
  }

  /** The two loops over plain name lists: up to three names from `t3`
      (when the first loop runs), then from `u3` while fewer than six. */
  lemma CliMainPhases(t3: seq<string>, u3: seq<string>, masteryRuns: bool)
    requires |t3| <= 3 && (masteryRuns || |t3| == 0)
    ensures var first := if masteryRuns then CliAddNames([], t3, 6) else [];
      var r := if |first| < 6 then CliAddNames(first, u3, 6) else first;
      && |first| <= 3 && |first| <= |r| <= 6
      && r[..|first|] == first
      && Distinct(r) && "" !in r && UnknownName !in r
      && (forall i :: 0 <= i < |first| ==> first[i] in t3)
      && (forall i :: |first| <= i < |r| ==> r[i] in u3)
      && (forall x :: x in r ==> x in t3 || x in u3)
      && (|r| < 6 ==> forall x :: (x in t3 || x in u3) && x != "" && x != UnknownName ==> x in r)
  {
    var first := if masteryRuns then CliAddNames([], t3, 6) else [];
    if masteryRuns {
      CliAddNamesShape([], t3, 6);
    }
    assert |first| <= 3;
    CliAddNamesShape(first, u3, 6);
    var r := CliAddNames(first, u3, 6);
    forall x | x in r
      ensures x != "" && x != UnknownName && (x in t3 || x in u3)
    {
      var i :| 0 <= i < |r| && r[i] == x;
      if i < |first| {
        assert x == first[i];
      }
    }
    forall x | x in first
      ensures x in r
    {
      var i :| 0 <= i < |first| && first[i] == x;
      assert r[i] == x;
    }
  }
}

=== FILE: py_balance.dfy ===
/** The Python helper's exhaustive balancer and its mastery-score padding.

    `balance_teams` tries every way of choosing `n // 2` players for team 1,
    in `itertools.combinations` order, and keeps the first split whose skill
    difference is strictly smaller than every earlier one (the start value
    is `float("inf")`). Skills are floats there; the model uses integers.
 */
module PyBalance {
  import opened Common
  import opened Search
  import opened Combos
  import opened Teams

  /** One entry of the `players` dictionary, in key order. */
  datatype Player = Player(name: string, skill: int)

  function Skill(p: Player): int
  {
    p.skill
  }

  function Name(p: Player): string
  {
    p.name
  }

  datatype Split = Split(teamA: seq<string>, teamB: seq<string>)

  /** `combinations(range(n), n // 2)`. */
  function Candidates(n: nat): seq<seq<int>>
  {
    Choose(Range(0, n), n / 2)
  }

  /** `abs(score1 - score2)` for the split given by `mask`. */
  function Diff(ps: seq<Player>, mask: seq<bool>): int
    requires |mask| == |ps|
  {
    Abs(SumBy(Side(ps, mask, true), Skill) - SumBy(Side(ps, mask, false), Skill))
  }

  function CostOf(ps: seq<Player>, c: seq<int>): int
  {
    Diff(ps, MaskOf(c, |ps|))
  }

  function Costs(ps: seq<Player>): (r: seq<Option<int>>)
    ensures |r| == |Candidates(|ps|)|
  {
    var cs := Candidates(|ps|);
    seq(|cs|, i requires 0 <= i < |cs| => Some(CostOf(ps, cs[i])))
  }

  /** The names on each side of the split `c`, in input order. */
  function SplitOf(ps: seq<Player>, c: seq<int>): Split
  {
    var m := MaskOf(c, |ps|);
    Split(NamesOf(Side(ps, m, true), Name), NamesOf(Side(ps, m, false), Name))
  }

  /** `balance_teams`; `None` stands for the final `assert best_split is not
      None` failing. */
  function BalanceTeams(ps: seq<Player>): Option<Split>
  {
    var cs := Candidates(|ps|);
    match Scan(Costs(ps), None)
    case None => None
    case Some(i) => Some(SplitOf(ps, cs[i]))
  }

  lemma {:induction false} ChooseNonEmpty(arr: seq<int>, k: int)
    requires 0 <= k <= |arr|
    ensures |Choose(arr, k)| > 0
    decreases |arr|
  {
    if k != 0 {
      ChooseNonEmpty(arr[1..], k - 1);
    }
  }

  /** Naming commutes with taking a side. */
  lemma {:induction false} SideNames(ps: seq<Player>, mask: seq<bool>, keep: bool)
    requires |mask| == |ps|
    ensures NamesOf(Side(ps, mask, keep), Name) == Side(NamesOf(ps, Name), mask, keep)
  {
    if |ps| > 0 {
      SideNames(ps[1..], mask[1..], keep);
      assert NamesOf(ps, Name)[1..] == NamesOf(ps[1..], Name);
      var head := if mask[0] == keep then [ps[0]] else [];
      NamesAppend(head, Side(ps[1..], mask[1..], keep));
    }
  }

  lemma NamesAppend(a: seq<Player>, b: seq<Player>)
    ensures NamesOf(a + b, Name) == NamesOf(a, Name) + NamesOf(b, Name)
  {
  }

  /** The final assertion never fires: there is always a candidate, even
      for an empty roster (one empty combination). */
  lemma BalanceNeverFails(ps: seq<Player>)
    ensures BalanceTeams(ps).Some?
  {
    ChooseNonEmpty(Range(0, |ps|), |ps| / 2);
    ScanUnbounded(Costs(ps));
    assert Costs(ps)[0].Some?;
  }

  /** The split `c` puts exactly `n // 2` named players in team A and the
      rest in team B, each player on exactly one side. */
  lemma SplitShape(ps: seq<Player>, c: seq<int>)
    requires c in Candidates(|ps|)
    ensures var s := SplitOf(ps, c);
      && |s.teamA| == |ps| / 2
      && |s.teamB| == |ps| - |ps| / 2
      && multiset(s.teamA) + multiset(s.teamB) == multiset(NamesOf(ps, Name))
  {
    var n := |ps|;
    RangeIncreasing(0, n);
    ChooseShape(Range(0, n), n / 2);
    MaskOfCount(c, n);
    var m := MaskOf(c, n);
    SidePartition(ps, m);
    SideNames(ps, m, true);
    SideNames(ps, m, false);
    SidePartition(NamesOf(ps, Name), m);
  }

  /** `balance_teams` returns the split of a half-size combination `c`:
      no half-size choice of team 1 has a smaller skill difference, and
      every choice that `itertools.combinations` yields before `c` has a
      strictly larger one. */
  lemma BalanceOptimal(ps: seq<Player>) returns (c: seq<int>)
    ensures c in Candidates(|ps|)
    ensures BalanceTeams(ps) == Some(SplitOf(ps, c))
    ensures forall c' :: Increasing(c') && |c'| == |ps| / 2 && (forall x :: x in c' ==> 0 <= x < |ps|) ==>
      CostOf(ps, c) <= CostOf(ps, c')
    ensures forall c' :: c' in Candidates(|ps|) && LexLess(c', c) ==> CostOf(ps, c) < CostOf(ps, c')
  {
    var costs := Costs(ps);
    BalanceNeverFails(ps);
    ScanSpec(costs, None);
    var i := Scan(costs, None).value;
    c := Candidates(|ps|)[i];
    LeastOfAll(ps, i);
    StrictlyBeforeIt(ps, i);
  }

  /** The kept candidate costs no more than any half-size choice. */
  lemma LeastOfAll(ps: seq<Player>, i: int)
    requires FirstMinimal(Costs(ps), None, i)
    ensures forall c' :: Increasing(c') && |c'| == |ps| / 2 && (forall x :: x in c' ==> 0 <= x < |ps|) ==>
      CostOf(ps, Candidates(|ps|)[i]) <= CostOf(ps, c')
  {
    var n, cs, costs := |ps|, Candidates(|ps|), Costs(ps);
    RangeIncreasing(0, n);
    forall c' | Increasing(c') && |c'| == n / 2 && (forall x :: x in c' ==> 0 <= x < n)
      ensures CostOf(ps, cs[i]) <= CostOf(ps, c')
    {
      ChooseComplete(Range(0, n), n / 2, c');
      var j :| 0 <= j < |cs| && cs[j] == c';
      assert costs[j] == Some(CostOf(ps, c'));
    }
  }

  /** Every candidate visited before the kept one costs strictly more. */
  lemma StrictlyBeforeIt(ps: seq<Player>, i: int)
    requires FirstMinimal(Costs(ps), None, i)
    ensures forall c' :: c' in Candidates(|ps|) && LexLess(c', Candidates(|ps|)[i]) ==>
      CostOf(ps, Candidates(|ps|)[i]) < CostOf(ps, c')
  {
    var n, cs, costs := |ps|, Candidates(|ps|), Costs(ps);
    RangeIncreasing(0, n);
    ChooseSorted(Range(0, n), n / 2);
    forall c' | c' in cs && LexLess(c', cs[i])
      ensures CostOf(ps, cs[i]) < CostOf(ps, c')
    {
      var j :| 0 <= j < |cs| && cs[j] == c';
      BeforeCostsMore(ps, i, j);
    }
  }

  lemma BeforeCostsMore(ps: seq<Player>, i: int, j: int)
    requires FirstMinimal(Costs(ps), None, i) && LexSorted(Candidates(|ps|))
    requires 0 <= j < |Candidates(|ps|)| && LexLess(Candidates(|ps|)[j], Candidates(|ps|)[i])
    ensures CostOf(ps, Candidates(|ps|)[i]) < CostOf(ps, Candidates(|ps|)[j])
  {
    LexOrderIndex(Candidates(|ps|), j, i);
    assert Costs(ps)[j] == Some(CostOf(ps, Candidates(|ps|)[j]));
  }

  /** With no players the result is two empty teams. */
  lemma BalanceEmpty()
    ensures BalanceTeams([]) == Some(Split([], []))
  {
    assert Candidates(0) == [[]];
    assert Costs([]) == [Some(0)];
    assert Scan(Costs([]), None) == Some(0);
  }

  // ---------------------------------------------------------------------
  // get_mastery_scores
  // ---------------------------------------------------------------------

  /** Python's `s[:k]`: a negative `k` counts from the end. */
  function PyPrefix<T>(s: seq<T>, k: int): seq<T>
  {
    if k >= 0 then s[..Min(k, |s|)] else s[..Max(0, |s| + k)]
  }

  /** Appending zeros until the list holds `n` scores. */
  function PadZeros(s: seq<int>, n: int): seq<int>
    decreases n - |s|
  {
    if |s| >= n then s else PadZeros(s + [0], n)
  }

  /** The scores `get_mastery_scores` returns for the mastery list's
      points, in list order. */
  function MasteryScores(points: seq<int>, topN: int): seq<int>
  {
    PadZeros(PyPrefix(points, topN), topN)
  }

  lemma {:induction false} PadZerosSpec(s: seq<int>, n: int)
    ensures var r := PadZeros(s, n);
      && |r| == Max(|s|, n)
      && r[..|s|] == s
      && (forall i :: |s| <= i < |r| ==> r[i] == 0)
    decreases n - |s|
  {
    if |s| < n {
      PadZerosSpec(s + [0], n);
      var r := PadZeros(s, n);
      assert r[..|s| + 1][..|s|] == r[..|s|];
    }
  }

  /** A non-negative `top_n` yields exactly `top_n` scores: the first ones
      of the list, then zeros. A negative one drops that many entries from
      the end and adds no padding. */
  lemma MasteryScoresSpec(points: seq<int>, topN: int)
    ensures topN >= 0 ==>
      && |MasteryScores(points, topN)| == topN
      && forall i :: 0 <= i < topN ==>
           MasteryScores(points, topN)[i] == if i < |points| then points[i] else 0
    ensures topN < 0 ==> MasteryScores(points, topN) == points[..Max(0, |points| + topN)]
  {
    var p := PyPrefix(points, topN);
    PadZerosSpec(p, topN);
    var r := MasteryScores(points, topN);
    if topN >= 0 {
      forall i | 0 <= i < topN
        ensures r[i] == if i < |points| then points[i] else 0
      {
        if i < |p| {
          assert r[..|p|][i] == p[i];
        }
      }
    }
  }
}

=== FILE: rank.dfy ===
/** The ordered rank scale: ten tiers, four divisions each, and league points,
    folded into one integer score and unfolded again.

    The Go entry points look tiers and divisions up in maps, so an unknown
    name reads as index 0 (the map's zero value) and an out-of-range index
    reads back as the empty name. The Python model uses the same two ordinal
    scales, but raises `ValueError` for an unknown non-empty tier.
 */
module Rank {
  import opened Common

  const Tiers: seq<string> :=
    ["IRON", "BRONZE", "SILVER", "GOLD", "PLATINUM",
     "EMERALD", "DIAMOND", "MASTER", "GRANDMASTER", "CHALLENGER"]

  /** Divisions from lowest to highest: IV is index 1, I is index 4. */
  const Divisions: seq<string> := ["IV", "III", "II", "I"]

  datatype RankTriple = RankTriple(tier: string, division: string, lp: int)

  /** `tierToInt[tier]`: 1..10, or 0 for a name the map does not hold. */
  function TierIndex(tier: string): (t: int)
    ensures 0 <= t <= 10
    ensures t == 0 <==> tier !in Tiers
    ensures t > 0 ==> Tiers[t - 1] == tier
  {
    IndexOf(Tiers, tier) + 1
  }

  /** `rankToInt[rank]`: 1..4, or 0 for a name the map does not hold. */
  function DivisionIndex(division: string): (d: int)
    ensures 0 <= d <= 4
    ensures d == 0 <==> division !in Divisions
    ensures d > 0 ==> Divisions[d - 1] == division
  {
    IndexOf(Divisions, division) + 1
  }

  /** `intToTier[i]`: the tier name, or "" outside 1..10. */
  function TierName(i: int): (name: string)
    ensures 1 <= i <= 10 ==> name == Tiers[i - 1]
    ensures !(1 <= i <= 10) ==> name == ""
  {
    if 1 <= i <= 10 then Tiers[i - 1] else ""
  }

  /** `intToRank[i]`: the division name, or "" outside 1..4. */
  function DivisionName(i: int): (name: string)
    ensures 1 <= i <= 4 ==> name == Divisions[i - 1]
    ensures !(1 <= i <= 4) ==> name == ""
  {
    if 1 <= i <= 4 then Divisions[i - 1] else ""
  }

  /** A rank the scale is meant for: a known tier and division, LP 0..99. */
  ghost predicate ValidRank(tier: string, division: string, lp: int)
  {
    tier in Tiers && division in Divisions && 0 <= lp <= 99
  }

  /** `rankScore`: ((tier - 1) * 4 + (division - 1)) * 100 + lp. */
  function RankScore(tier: string, division: string, lp: int): int
  {
    ((TierIndex(tier) - 1) * 4 + (DivisionIndex(division) - 1)) * 100 + lp
  }

  /** `scoreToRank`, with Go's truncating `/` and `%`. */
  function ScoreToRank(score: int): RankTriple
  {
    RankTriple(
      TierName(GoDiv(score, 400) + 1),
      DivisionName(GoDiv(GoMod(score, 400), 100) + 1),
      GoMod(score, 100))
  }

  lemma TiersDistinct()
    ensures Distinct(Tiers)
  {
  }

  /** The tier, division and LP positions of a non-negative score. */
  lemma ScoreDigits(s: int, q: int, r: int, lp: int)
    requires s == q * 400 + r * 100 + lp
    requires 0 <= q && 0 <= r < 4 && 0 <= lp < 100
    ensures GoDiv(s, 400) == q
    ensures GoMod(s, 400) == r * 100 + lp
    ensures GoDiv(GoMod(s, 400), 100) == r
    ensures GoMod(s, 100) == lp
  {
    assert s / 400 == q;
    assert (r * 100 + lp) / 100 == r;
    assert s / 100 == q * 4 + r;
  }

  /** Every valid rank is recovered from its score. */
  lemma RankRoundTrip(tier: string, division: string, lp: int)
    requires ValidRank(tier, division, lp)
    ensures ScoreToRank(RankScore(tier, division, lp)) == RankTriple(tier, division, lp)
  {
    var t, d := TierIndex(tier), DivisionIndex(division);
    ScoreDigits(RankScore(tier, division, lp), t - 1, d - 1, lp);
    assert TierName(t) == tier;
    assert DivisionName(d) == division;
  }

  /** Every score in 0..3999 comes from exactly one valid rank. */
  lemma ScoreRoundTrip(score: int)
    requires 0 <= score <= 3999
    ensures var r := ScoreToRank(score);
      ValidRank(r.tier, r.division, r.lp) && RankScore(r.tier, r.division, r.lp) == score
  {
    var q, m := GoDiv(score, 400), GoMod(score, 400);
    var r, lp := GoDiv(m, 100), GoMod(m, 100);
    assert score == q * 400 + r * 100 + lp;
    assert 0 <= q < 10;
    ScoreDigits(score, q, r, lp);
    TierIndexOfName(q + 1);
    DivisionIndexOfName(r + 1);
  }

  /** Valid ranks score 0..3999. */
  lemma RankScoreRange(tier: string, division: string, lp: int)
    requires ValidRank(tier, division, lp)
    ensures 0 <= RankScore(tier, division, lp) <= 3999
  {
  }

  /** The score is strictly increasing in (tier, division, LP), compared
      lexicographically. */
  lemma RankScoreStrictlyIncreasing(a: RankTriple, b: RankTriple)
    requires ValidRank(a.tier, a.division, a.lp) && ValidRank(b.tier, b.division, b.lp)
    requires || TierIndex(a.tier) < TierIndex(b.tier)
             || (TierIndex(a.tier) == TierIndex(b.tier) && DivisionIndex(a.division) < DivisionIndex(b.division))
             || (TierIndex(a.tier) == TierIndex(b.tier) && DivisionIndex(a.division) == DivisionIndex(b.division) && a.lp < b.lp)
    ensures RankScore(a.tier, a.division, a.lp) < RankScore(b.tier, b.division, b.lp)
  {
    var ta, tb := TierIndex(a.tier), TierIndex(b.tier);
    var da, db := DivisionIndex(a.division), DivisionIndex(b.division);
    assert RankScore(a.tier, a.division, a.lp) == (ta - 1) * 400 + (da - 1) * 100 + a.lp;
    assert RankScore(b.tier, b.division, b.lp) == (tb - 1) * 400 + (db - 1) * 100 + b.lp;
    if ta < tb {
      assert (tb - 1) * 400 >= (ta - 1) * 400 + 400;
    } else if da < db {
      assert (db - 1) * 100 >= (da - 1) * 100 + 100;
    }
  }

  /** The worked example: GOLD II 50 is 1450 and back. */
  lemma GoldTwoFifty()
    ensures RankScore("GOLD", "II", 50) == 1450
    ensures ScoreToRank(1450) == RankTriple("GOLD", "II", 50)
  {
    TierIndexOfName(4);
    DivisionIndexOfName(3);
    RankRoundTrip("GOLD", "II", 50);
  }

  /** An unranked-looking entry with unknown names still gets a score: the
      zero map values make it land below IRON IV. */
  lemma UnknownNamesScoreNegative(tier: string, division: string, lp: int)
    requires tier !in Tiers && division !in Divisions
    ensures RankScore(tier, division, lp) == lp - 500
  {
  }

  // ---------------------------------------------------------------------
  // The Python ordinal helpers
  // ---------------------------------------------------------------------

  datatype PyError = ValueError

  datatype PyResult = Ok(value: int) | Raised(error: PyError)

  predicate IsAscii(c: char)
  {
    c as int < 0x80
  }

  /** The non-ASCII characters whose upper case is plain ASCII: ß, dotless
      ı, long ſ and the Latin ligatures U+FB00..U+FB06. */
  predicate FoldsToAscii(c: char)
  {
    c == '\U{DF}' || c == '\U{131}' || c == '\U{17F}' || 0xFB00 <= c as int <= 0xFB06
  }

  /** The upper case of the ligatures U+FB00..U+FB06, in code-point order. */
  const LigatureUpper: seq<string> := ["FF", "FI", "FL", "FFI", "FFL", "ST", "ST"]

  /** `str.upper` on one character. Lower-case ASCII letters and the
      characters of `FoldsToAscii` map to their ASCII upper case, which is
      two or three letters for ß and the ligatures. Every other character is
      kept as it is: an ASCII one is its own upper case, and any other
      non-ASCII one upper-cases to text that still holds a non-ASCII
      character, which is all a tier lookup can tell apart. */
  function UpperOf(c: char): (u: string)
    ensures 1 <= |u| <= 3
    ensures (IsAscii(c) || FoldsToAscii(c)) <==> forall k :: 0 <= k < |u| ==> IsAscii(u[k])
  {
    if 'a' <= c <= 'z' then [(c as int - 32) as char]
    else if c == '\U{DF}' then "SS"
    else if c == '\U{131}' then "I"
    else if c == '\U{17F}' then "S"
    else if 0xFB00 <= c as int <= 0xFB06 then
      var u := LigatureUpper[c as int - 0xFB00];
      assert forall k :: 0 <= k < |u| ==> IsAscii(u[k]);
      u
    else
      var u := [c];
      assert IsAscii(u[0]) <==> IsAscii(c);
      u
  }

  /** `str.upper`: each character's upper case, in order. */
  function PyUpper(s: string): (r: string)
    ensures |s| <= |r| <= 3 * |s|
  {
    if |s| == 0 then "" else UpperOf(s[0]) + PyUpper(s[1..])
  }

  /** On ASCII text, upper-casing changes a..z and nothing else, one
      character for one. */
  lemma {:induction false} PyUpperAscii(s: string)
    requires forall i :: 0 <= i < |s| ==> IsAscii(s[i])
    ensures var r := PyUpper(s);
      && |r| == |s|
      && forall i :: 0 <= i < |s| ==> r[i] == (if 'a' <= s[i] <= 'z' then (s[i] as int - 32) as char else s[i])
  {
    if |s| > 0 {
      PyUpperAscii(s[1..]);
    }
  }

  /** A non-ASCII character that does not fold to ASCII survives
      upper-casing. */
  lemma {:induction false} PyUpperKeepsForeign(s: string, i: int)
    requires 0 <= i < |s| && !IsAscii(s[i]) && !FoldsToAscii(s[i])
    ensures s[i] in PyUpper(s)
  {
    if i == 0 {
      assert PyUpper(s)[0] == s[0];
    } else {
      PyUpperKeepsForeign(s[1..], i - 1);
      assert PyUpper(s) == UpperOf(s[0]) + PyUpper(s[1..]);
    }
  }

  /** `tier_to_int`: a missing or empty tier is 0; otherwise the upper-cased
      name must be on the scale, else `ValueError`. */
  function PyTierToInt(tier: Option<string>): (r: PyResult)
    ensures r.Ok? ==> 0 <= r.value <= 10
  {
    match tier
    case None => Ok(0)
    case Some(t) =>
      if t == "" then Ok(0)
      else
        var i := TierIndex(PyUpper(t));
        if i == 0 then Raised(ValueError) else Ok(i)
  }

  /** A missing or empty tier reads as 0; a non-empty one is accepted
      exactly when its upper-case form is on the scale. */
  lemma PyTierToIntSpec(tier: Option<string>)
    ensures (tier == None || tier == Some("")) ==> PyTierToInt(tier) == Ok(0)
    ensures tier.Some? && tier.value != "" ==>
      (PyTierToInt(tier).Ok? <==> PyUpper(tier.value) in Tiers)
  {
  }

  /** A positive result is the position of the upper-cased name. */
  lemma PyTierToIntName(tier: Option<string>)
    ensures var r := PyTierToInt(tier);
      r.Ok? && r.value > 0 ==> tier.Some? && Tiers[r.value - 1] == PyUpper(tier.value)
  {
  }

  /** Tier names are plain ASCII. */
  lemma TiersAscii()
    ensures forall k, i :: 0 <= k < |Tiers| && 0 <= i < |Tiers[k]| ==> IsAscii(Tiers[k][i])
  {
  }

  /** A name holding a non-ASCII character that does not fold to ASCII
      raises, whatever else it holds. */
  lemma PyTierForeignRaises(t: string, i: int)
    requires 0 <= i < |t| && !IsAscii(t[i]) && !FoldsToAscii(t[i])
    ensures PyTierToInt(Some(t)) == Raised(ValueError)
  {
    PyUpperKeepsForeign(t, i);
    TiersAscii();
    assert PyUpper(t) !in Tiers;
  }

  /** `rank_to_int`: IV..I are 1..4, anything else is 0. */
  function PyRankToInt(rank: Option<string>): (r: int)
    ensures 0 <= r <= 4
    ensures r > 0 <==> rank.Some? && rank.value in Divisions
    ensures r > 0 ==> Divisions[r - 1] == rank.value
  {
    match rank
    case None => 0
    case Some(s) => DivisionIndex(s)
  }

  /** Each tier name sits at its own position on the scale. */
  lemma TierIndexOfName(i: int)
    requires 1 <= i <= 10
    ensures TierIndex(Tiers[i - 1]) == i
  {
    TiersDistinct();
    var k := TierIndex(Tiers[i - 1]);
    assert Tiers[k - 1] == Tiers[i - 1];
  }

  lemma DivisionIndexOfName(i: int)
    requires 1 <= i <= 4
    ensures DivisionIndex(Divisions[i - 1]) == i
  {
    var k := DivisionIndex(Divisions[i - 1]);
    assert Divisions[k - 1] == Divisions[i - 1];
  }

  /** A name whose upper-case form is the `i`-th tier reads as `i`,
      whatever its case. */
  lemma PyTierUpper(t: string, i: int)
    requires t != "" && i > 0 && TierIndex(PyUpper(t)) == i
    ensures PyTierToInt(Some(t)) == Ok(i)
  {
  }

  /** Lower-case tier names are accepted: `tier.upper()` is looked up. */
  lemma PyTierCaseInsensitive()
    ensures PyTierToInt(Some("gold")) == Ok(4)
    ensures PyTierToInt(Some("Diamond")) == Ok(7)
  {
    UpperGold();
    UpperDiamond();
    TierIndexOfName(4);
    TierIndexOfName(7);
    PyTierUpper("gold", 4);
    PyTierUpper("Diamond", 7);
  }

  lemma UpperGold()
    ensures PyUpper("gold") == Tiers[3]
  {
    assert PyUpper("gold") == "GOLD";
  }

  lemma UpperDiamond()
    ensures PyUpper("Diamond") == Tiers[6]
  {
    assert PyUpper("Diamond") == "DIAMOND";
  }

  /** Non-ASCII letters whose upper case is ASCII are accepted: dotless ı,
      long ſ and the ﬆ ligature. */
  lemma PyTierFoldedNames()
    ensures PyTierToInt(Some("\U{131}ron")) == Ok(1)
    ensures PyTierToInt(Some("\U{17F}ilver")) == Ok(3)
    ensures PyTierToInt(Some("ma\U{FB06}er")) == Ok(8)
  {
    UpperDotlessIron();
    UpperLongSilver();
    UpperLigatureMaster();
    TierIndexOfName(1);
    TierIndexOfName(3);
    TierIndexOfName(8);
    PyTierUpper("\U{131}ron", 1);
    PyTierUpper("\U{17F}ilver", 3);
    PyTierUpper("ma\U{FB06}er", 8);
  }

  lemma UpperDotlessIron()
    ensures PyUpper("\U{131}ron") == Tiers[0]
  {
    assert PyUpper("\U{131}ron") == "IRON";
  }

  lemma UpperLongSilver()
    ensures PyUpper("\U{17F}ilver") == Tiers[2]
  {
    assert PyUpper("\U{17F}ilver") == "SILVER";
  }

  lemma UpperLigatureMaster()
    ensures PyUpper("ma\U{FB06}er") == Tiers[7]
  {
    assert PyUpper("ma\U{FB06}er") == "MASTER";
  }

  /** A non-empty name off the scale raises. */
  lemma PyTierUnknownRaises(t: string)
    requires t != "" && PyUpper(t) !in Tiers
    ensures PyTierToInt(Some(t)) == Raised(ValueError)
  {
  }

  /** "WOOD", for one, is off the scale. */
  lemma PyTierWoodRaises()
    ensures PyTierToInt(Some("WOOD")) == Raised(ValueError)
  {
    UpperWood();
    assert "WOOD" !in Tiers;
    PyTierUnknownRaises("WOOD");
  }

  lemma UpperWood()
    ensures PyUpper("WOOD") == "WOOD"
  {
    PyUpperAscii("WOOD");
  }
}

=== FILE: retry.dfy ===
/** The two retrying request executors (`doRequestWithRetry`) as functions of a
    scripted stream of outcomes.

    Each attempt consumes the next outcome of the script: an HTTP response
    with its status and its raw `Retry-After` header, or a transport error.
    An executor returns what the Go function returns, how many attempts it
    made and the sleeps it took in between, in milliseconds. If the script
    runs out while the executor would still try again, the reply is
    `Pending`: the real loop would go on calling the server.

    The web service's executor (`backend/cmd/app/main.go`) retries 429
    without bound, honouring `Retry-After`, and sends every other failure
    down one bounded path with a backoff that doubles from 1 s while it is
    under 30 s, so it settles at 32 s. The command-line executor
    (`backend/cmd/main.go`) bounds every attempt by `maxRetry`, doubles its
    wait without a cap, but only after 429 and 5xx.
 */
module Retry {
  import opened Common

  datatype Outcome =
    | Response(status: int, retryAfter: string)
    | NetError

  /** What the executor hands back: a response (200 or 404), the `(nil, nil)`
      of SKIP mode, the error carrying the last HTTP status, or nothing yet
      because the script ran out. */
  datatype Reply =
    | Delivered(status: int)
    | Skipped
    | Failed(lastStatus: int)
    | Pending

  datatype Pause =
    | RetryAfter(ms: int)
    | Backoff(ms: int)

  datatype Run = Run(reply: Reply, attempts: nat, pauses: seq<Pause>)

  // ---------------------------------------------------------------------
  // The Retry-After header
  // ---------------------------------------------------------------------

  /** Go's `unicode.IsSpace`, which `strings.TrimSpace` uses. */
  predicate IsSpace(c: char)
  {
    var u := c as int;
    || u == 0x20 || 0x09 <= u <= 0x0D || u == 0x85 || u == 0xA0
    || u == 0x1680 || 0x2000 <= u <= 0x200A || u == 0x2028 || u == 0x2029
    || u == 0x202F || u == 0x205F || u == 0x3000
  }

  function TrimLeft(s: string): (r: string)
    ensures |r| <= |s|
  {
    if |s| > 0 && IsSpace(s[0]) then TrimLeft(s[1..]) else s
  }

  function TrimRight(s: string): (r: string)
    ensures |r| <= |s|
  {
    if |s| > 0 && IsSpace(s[|s| - 1]) then TrimRight(s[..|s| - 1]) else s
  }

  /** `strings.TrimSpace`. */
  function TrimSpace(s: string): (r: string)
    ensures |r| <= |s|
  {
    TrimRight(TrimLeft(s))
  }

  lemma {:induction false} TrimLeftSpec(s: string)
    ensures var r := TrimLeft(s);
      && r == s[|s| - |r|..]
      && (forall k :: 0 <= k < |s| - |r| ==> IsSpace(s[k]))
      && (|r| > 0 ==> !IsSpace(r[0]))
  {
    if |s| > 0 && IsSpace(s[0]) {
      TrimLeftSpec(s[1..]);
      var r := TrimLeft(s[1..]);
      assert s[1..][|s[1..]| - |r|..] == s[|s| - |r|..];
    }
  }

  lemma {:induction false} TrimRightSpec(s: string)
    ensures var r := TrimRight(s);
      && r == s[..|r|]
      && (forall k :: |r| <= k < |s| ==> IsSpace(s[k]))
      && (|r| > 0 ==> !IsSpace(r[|r| - 1]))
  {
    if |s| > 0 && IsSpace(s[|s| - 1]) {
      var s' := s[..|s| - 1];
      TrimRightSpec(s');
      var r := TrimRight(s');
      assert s'[..|r|] == s[..|r|];
    }
  }

  /** Trimming keeps one contiguous piece of the header, removes only white
      space around it, and leaves none at either end. */
  lemma TrimSpaceSpec(s: string)
    ensures var r, i := TrimSpace(s), |s| - |TrimLeft(s)|;
      && 0 <= i && i + |r| <= |s| && r == s[i..i + |r|]
      && (forall k :: 0 <= k < i ==> IsSpace(s[k]))
      && (forall k :: i + |r| <= k < |s| ==> IsSpace(s[k]))
      && (|r| > 0 ==> !IsSpace(r[0]) && !IsSpace(r[|r| - 1]))
  {
    var l := TrimLeft(s);
    TrimLeftSpec(s);
    TrimRightSpec(l);
    var r := TrimRight(l);
    var i := |s| - |l|;
    assert l == s[i..];
    assert r == l[..|r|] == s[i..i + |r|];
    forall k | i + |r| <= k < |s|
      ensures IsSpace(s[k])
    {
      assert s[k] == l[k - i];
    }
    if |r| > 0 {
      assert r[0] == l[0];
    }
  }

  /** Trimming twice is trimming once. */
  lemma TrimSpaceIdempotent(s: string)
    ensures TrimSpace(TrimSpace(s)) == TrimSpace(s)
  {
    var r := TrimSpace(s);
    TrimSpaceSpec(s);
    if |r| > 0 {
      assert TrimLeft(r) == r;
      assert TrimRight(r) == r;
    } else {
      assert r == [];
    }
  }

  predicate IsDigit(c: char)
  {
    '0' <= c <= '9'
  }

  predicate AllDigits(s: string)
  {
    forall k :: 0 <= k < |s| ==> IsDigit(s[k])
  }

  /** The value of a string of decimal digits, most significant first. */
  function DigitsValue(s: string): (v: nat)
    requires AllDigits(s)
  {
    if |s| == 0 then 0
    else 10 * DigitsValue(s[..|s| - 1]) + (s[|s| - 1] as int - '0' as int)
  }

  const MinInt64 := -0x8000_0000_0000_0000
  const MaxInt64 := 0x7FFF_FFFF_FFFF_FFFF

  /** `strconv.Atoi`: an optional sign, then at least one decimal digit, with
      the value inside the 64-bit range. */
  function Atoi(s: string): (r: Option<int>)
    ensures r.Some? ==> MinInt64 <= r.value <= MaxInt64
  {
    var signed := |s| > 0 && (s[0] == '+' || s[0] == '-');
    var digits := if signed then s[1..] else s;
    if |digits| == 0 || !AllDigits(digits) then None
    else
      var magnitude := DigitsValue(digits);
      var v: int := if signed && s[0] == '-' then -(magnitude as int) else magnitude;
      if MinInt64 <= v <= MaxInt64 then Some(v) else None
  }

  function DigitChar(d: int): char
    requires 0 <= d < 10
  {
    ('0' as int + d) as char
  }

  /** Decimal digits of `n`, without leading zeros. */
  function Decimal(n: nat): (s: string)
  {
    if n < 10 then [DigitChar(n)] else Decimal(n / 10) + [DigitChar(n % 10)]
  }

  /** `strconv.Itoa`. */
  function Itoa(n: int): string
  {
    if n < 0 then "-" + Decimal(-n) else Decimal(n)
  }

  lemma {:induction false} DecimalDigits(n: nat)
    ensures |Decimal(n)| > 0 && AllDigits(Decimal(n))
    ensures DigitsValue(Decimal(n)) == n
  {
    if n >= 10 {
      DecimalDigits(n / 10);
      var s := Decimal(n);
      assert s[..|s| - 1] == Decimal(n / 10);
    }
  }

  /** `Atoi` reads back every 64-bit integer that `Itoa` writes. */
  lemma AtoiItoa(n: int)
    requires MinInt64 <= n <= MaxInt64
    ensures Atoi(Itoa(n)) == Some(n)
  {
    if n < 0 {
      DecimalDigits(-n);
      var s := Itoa(n);
      assert s[1..] == Decimal(-n);
    } else {
      DecimalDigits(n);
      assert IsDigit(Decimal(n)[0]);
    }
  }

  const DefaultRetryAfterMs := 2000

  /** The sleep after a 429: the header's whole seconds when it trims to an
      integer, else (and also for "0") two seconds. */
  function RetryAfterMs(header: string): (ms: int)
  {
    var ra := TrimSpace(header);
    var wait := if ra != "" && Atoi(ra).Some? then Atoi(ra).value * 1000 else 0;
    if wait == 0 then DefaultRetryAfterMs else wait
  }

  /** A 429 always sleeps: whole seconds from the header, or the two-second
      default. */
  lemma RetryAfterWhole(header: string)
    ensures RetryAfterMs(header) != 0
    ensures RetryAfterMs(header) == DefaultRetryAfterMs || RetryAfterMs(header) % 1000 == 0
  {
  }

  lemma {:induction false} TrimLeftPadded(pad: string, x: string)
    requires forall k :: 0 <= k < |pad| ==> IsSpace(pad[k])
    requires |x| > 0 && !IsSpace(x[0])
    ensures TrimLeft(pad + x) == x
  {
    if |pad| == 0 {
      assert pad + x == x;
    } else {
      assert (pad + x)[1..] == pad[1..] + x;
      TrimLeftPadded(pad[1..], x);
    }
  }

  lemma {:induction false} TrimRightPadded(x: string, pad: string)
    requires forall k :: 0 <= k < |pad| ==> IsSpace(pad[k])
    requires |x| > 0 && !IsSpace(x[|x| - 1])
    ensures TrimRight(x + pad) == x
  {
    if |pad| == 0 {
      assert x + pad == x;
    } else {
      var s := x + pad;
      assert s[..|s| - 1] == x + pad[..|pad| - 1];
      TrimRightPadded(x, pad[..|pad| - 1]);
    }
  }

  /** White space around a word is all that trimming removes. */
  lemma TrimPadded(pad: string, x: string)
    requires forall k :: 0 <= k < |pad| ==> IsSpace(pad[k])
    requires |x| > 0 && !IsSpace(x[0]) && !IsSpace(x[|x| - 1])
    ensures TrimSpace(pad + x + pad) == x
  {
    assert pad + x + pad == pad + (x + pad);
    TrimLeftPadded(pad, x + pad);
    TrimRightPadded(x, pad);
  }

  /** A header holding an integer, white space around it or not, sleeps that
      many seconds; zero falls back to two seconds. */
  lemma RetryAfterSeconds(v: int, pad: string)
    requires MinInt64 <= v <= MaxInt64
    requires forall k :: 0 <= k < |pad| ==> IsSpace(pad[k])
    ensures RetryAfterMs(pad + Itoa(v) + pad) == if v == 0 then DefaultRetryAfterMs else v * 1000
  {
    var digits := Itoa(v);
    AtoiItoa(v);
    DecimalDigits(if v < 0 then -v else v);
    assert !IsSpace(digits[0]) && !IsSpace(digits[|digits| - 1]);
    TrimPadded(pad, digits);
  }

  /** A missing header, and one that is not a number, sleep two seconds. */
  lemma RetryAfterFallback()
    ensures RetryAfterMs("") == DefaultRetryAfterMs
    ensures RetryAfterMs("soon") == DefaultRetryAfterMs
    ensures RetryAfterMs(" 0 ") == DefaultRetryAfterMs
  {
    assert TrimSpace("") == "";
    assert TrimLeft("soon") == "soon" && TrimRight("soon") == "soon";
    assert !IsDigit('s');
    RetryAfterSeconds(0, " ");
    assert " " + Itoa(0) + " " == " 0 ";
  }

  // ---------------------------------------------------------------------
  // Shared vocabulary
  // ---------------------------------------------------------------------

  predicate IsStatus(o: Outcome, code: int)
  {
    o.Response? && o.status == code
  }

  predicate IsServerError(o: Outcome)
  {
    o.Response? && 500 <= o.status < 600
  }

  /** `lastStatus` after an outcome: a response overwrites it, a transport
      error leaves it. */
  function StatusAfter(o: Outcome, last: int): int
  {
    if o.Response? then o.status else last
  }

  /** The status of the last response in `outs`, or `init` if there is none. */
  function LastStatus(outs: seq<Outcome>, init: int): int
  {
    if |outs| == 0 then init
    else if outs[|outs| - 1].Response? then outs[|outs| - 1].status
    else LastStatus(outs[..|outs| - 1], init)
  }

  lemma {:induction false} LastStatusCons(o: Outcome, outs: seq<Outcome>, init: int)
    ensures LastStatus([o] + outs, init) == LastStatus(outs, StatusAfter(o, init))
    decreases |outs|
  {
    if |outs| > 0 {
      var s := [o] + outs;
      assert s[..|s| - 1] == [o] + outs[..|outs| - 1];
      LastStatusCons(o, outs[..|outs| - 1], init);
    } else {
      assert ([o] + outs)[..0] == [];
    }
  }

  /** The prefix of `outs` one longer than `j` elements of its tail. */
  lemma PrefixCons(outs: seq<Outcome>, j: int)
    requires 0 <= j < |outs|
    ensures outs[..j + 1] == [outs[0]] + outs[1..][..j]
  {
  }

  function Then(p: Pause, r: Run): (r': Run)
    ensures r'.attempts == r.attempts + 1 && r'.reply == r.reply
    ensures |r'.pauses| == |r.pauses| + 1 && r'.pauses[0] == p && r'.pauses[1..] == r.pauses
  {
    Run(r.reply, r.attempts + 1, [p] + r.pauses)
  }

  // ---------------------------------------------------------------------
  // The web service's executor
  // ---------------------------------------------------------------------

  const InitialBackoffMs := 1000
  const BackoffCeilingMs := 30000

  /** `if backoff < 30*time.Second { backoff *= 2 }` */
  function NextBackoff(b: int): int
  {
    if b < BackoffCeilingMs then b * 2 else b
  }

  /** One pass of the `for` loop per outcome. `tries` counts the attempts made
      before this one, `backoff` is the current backoff and `last` the last
      HTTP status seen. */
  function AppLoop(outs: seq<Outcome>, maxRetry: int, skip: bool, tries: nat, backoff: int, last: int): (r: Run)
    ensures |r.pauses| <= r.attempts <= |outs|
    decreases |outs|
  {
    if |outs| == 0 then Run(Pending, 0, [])
    else
      var o, n := outs[0], tries + 1;
      var status := StatusAfter(o, last);
      if IsStatus(o, 200) || IsStatus(o, 404) then Run(Delivered(o.status), 1, [])
      else if IsStatus(o, 429) then
        if skip then Run(Skipped, 1, [])
        else Then(RetryAfter(RetryAfterMs(o.retryAfter)), AppLoop(outs[1..], maxRetry, skip, n, backoff, status))
      // 5xx, any other status and a transport error take the same path
      else if skip then Run(Skipped, 1, [])
      else if maxRetry > 0 && n >= maxRetry then Run(Failed(status), 1, [])
      else Then(Backoff(backoff), AppLoop(outs[1..], maxRetry, skip, n, NextBackoff(backoff), status))
  }

  function RetryApp(outs: seq<Outcome>, maxRetry: int, skip: bool): Run
  {
    AppLoop(outs, maxRetry, skip, 0, InitialBackoffMs, 0)
  }

  /** Whether the web executor returns right after outcome `o` of its `n`-th
      attempt. */
  predicate AppStops(o: Outcome, n: int, maxRetry: int, skip: bool)
  {
    || IsStatus(o, 200) || IsStatus(o, 404) || skip
    || (!IsStatus(o, 429) && maxRetry > 0 && n >= maxRetry)
  }

  /** What it returns then, given the last status seen before `o`. */
  function AppStopReply(o: Outcome, skip: bool, last: int): Reply
  {
    if IsStatus(o, 200) || IsStatus(o, 404) then Delivered(o.status)
    else if skip then Skipped
    else Failed(StatusAfter(o, last))
  }

  /** Index of the first outcome after which the web executor stops, when its
      first attempt is number `tries + 1`; `|outs|` if there is none. */
  function FirstAppStop(outs: seq<Outcome>, maxRetry: int, skip: bool, tries: nat): (i: nat)
    ensures i <= |outs|
    ensures i < |outs| ==> AppStops(outs[i], tries + i + 1, maxRetry, skip)
    ensures forall j :: 0 <= j < i ==> !AppStops(outs[j], tries + j + 1, maxRetry, skip)
  {
    if |outs| == 0 || AppStops(outs[0], tries + 1, maxRetry, skip) then 0
    else 1 + FirstAppStop(outs[1..], maxRetry, skip, tries + 1)
  }

  /** The web executor stops at the first stopping outcome, replies with what
      that outcome calls for and the last status seen, and is still going if
      no outcome stops it. */
  lemma {:induction false} AppReplySpec(outs: seq<Outcome>, maxRetry: int, skip: bool, tries: nat, backoff: int, last: int)
    ensures var r, i := AppLoop(outs, maxRetry, skip, tries, backoff, last), FirstAppStop(outs, maxRetry, skip, tries);
      && (i == |outs| ==> r.reply == Pending && r.attempts == |outs|)
      && (i < |outs| ==> r.reply == AppStopReply(outs[i], skip, LastStatus(outs[..i], last)) && r.attempts == i + 1)
    decreases |outs|
  {
    if |outs| > 0 && !AppStops(outs[0], tries + 1, maxRetry, skip) {
      var o := outs[0];
      var b := if IsStatus(o, 429) then backoff else NextBackoff(backoff);
      AppReplySpec(outs[1..], maxRetry, skip, tries + 1, b, StatusAfter(o, last));
      AppReplyStep(outs, maxRetry, skip, tries, backoff, last);
    } else if |outs| > 0 {
      assert outs[..0] == [];
    }
  }

  /** The inductive step of `AppReplySpec`. */
  lemma AppReplyStep(outs: seq<Outcome>, maxRetry: int, skip: bool, tries: nat, backoff: int, last: int)
    requires |outs| > 0 && !AppStops(outs[0], tries + 1, maxRetry, skip)
    requires var o := outs[0];
      var r, i := AppLoop(outs[1..], maxRetry, skip, tries + 1, if IsStatus(o, 429) then backoff else NextBackoff(backoff), StatusAfter(o, last)),
        FirstAppStop(outs[1..], maxRetry, skip, tries + 1);
      && (i == |outs| - 1 ==> r.reply == Pending && r.attempts == |outs| - 1)
      && (i < |outs| - 1 ==> r.reply == AppStopReply(outs[1..][i], skip, LastStatus(outs[1..][..i], StatusAfter(o, last))) && r.attempts == i + 1)
    ensures var r, i := AppLoop(outs, maxRetry, skip, tries, backoff, last), FirstAppStop(outs, maxRetry, skip, tries);
      && (i == |outs| ==> r.reply == Pending && r.attempts == |outs|)
      && (i < |outs| ==> r.reply == AppStopReply(outs[i], skip, LastStatus(outs[..i], last)) && r.attempts == i + 1)
  {
    AppStep(outs, maxRetry, skip, tries, backoff, last);
    var i' := FirstAppStop(outs[1..], maxRetry, skip, tries + 1);
    if i' < |outs| - 1 {
      LastStatusShift(outs, i', last);
    }
  }

  /** The k-th backoff of the web executor (from 0): 1, 2, 4, 8, 16, 32 s,
      then 32 s for ever. */
  function BackoffAt(k: nat): (ms: int)
  {
    if k <= 5 then InitialBackoffMs * Pow2(k) else 32000
  }

  lemma BackoffStep(k: nat)
    ensures BackoffAt(0) == InitialBackoffMs
    ensures NextBackoff(BackoffAt(k)) == BackoffAt(k + 1)
    ensures InitialBackoffMs <= BackoffAt(k) <= 32000
  {
    assert Pow2(1) == 2 && Pow2(2) == 4 && Pow2(3) == 8 && Pow2(4) == 16 && Pow2(5) == 32;
  }

  /** Number of outcomes in `outs` whose failure would back off: everything
      but 429. */
  function CountBackoffs(outs: seq<Outcome>): (c: nat)
    ensures c <= |outs|
  {
    if |outs| == 0 then 0
    else (if IsStatus(outs[0], 429) then 0 else 1) + CountBackoffs(outs[1..])
  }

  /** The sleep the web executor takes after failing outcome `o`, when `k`
      backoffs came before it. */
  function AppPause(o: Outcome, k: nat): Pause
  {
    if IsStatus(o, 429) then RetryAfter(RetryAfterMs(o.retryAfter)) else Backoff(BackoffAt(k))
  }

  /** The sleeps after the failing outcomes `outs`, in order, when `k`
      backoffs came before them. */
  function AppPauses(outs: seq<Outcome>, k: nat): (ps: seq<Pause>)
    ensures |ps| == |outs|
  {
    if |outs| == 0 then []
    else [AppPause(outs[0], k)] + AppPauses(outs[1..], k + (if IsStatus(outs[0], 429) then 0 else 1))
  }

  /** The j-th of those sleeps depends only on the j-th outcome and on how
      many backoffs came before it. */
  lemma {:induction false} AppPausesIndexed(outs: seq<Outcome>, k: nat, j: int)
    requires 0 <= j < |outs|
    ensures AppPauses(outs, k)[j] == AppPause(outs[j], k + CountBackoffs(outs[..j]))
    decreases j
  {
    if j == 0 {
      assert outs[..0] == [];
    } else {
      AppPausesIndexed(outs[1..], k + (if IsStatus(outs[0], 429) then 0 else 1), j - 1);
      AppPauseAt(outs, k, j);
    }
  }

  lemma AppPauseAt(outs: seq<Outcome>, k: nat, j: int)
    requires 1 <= j < |outs|
    requires var d := if IsStatus(outs[0], 429) then 0 else 1;
      AppPauses(outs[1..], k + d)[j - 1] == AppPause(outs[1..][j - 1], k + d + CountBackoffs(outs[1..][..j - 1]))
    ensures AppPauses(outs, k)[j] == AppPause(outs[j], k + CountBackoffs(outs[..j]))
  {
    BackoffsShift(outs, j);
  }

  /** Every outcome before the stopping one is followed by one sleep: the
      Retry-After sleep for a 429, otherwise the next backoff in the
      1-2-4-8-16-32 s series. */
  lemma {:induction false} AppPausesSpec(outs: seq<Outcome>, maxRetry: int, skip: bool, tries: nat, k: nat, last: int)
    ensures AppLoop(outs, maxRetry, skip, tries, BackoffAt(k), last).pauses
         == AppPauses(outs[..FirstAppStop(outs, maxRetry, skip, tries)], k)
    decreases |outs|
  {
    if |outs| > 0 && !AppStops(outs[0], tries + 1, maxRetry, skip) {
      var o := outs[0];
      AppPausesSpec(outs[1..], maxRetry, skip, tries + 1, k + (if IsStatus(o, 429) then 0 else 1), StatusAfter(o, last));
      AppPausesStep(outs, maxRetry, skip, tries, k, last);
    } else {
      assert outs[..0] == [];
    }
  }

  /** The inductive step of `AppPausesSpec`. */
  lemma AppPausesStep(outs: seq<Outcome>, maxRetry: int, skip: bool, tries: nat, k: nat, last: int)
    requires |outs| > 0 && !AppStops(outs[0], tries + 1, maxRetry, skip)
    requires var d := if IsStatus(outs[0], 429) then 0 else 1;
      AppLoop(outs[1..], maxRetry, skip, tries + 1, BackoffAt(k + d), StatusAfter(outs[0], last)).pauses
        == AppPauses(outs[1..][..FirstAppStop(outs[1..], maxRetry, skip, tries + 1)], k + d)
    ensures AppLoop(outs, maxRetry, skip, tries, BackoffAt(k), last).pauses
         == AppPauses(outs[..FirstAppStop(outs, maxRetry, skip, tries)], k)
  {
    AppLoopPause(outs, maxRetry, skip, tries, k, last);
    AppPausesCons(outs, k, FirstAppStop(outs[1..], maxRetry, skip, tries + 1));
  }

  /** A pass that goes on sleeps for that outcome's `AppPause`. */
  lemma AppLoopPause(outs: seq<Outcome>, maxRetry: int, skip: bool, tries: nat, k: nat, last: int)
    requires |outs| > 0 && !AppStops(outs[0], tries + 1, maxRetry, skip)
    ensures var d := if IsStatus(outs[0], 429) then 0 else 1;
      AppLoop(outs, maxRetry, skip, tries, BackoffAt(k), last).pauses
        == [AppPause(outs[0], k)] + AppLoop(outs[1..], maxRetry, skip, tries + 1, BackoffAt(k + d), StatusAfter(outs[0], last)).pauses
    ensures FirstAppStop(outs, maxRetry, skip, tries) == 1 + FirstAppStop(outs[1..], maxRetry, skip, tries + 1)
  {
    AppStep(outs, maxRetry, skip, tries, BackoffAt(k), last);
    BackoffStep(k);
  }

  lemma AppPausesCons(outs: seq<Outcome>, k: nat, i: nat)
    requires i < |outs|
    ensures AppPauses(outs[..i + 1], k)
         == [AppPause(outs[0], k)] + AppPauses(outs[1..][..i], k + (if IsStatus(outs[0], 429) then 0 else 1))
  {
    var p := outs[..i + 1];
    assert p[1..] == outs[1..][..i] && p[0] == outs[0];
  }

  /** One pass that neither returns nor gives up: sleep for `Retry-After`
      after a 429, otherwise for the backoff, which then doubles while under
      30 s; go on with one more try counted. */
  lemma AppStep(outs: seq<Outcome>, maxRetry: int, skip: bool, tries: nat, backoff: int, last: int)
    requires |outs| > 0 && !AppStops(outs[0], tries + 1, maxRetry, skip)
    ensures var o := outs[0];
      AppLoop(outs, maxRetry, skip, tries, backoff, last)
        == Then(if IsStatus(o, 429) then RetryAfter(RetryAfterMs(o.retryAfter)) else Backoff(backoff),
                AppLoop(outs[1..], maxRetry, skip, tries + 1,
                        if IsStatus(o, 429) then backoff else NextBackoff(backoff), StatusAfter(o, last)))
    ensures FirstAppStop(outs, maxRetry, skip, tries) == 1 + FirstAppStop(outs[1..], maxRetry, skip, tries + 1)
  {
  }

  lemma BackoffsShift(outs: seq<Outcome>, j: int)
    requires 1 <= j <= |outs|
    ensures CountBackoffs(outs[..j]) == (if IsStatus(outs[0], 429) then 0 else 1) + CountBackoffs(outs[1..][..j - 1])
  {
    var p := outs[..j];
    assert p[1..] == outs[1..][..j - 1];
  }

  /** The whole web executor, from its first attempt. */
  lemma AppSpec(outs: seq<Outcome>, maxRetry: int, skip: bool)
    ensures var r, i := RetryApp(outs, maxRetry, skip), FirstAppStop(outs, maxRetry, skip, 0);
      && (i == |outs| ==> r.reply == Pending && r.attempts == |outs|)
      && (i < |outs| ==> r.reply == AppStopReply(outs[i], skip, LastStatus(outs[..i], 0)) && r.attempts == i + 1)
      && |r.pauses| == i
      && forall j :: 0 <= j < i ==> r.pauses[j] == AppPause(outs[j], CountBackoffs(outs[..j]))
  {
    AppReplySpec(outs, maxRetry, skip, 0, InitialBackoffMs, 0);
    AppSleeps(outs, maxRetry, skip);
  }

  /** The sleeps of the whole web executor, one per attempt before the
      stopping one. */
  lemma AppSleeps(outs: seq<Outcome>, maxRetry: int, skip: bool)
    ensures var r, i := RetryApp(outs, maxRetry, skip), FirstAppStop(outs, maxRetry, skip, 0);
      && |r.pauses| == i
      && forall j :: 0 <= j < i ==> r.pauses[j] == AppPause(outs[j], CountBackoffs(outs[..j]))
  {
    BackoffStep(0);
    AppPausesSpec(outs, maxRetry, skip, 0, 0, 0);
    AppPausesPrefix(outs, FirstAppStop(outs, maxRetry, skip, 0));
  }

  /** The sleeps after the first `i` outcomes, position by position. */
  lemma AppPausesPrefix(outs: seq<Outcome>, i: nat)
    requires i <= |outs|
    ensures forall j :: 0 <= j < i ==> AppPauses(outs[..i], 0)[j] == AppPause(outs[j], CountBackoffs(outs[..j]))
  {
    forall j | 0 <= j < i
      ensures AppPauses(outs[..i], 0)[j] == AppPause(outs[j], CountBackoffs(outs[..j]))
    {
      AppPausesIndexed(outs[..i], 0, j);
      assert outs[..i][..j] == outs[..j];
    }
  }

  /** 200 and 404 come back at once and are the only responses delivered. */
  lemma AppDelivers(outs: seq<Outcome>, maxRetry: int, skip: bool)
    requires |outs| > 0 && (IsStatus(outs[0], 200) || IsStatus(outs[0], 404))
    ensures RetryApp(outs, maxRetry, skip) == Run(Delivered(outs[0].status), 1, [])
    ensures forall o: seq<Outcome> ::
      RetryApp(o, maxRetry, skip).reply.Delivered? ==> RetryApp(o, maxRetry, skip).reply.status in {200, 404}
  {
    forall o: seq<Outcome> | RetryApp(o, maxRetry, skip).reply.Delivered?
      ensures RetryApp(o, maxRetry, skip).reply.status in {200, 404}
    {
      AppSpec(o, maxRetry, skip);
    }
  }

  /** In SKIP mode the first failure of any kind returns `(nil, nil)`: no
      sleep, no error. */
  lemma AppSkipNeverWaits(outs: seq<Outcome>, maxRetry: int)
    ensures var r := RetryApp(outs, maxRetry, true);
      && r.pauses == [] && r.attempts <= 1 && !r.reply.Failed?
  {
    AppSpec(outs, maxRetry, true);
  }

  /** An error is returned only once `tries` (429s included) has reached a
      positive `maxRetry`, and only for an outcome that is not 200, 404 or
      429; with `maxRetry <= 0` and no SKIP the executor never gives up. */
  lemma AppFailsOnlyAtBound(outs: seq<Outcome>, maxRetry: int, skip: bool)
    ensures var r := RetryApp(outs, maxRetry, skip);
      r.reply.Failed? ==>
        && maxRetry > 0 && r.attempts >= maxRetry && !skip
        && !IsStatus(outs[r.attempts - 1], 200) && !IsStatus(outs[r.attempts - 1], 404)
        && !IsStatus(outs[r.attempts - 1], 429)
        && r.reply.lastStatus == LastStatus(outs[..r.attempts], 0)
    ensures maxRetry <= 0 && !skip ==> !RetryApp(outs, maxRetry, skip).reply.Failed?
  {
    AppSpec(outs, maxRetry, skip);
    var r, i := RetryApp(outs, maxRetry, skip), FirstAppStop(outs, maxRetry, skip, 0);
    if r.reply.Failed? {
      LastStatusCons(outs[i], [], LastStatus(outs[..i], 0));
      assert outs[..i + 1] == outs[..i] + [outs[i]];
      assert outs[..i + 1][..i] == outs[..i];
    }
  }

  /** Every backoff sleep of the web executor lies between 1 s and 32 s. */
  lemma AppBackoffBounded(outs: seq<Outcome>, maxRetry: int, skip: bool)
    ensures var r := RetryApp(outs, maxRetry, skip);
      forall j :: 0 <= j < |r.pauses| && r.pauses[j].Backoff? ==>
        InitialBackoffMs <= r.pauses[j].ms <= 32000
  {
    AppSpec(outs, maxRetry, skip);
    forall k: nat
      ensures InitialBackoffMs <= BackoffAt(k) <= 32000
    {
      BackoffStep(k);
    }
  }

  /** The worked example: a 429 with `Retry-After: 1`, a 429 without it, then
      200. Two sleeps of one and two seconds, then the response. */
  lemma AppRateLimitExample()
    ensures RetryApp([Response(429, "1"), Response(429, ""), Response(200, "")], 3, false)
         == Run(Delivered(200), 3, [RetryAfter(1000), RetryAfter(2000)])
  {
    RetryAfterSeconds(1, "");
    assert "" + Itoa(1) + "" == "1";
    assert RetryAfterMs("") == DefaultRetryAfterMs by {
      assert TrimSpace("") == "";
    }
  }

  /** With `maxRetry = 3` three 500s fail with status 500 after sleeping one
      and two seconds. */
  lemma AppServerErrorExample()
    ensures RetryApp([Response(500, ""), Response(500, ""), Response(500, "")], 3, false)
         == Run(Failed(500), 3, [Backoff(1000), Backoff(2000)])
  {
  }

  // ---------------------------------------------------------------------
  // The command-line executor
  // ---------------------------------------------------------------------

  /** 429 and 5xx, the statuses after which the wait doubles. */
  predicate Doubles(o: Outcome)
  {
    IsStatus(o, 429) || IsServerError(o)
  }

  /** The `for i := 0; i < maxRetry; i++` loop; `remaining` is
      `maxRetry - i`. */
  function CliLoop(outs: seq<Outcome>, remaining: int, skip: bool, wait: int, last: int): (r: Run)
    ensures |r.pauses| <= r.attempts <= |outs|
    decreases |outs|
  {
    if remaining <= 0 then Run(if skip then Skipped else Failed(last), 0, [])
    else if |outs| == 0 then Run(Pending, 0, [])
    else
      var o := outs[0];
      var status := StatusAfter(o, last);
      if IsStatus(o, 200) || IsStatus(o, 404) then Run(Delivered(o.status), 1, [])
      else if Doubles(o) then
        if skip then Run(Skipped, 1, [])
        else Then(Backoff(wait), CliLoop(outs[1..], remaining - 1, skip, wait * 2, status))
      // any other status, and a transport error, sleeps without doubling
      else Then(Backoff(wait), CliLoop(outs[1..], remaining - 1, skip, wait, status))
  }

  function RetryCli(outs: seq<Outcome>, maxRetry: int, skip: bool): Run
  {
    CliLoop(outs, maxRetry, skip, InitialBackoffMs, 0)
  }

  predicate CliStops(o: Outcome, skip: bool)
  {
    IsStatus(o, 200) || IsStatus(o, 404) || (skip && Doubles(o))
  }

  function CliStopReply(o: Outcome): Reply
  {
    if IsStatus(o, 200) || IsStatus(o, 404) then Delivered(o.status) else Skipped
  }

  /** Index of the first outcome after which the command-line executor
      returns inside its loop; `|outs|` if there is none. */
  function FirstCliStop(outs: seq<Outcome>, skip: bool): (i: nat)
    ensures i <= |outs|
    ensures i < |outs| ==> CliStops(outs[i], skip)
    ensures forall j :: 0 <= j < i ==> !CliStops(outs[j], skip)
  {
    if |outs| == 0 || CliStops(outs[0], skip) then 0
    else 1 + FirstCliStop(outs[1..], skip)
  }

  /** One pass that neither returns nor ends the loop: sleep the current wait,
      double it after 429 or 5xx, and go on with one attempt fewer. */
  lemma CliStep(outs: seq<Outcome>, remaining: int, skip: bool, wait: int, last: int)
    requires remaining > 0 && |outs| > 0 && !CliStops(outs[0], skip)
    ensures CliLoop(outs, remaining, skip, wait, last)
         == Then(Backoff(wait), CliLoop(outs[1..], remaining - 1, skip,
                                        if Doubles(outs[0]) then wait * 2 else wait,
                                        StatusAfter(outs[0], last)))
    ensures FirstCliStop(outs, skip) == 1 + FirstCliStop(outs[1..], skip)
  {
  }

  /** The command-line executor returns at the first stopping outcome if that
      comes within `remaining` attempts. */
  lemma {:induction false} CliStopsEarly(outs: seq<Outcome>, remaining: int, skip: bool, wait: int, last: int)
    requires FirstCliStop(outs, skip) < |outs| && FirstCliStop(outs, skip) < remaining
    ensures var r, i := CliLoop(outs, remaining, skip, wait, last), FirstCliStop(outs, skip);
      r.reply == CliStopReply(outs[i]) && r.attempts == i + 1
    decreases |outs|
  {
    if !CliStops(outs[0], skip) {
      var o := outs[0];
      CliStep(outs, remaining, skip, wait, last);
      CliStopsEarly(outs[1..], remaining - 1, skip, if Doubles(o) then wait * 2 else wait, StatusAfter(o, last));
    }
  }

  /** Otherwise, with the script long enough, it makes exactly `remaining`
      attempts (none if that is not positive) and replies `(nil, nil)` in
      SKIP mode or the error with the last status. */
  lemma {:induction false} CliExhausts(outs: seq<Outcome>, remaining: int, skip: bool, wait: int, last: int)
    requires FirstCliStop(outs, skip) >= remaining
    ensures var r := CliLoop(outs, remaining, skip, wait, last);
      && r.reply == (if skip then Skipped else Failed(LastStatus(outs[..Max(remaining, 0)], last)))
      && r.attempts == Max(remaining, 0)
    decreases |outs|
  {
    if remaining <= 0 {
      assert outs[..0] == [];
    } else {
      var o := outs[0];
      CliStep(outs, remaining, skip, wait, last);
      CliExhausts(outs[1..], remaining - 1, skip, if Doubles(o) then wait * 2 else wait, StatusAfter(o, last));
      LastStatusShift(outs, remaining - 1, last);
    }
  }

  lemma LastStatusShift(outs: seq<Outcome>, m: nat, last: int)
    requires m < |outs|
    ensures LastStatus(outs[..m + 1], last) == LastStatus(outs[1..][..m], StatusAfter(outs[0], last))
  {
    LastStatusCons(outs[0], outs[1..][..m], last);
    assert outs[..m + 1] == [outs[0]] + outs[1..][..m];
  }

  /** And if the script ends before either happens, the loop is still going. */
  lemma {:induction false} CliRunsOut(outs: seq<Outcome>, remaining: int, skip: bool, wait: int, last: int)
    requires FirstCliStop(outs, skip) == |outs| < remaining
    ensures var r := CliLoop(outs, remaining, skip, wait, last);
      r.reply == Pending && r.attempts == |outs|
    decreases |outs|
  {
    if |outs| > 0 {
      var o := outs[0];
      CliStep(outs, remaining, skip, wait, last);
      CliRunsOut(outs[1..], remaining - 1, skip, if Doubles(o) then wait * 2 else wait, StatusAfter(o, last));
    }
  }

  /** Number of outcomes in `outs` after which the wait doubles. */
  function CountDoublings(outs: seq<Outcome>): (c: nat)
    ensures c <= |outs|
  {
    if |outs| == 0 then 0
    else (if Doubles(outs[0]) then 1 else 0) + CountDoublings(outs[1..])
  }

  /** The sleeps after the outcomes `outs`, in order, from the wait `wait`. */
  function CliPauses(outs: seq<Outcome>, wait: int): (ps: seq<Pause>)
    ensures |ps| == |outs|
  {
    if |outs| == 0 then []
    else [Backoff(wait)] + CliPauses(outs[1..], if Doubles(outs[0]) then wait * 2 else wait)
  }

  /** The j-th sleep is the first wait doubled once per earlier 429 or 5xx. */
  lemma {:induction false} CliPausesIndexed(outs: seq<Outcome>, wait: int, j: int)
    requires 0 <= j < |outs|
    ensures CliPauses(outs, wait)[j] == Backoff(wait * Pow2(CountDoublings(outs[..j])))
    decreases j
  {
    if j == 0 {
      assert outs[..0] == [];
    } else {
      CliPausesIndexed(outs[1..], if Doubles(outs[0]) then wait * 2 else wait, j - 1);
      CliPauseAt(outs, wait, j);
    }
  }

  lemma CliPauseAt(outs: seq<Outcome>, wait: int, j: int)
    requires 1 <= j < |outs|
    requires var w := if Doubles(outs[0]) then wait * 2 else wait;
      CliPauses(outs[1..], w)[j - 1] == Backoff(w * Pow2(CountDoublings(outs[1..][..j - 1])))
    ensures CliPauses(outs, wait)[j] == Backoff(wait * Pow2(CountDoublings(outs[..j])))
  {
    DoublingsShift(outs, j);
    WaitShift(wait, if Doubles(outs[0]) then 1 else 0, CountDoublings(outs[1..][..j - 1]));
  }

  /** Every attempt that does not end the run is followed by one sleep. */
  lemma {:induction false} CliPausesSpec(outs: seq<Outcome>, remaining: int, skip: bool, wait: int, last: int)
    ensures var n := Min(FirstCliStop(outs, skip), Max(remaining, 0));
      CliLoop(outs, remaining, skip, wait, last).pauses == CliPauses(outs[..n], wait)
    decreases |outs|
  {
    if remaining > 0 && |outs| > 0 && !CliStops(outs[0], skip) {
      var o := outs[0];
      CliPausesSpec(outs[1..], remaining - 1, skip, if Doubles(o) then wait * 2 else wait, StatusAfter(o, last));
      CliPausesStep(outs, remaining, skip, wait, last);
    } else {
      assert outs[..0] == [];
    }
  }

  /** The inductive step of `CliPausesSpec`. */
  lemma CliPausesStep(outs: seq<Outcome>, remaining: int, skip: bool, wait: int, last: int)
    requires remaining > 0 && |outs| > 0 && !CliStops(outs[0], skip)
    requires var w, n' := if Doubles(outs[0]) then wait * 2 else wait, Min(FirstCliStop(outs[1..], skip), Max(remaining - 1, 0));
      CliLoop(outs[1..], remaining - 1, skip, w, StatusAfter(outs[0], last)).pauses == CliPauses(outs[1..][..n'], w)
    ensures var n := Min(FirstCliStop(outs, skip), Max(remaining, 0));
      CliLoop(outs, remaining, skip, wait, last).pauses == CliPauses(outs[..n], wait)
  {
    CliStep(outs, remaining, skip, wait, last);
    var n' := Min(FirstCliStop(outs[1..], skip), Max(remaining - 1, 0));
    assert outs[..n' + 1][1..] == outs[1..][..n'];
  }

  lemma DoublingsShift(outs: seq<Outcome>, j: int)
    requires 1 <= j <= |outs|
    ensures CountDoublings(outs[..j]) == (if Doubles(outs[0]) then 1 else 0) + CountDoublings(outs[1..][..j - 1])
  {
    var p := outs[..j];
    assert p[1..] == outs[1..][..j - 1];
  }

  lemma WaitShift(wait: int, d: nat, c: nat)
    requires d <= 1
    ensures (if d == 1 then wait * 2 else wait) * Pow2(c) == wait * Pow2(d + c)
  {
    if d == 1 {
      assert Pow2(1 + c) == 2 * Pow2(c);
    }
  }

  /** The whole command-line executor, from its first attempt: it returns at
      the first 200 or 404 (or 429/5xx in SKIP mode) within `maxRetry`
      attempts, otherwise after exactly `maxRetry` attempts with `(nil, nil)`
      or the error; every attempt that does not return is followed by a
      sleep of one second doubled once per earlier 429 or 5xx. */
  lemma CliSpec(outs: seq<Outcome>, maxRetry: int, skip: bool)
    ensures var r, i := RetryCli(outs, maxRetry, skip), FirstCliStop(outs, skip);
      && (i < |outs| && i < maxRetry ==> r.reply == CliStopReply(outs[i]) && r.attempts == i + 1)
      && (i >= maxRetry ==>
            r.reply == (if skip then Skipped else Failed(LastStatus(outs[..Max(maxRetry, 0)], 0)))
            && r.attempts == Max(maxRetry, 0))
      && (i == |outs| && |outs| < maxRetry ==> r.reply == Pending && r.attempts == |outs|)
      && r.attempts <= Max(maxRetry, 0)
      && |r.pauses| == Min(i, Max(maxRetry, 0))
      && forall j :: 0 <= j < |r.pauses| ==> r.pauses[j] == Backoff(InitialBackoffMs * Pow2(CountDoublings(outs[..j])))
  {
    var i := FirstCliStop(outs, skip);
    if i < |outs| && i < maxRetry {
      CliStopsEarly(outs, maxRetry, skip, InitialBackoffMs, 0);
    } else if i >= maxRetry {
      CliExhausts(outs, maxRetry, skip, InitialBackoffMs, 0);
    } else {
      CliRunsOut(outs, maxRetry, skip, InitialBackoffMs, 0);
    }
    CliSleeps(outs, maxRetry, skip);
  }

  /** The sleeps of the whole command-line executor, one per attempt that
      does not return. */
  lemma CliSleeps(outs: seq<Outcome>, maxRetry: int, skip: bool)
    ensures var r, n := RetryCli(outs, maxRetry, skip), Min(FirstCliStop(outs, skip), Max(maxRetry, 0));
      && |r.pauses| == n
      && forall j :: 0 <= j < n ==> r.pauses[j] == Backoff(InitialBackoffMs * Pow2(CountDoublings(outs[..j])))
  {
    CliPausesSpec(outs, maxRetry, skip, InitialBackoffMs, 0);
    CliPausesPrefix(outs, Min(FirstCliStop(outs, skip), Max(maxRetry, 0)));
  }

  /** The sleeps after the first `n` outcomes, position by position. */
  lemma CliPausesPrefix(outs: seq<Outcome>, n: nat)
    requires n <= |outs|
    ensures forall j :: 0 <= j < n ==>
      CliPauses(outs[..n], InitialBackoffMs)[j] == Backoff(InitialBackoffMs * Pow2(CountDoublings(outs[..j])))
  {
    forall j | 0 <= j < n
      ensures CliPauses(outs[..n], InitialBackoffMs)[j] == Backoff(InitialBackoffMs * Pow2(CountDoublings(outs[..j])))
    {
      CliPausesIndexed(outs[..n], InitialBackoffMs, j);
      assert outs[..n][..j] == outs[..j];
    }
  }

  /** SKIP mode never yields the error, whether it stops early or runs out of
      attempts. */
  lemma CliSkipNeverFails(outs: seq<Outcome>, maxRetry: int)
    ensures !RetryCli(outs, maxRetry, true).reply.Failed?
  {
    CliSpec(outs, maxRetry, true);
  }

  /** `maxRetry <= 0` makes no attempt and fails with status 0. */
  lemma CliNoAttempts(outs: seq<Outcome>, maxRetry: int, skip: bool)
    requires maxRetry <= 0
    ensures RetryCli(outs, maxRetry, skip) == Run(if skip then Skipped else Failed(0), 0, [])
  {
  }

  /** The same rate-limit script as for the web executor: the command-line
      executor ignores `Retry-After` and sleeps one, then two seconds. */
  lemma CliRateLimitExample()
    ensures RetryCli([Response(429, "1"), Response(429, ""), Response(200, "")], 3, false)
         == Run(Delivered(200), 3, [Backoff(1000), Backoff(2000)])
  {
  }

  /** Three 500s with `maxRetry = 3`: it sleeps after the last attempt too,
      then fails with status 500. A 403 sleeps without doubling. */
  lemma CliServerErrorExample()
    ensures RetryCli([Response(500, ""), Response(500, ""), Response(500, "")], 3, false)
         == Run(Failed(500), 3, [Backoff(1000), Backoff(2000), Backoff(4000)])
  {
  }

  lemma CliForbiddenExample()
    ensures RetryCli([Response(403, ""), NetError, Response(500, ""), Response(403, "")], 4, false)
         == Run(Failed(403), 4, [Backoff(1000), Backoff(1000), Backoff(1000), Backoff(2000)])
  {
  }
}

=== FILE: scoring.dfy ===
/** The integer scores a player is balanced on: the current solo-queue rank,
    the average rank of the people met in recent matches, the top-three
    mastery sum, and the skill score that weighs them together. Both Go
    entry points compute them the same way from lookups that succeed. On a
    failed rank or mastery lookup the web app scores 0, as modelled here;
    the command-line tool instead stops the whole run, or under SKIP drops
    the player. */
module Scoring {
  import opened Common
  import opened Rank

  /** One decoded `league/v4/entries` element. */
  datatype LeagueEntry = LeagueEntry(queueType: string, tier: string, division: string, lp: int)

  /** One decoded `champion-mastery/v4` element. */
  datatype Mastery = Mastery(championId: int, points: int)

  const SoloQueueType := "RANKED_SOLO_5x5"

  function EntryScore(e: LeagueEntry): int
  {
    RankScore(e.tier, e.division, e.lp)
  }

  function Points(m: Mastery): int
  {
    m.points
  }

  // ---------------------------------------------------------------------
  // Current rank
  // ---------------------------------------------------------------------

  /** Position of the first solo-queue entry, or -1. */
  function FirstSolo(entries: seq<LeagueEntry>): (i: int)
    ensures -1 <= i < |entries|
    ensures i == -1 <==> forall j :: 0 <= j < |entries| ==> entries[j].queueType != SoloQueueType
    ensures i >= 0 ==> entries[i].queueType == SoloQueueType
    ensures i >= 0 ==> forall j :: 0 <= j < i ==> entries[j].queueType != SoloQueueType
  {
    if |entries| == 0 then -1
    else if entries[0].queueType == SoloQueueType then 0
    else
      var k := FirstSolo(entries[1..]);
      if k == -1 then -1 else k + 1
  }

  /** The `for ... { if solo { score; break } }` scan over a player's
      entries: the score of the first solo-queue entry, if there is one. */
  function SoloScore(entries: seq<LeagueEntry>): Option<int>
  {
    if |entries| == 0 then None
    else if entries[0].queueType == SoloQueueType then Some(EntryScore(entries[0]))
    else SoloScore(entries[1..])
  }

  /** The scan finds a score exactly when there is a solo-queue entry, and
      it is the first such entry's. */
  lemma {:induction false} SoloScoreFirst(entries: seq<LeagueEntry>)
    ensures SoloScore(entries).None? <==> FirstSolo(entries) == -1
    ensures SoloScore(entries).Some? ==> SoloScore(entries).value == EntryScore(entries[FirstSolo(entries)])
  {
    if |entries| > 0 && entries[0].queueType != SoloQueueType {
      SoloScoreFirst(entries[1..]);
    }
  }

  /** `currentRankScore`: the first solo-queue entry's score, or 0 when the
      lookup failed (`None`) or the player has no solo-queue entry. */
  function CurrentRankScore(fetched: Option<seq<LeagueEntry>>): (r: int)
    ensures fetched.None? ==> r == 0
    ensures fetched.Some? && FirstSolo(fetched.value) == -1 ==> r == 0
    ensures fetched.Some? && FirstSolo(fetched.value) >= 0 ==> r == EntryScore(fetched.value[FirstSolo(fetched.value)])
  {
    match fetched
    case None => 0
    case Some(entries) =>
      SoloScoreFirst(entries);
      match SoloScore(entries)
      case None => 0
      case Some(s) => s
  }

  // ---------------------------------------------------------------------
  // Mastery
  // ---------------------------------------------------------------------

  /** `topMastery`: sort by points, descending, and add up the first three
      (fewer if there are fewer). */
  function TopMastery(ms: seq<Mastery>): int
  {
    var sorted := SortDescBy(ms, Points);
    SumBy(sorted[..Min(3, |sorted|)], Points)
  }

  /** A failed or undecodable mastery lookup leaves `topMastery` at 0. */
  function TopMasteryOf(fetched: Option<seq<Mastery>>): (r: int)
    ensures fetched.None? ==> r == 0
  {
    match fetched
    case None => 0
    case Some(ms) => TopMastery(ms)
  }

  lemma KeysPrefix<T>(s: seq<T>, n: int, key: T -> int)
    requires 0 <= n <= |s|
    ensures Keys(s[..n], key) == Keys(s, key)[..n]
  {
  }

  /** The sum is the same for EVERY descending arrangement of the masteries,
      so the order `sort.Slice` leaves among equal points does not matter:
      it is the sum of the three largest point values. */
  lemma TopMasteryAnyOrder(ms: seq<Mastery>, s: seq<Mastery>)
    requires SortedDescBy(s, Points) && multiset(s) == multiset(ms)
    ensures TopMastery(ms) == SumBy(s[..Min(3, |s|)], Points)
  {
    var sorted := SortDescBy(ms, Points);
    KeysPermutation(sorted, s, Points);
    SortedByKeys(sorted, Points);
    SortedByKeys(s, Points);
    SortedPermutationUnique(Keys(sorted, Points), Keys(s, Points));
    assert |sorted| == |multiset(ms)| == |s|;
    var n := Min(3, |s|);
    KeysPrefix(sorted, n, Points);
    KeysPrefix(s, n, Points);
  }

  /** With three masteries or fewer, all of them are added. */
  lemma TopMasteryFew(ms: seq<Mastery>)
    requires |ms| <= 3
    ensures TopMastery(ms) == SumBy(ms, Points)
  {
    var sorted := SortDescBy(ms, Points);
    assert |sorted| == |multiset(ms)| == |ms|;
    assert sorted[..Min(3, |sorted|)] == sorted;
    SumByPermutation(sorted, ms, Points);
  }

  /** Each of the chosen masteries has at least the points of any mastery
      left out. */
  lemma TopMasteryChoosesLargest(ms: seq<Mastery>, i: int, j: int)
    requires 0 <= i < Min(3, |ms|) <= j < |ms|
    ensures var sorted := SortDescBy(ms, Points); sorted[i].points >= sorted[j].points
  {
    var sorted := SortDescBy(ms, Points);
    assert |sorted| == |multiset(ms)| == |ms|;
  }

  // ---------------------------------------------------------------------
  // Average rank of the people met
  // ---------------------------------------------------------------------

  /** What one id's lookup adds: its solo-queue score, or nothing when the
      lookup failed (`None`) or found no solo-queue entry. */
  function Found(fetched: Option<seq<LeagueEntry>>): (r: seq<int>)
    ensures |r| <= 1
  {
    match fetched
    case None => []
    case Some(entries) =>
      match SoloScore(entries)
      case None => []
      case Some(v) => [v]
  }

  /** The solo-queue scores found for `ids`, in order. */
  function Scores(ids: seq<string>, rankOf: string -> Option<seq<LeagueEntry>>): seq<int>
  {
    Collect(ids, id => Found(rankOf(id)))
  }

  /** The results of `f` on each element, concatenated in order. */
  function Collect<T>(xs: seq<T>, f: T -> seq<int>): seq<int>
  {
    if |xs| == 0 then [] else Collect(xs[..|xs| - 1], f) + f(xs[|xs| - 1])
  }

  /** `totalScore / count`, or 0 when nothing was found. */
  function Average(scores: seq<int>): int
  {
    if |scores| == 0 then 0 else GoDiv(Sum(scores), |scores|)
  }

  /** The average is the mean truncated toward zero. */
  lemma AverageTruncates(scores: seq<int>)
    ensures |scores| == 0 ==> Average(scores) == 0
    ensures |scores| > 0 && Sum(scores) >= 0 ==>
      Average(scores) * |scores| <= Sum(scores) < (Average(scores) + 1) * |scores|
    ensures |scores| > 0 && Sum(scores) < 0 ==>
      (Average(scores) - 1) * |scores| < Sum(scores) <= Average(scores) * |scores|
  {
    if |scores| > 0 {
      var q, n := Average(scores), |scores|;
      assert (q + 1) * n == q * n + n;
      assert (q - 1) * n == q * n - n;
    }
  }

  lemma CollectStep<T>(xs: seq<T>, i: int, f: T -> seq<int>)
    requires 0 <= i < |xs|
    ensures Collect(xs[..i + 1], f) == Collect(xs[..i], f) + f(xs[i])
  {
    assert xs[..i + 1][..i] == xs[..i];
  }

  /** One more id adds its score, if any, to the running total and count. */
  lemma ScoresStep(ids: seq<string>, i: int, rankOf: string -> Option<seq<LeagueEntry>>)
    requires 0 <= i < |ids|
    ensures var prev, found := Scores(ids[..i], rankOf), Found(rankOf(ids[i]));
      && Sum(Scores(ids[..i + 1], rankOf)) == Sum(prev) + (if |found| == 1 then found[0] else 0)
      && |Scores(ids[..i + 1], rankOf)| == |prev| + |found|
  {
    var prev, found := Scores(ids[..i], rankOf), Found(rankOf(ids[i]));
    CollectStep(ids, i, id => Found(rankOf(id)));
    assert Scores(ids[..i + 1], rankOf) == prev + found;
    SumAppend(prev, found);
    if |found| == 1 {
      assert Sum(found) == found[0] + Sum([]);
    }
  }

  /** The average-rank loop over the collected ids, as written: add each
      solo-queue score found and count it. */
  method TotalRankScore(ids: seq<string>, rankOf: string -> Option<seq<LeagueEntry>>)
    returns (total: int, count: int)
    ensures total == Sum(Scores(ids, rankOf)) && count == |Scores(ids, rankOf)|
    ensures count <= |ids|
  {
    total, count := 0, 0;
    var i := 0;
    while i < |ids|
      invariant 0 <= i <= |ids|
      invariant total == Sum(Scores(ids[..i], rankOf)) && count == |Scores(ids[..i], rankOf)|
      invariant count <= i
    {
      var found := Found(rankOf(ids[i]));
      ScoresStep(ids, i, rankOf);
      if |found| == 1 {
        total := total + found[0];
        count := count + 1;
      }
      i := i + 1;
    }
    assert ids[..i] == ids;
  }

  /** `avgRankScore`: the truncated mean of the scores found, or 0. */
  method AverageRankScore(ids: seq<string>, rankOf: string -> Option<seq<LeagueEntry>>) returns (avg: int)
    ensures avg == Average(Scores(ids, rankOf))
  {
    var total, count := TotalRankScore(ids, rankOf);
    avg := 0;
    if count > 0 {
      avg := GoDiv(total, count);
    }
  }

  lemma {:induction false} CollectAppend<T>(a: seq<T>, b: seq<T>, f: T -> seq<int>)
    ensures Collect(a + b, f) == Collect(a, f) + Collect(b, f)
    decreases |b|
  {
    if |b| == 0 {
      assert a + b == a;
    } else {
      assert (a + b)[..|a + b| - 1] == a + b[..|b| - 1];
      CollectAppend(a, b[..|b| - 1], f);
    }
  }

  /** Taking one element out takes exactly its own results out. */
  lemma CollectRemove<T>(b: seq<T>, j: int, f: T -> seq<int>)
    requires 0 <= j < |b|
    ensures multiset(Collect(b, f)) == multiset(Collect(b[..j] + b[j + 1..], f)) + multiset(f(b[j]))
  {
    var l, x, r := b[..j], b[j], b[j + 1..];
    SplitAt(b, j);
    CollectAppend(l + [x], r, f);
    CollectAppend(l, [x], f);
    CollectSingle(x, f);
    CollectAppend(l, r, f);
    MultisetMiddle(Collect(l, f), f(x), Collect(r, f));
  }

  lemma CollectSingle<T>(x: T, f: T -> seq<int>)
    ensures Collect([x], f) == f(x)
  {
    assert [x][..0] == [];
  }

  lemma MultisetMiddle(s1: seq<int>, s2: seq<int>, s3: seq<int>)
    ensures multiset(s1 + s2 + s3) == multiset(s1 + s3) + multiset(s2)
  {
  }

  /** The results do not depend on the order the elements are visited in. */
  lemma {:induction false} CollectPermutation<T>(a: seq<T>, b: seq<T>, f: T -> seq<int>)
    requires multiset(a) == multiset(b)
    ensures multiset(Collect(a, f)) == multiset(Collect(b, f))
    decreases |a|
  {
    if |a| == 0 {
      assert |b| == |multiset(b)| == 0;
    } else {
      var j := PermutationHead(a, b);
      CollectPermutation(a[1..], b[..j] + b[j + 1..], f);
      CollectPermutationStep(a, b, j, f);
    }
  }

  /** The inductive step of `CollectPermutation`: the heads match and the
      rests have the same results. */
  lemma CollectPermutationStep<T>(a: seq<T>, b: seq<T>, j: int, f: T -> seq<int>)
    requires |a| > 0 && 0 <= j < |b| && b[j] == a[0]
    requires multiset(Collect(a[1..], f)) == multiset(Collect(b[..j] + b[j + 1..], f))
    ensures multiset(Collect(a, f)) == multiset(Collect(b, f))
  {
    CollectRemove(b, j, f);
    CollectRemove(a, 0, f);
    assert a[..0] + a[1..] == a[1..];
  }

  /** The scores found do not depend on the order the ids are visited in (a
      Go map is ranged over in no fixed order). */
  lemma ScoresPermutation(a: seq<string>, b: seq<string>, rankOf: string -> Option<seq<LeagueEntry>>)
    requires multiset(a) == multiset(b)
    ensures multiset(Scores(a, rankOf)) == multiset(Scores(b, rankOf))
  {
    CollectPermutation(a, b, id => Found(rankOf(id)));
  }

  /** Hence the average rank score does not depend on that order either. */
  lemma AverageOrderFree(a: seq<string>, b: seq<string>, rankOf: string -> Option<seq<LeagueEntry>>)
    requires multiset(a) == multiset(b)
    ensures Average(Scores(a, rankOf)) == Average(Scores(b, rankOf))
  {
    ScoresPermutation(a, b, rankOf);
    SumPermutation(Scores(a, rankOf), Scores(b, rankOf));
    assert |Scores(a, rankOf)| == |multiset(Scores(a, rankOf))| == |Scores(b, rankOf)|;
  }

  lemma {:induction false} SumBounds(s: seq<int>, lo: int, hi: int)
    requires forall i :: 0 <= i < |s| ==> lo <= s[i] <= hi
    ensures lo * |s| <= Sum(s) <= hi * |s|
  {
    if |s| > 0 {
      SumBounds(s[1..], lo, hi);
    }
  }

  lemma MulMonotone(x: int, y: int, n: int)
    requires n >= 0 && x <= y
    ensures x * n <= y * n
  {
    assert y * n - x * n == (y - x) * n;
  }

  /** Cancelling a positive factor from both sides of `<=`. */
  lemma CancelLe(x: int, y: int, n: int)
    requires n > 0 && x * n <= y * n
    ensures x <= y
  {
    if x > y {
      MulMonotone(y + 1, x, n);
    }
  }

  /** Cancelling a positive factor from both sides of `<`. */
  lemma CancelLt(x: int, y: int, n: int)
    requires n > 0 && x * n < y * n
    ensures x < y
  {
    if x >= y {
      MulMonotone(y, x, n);
    }
  }

  /** The average lies between the least and the greatest score. */
  lemma AverageWithin(s: seq<int>, lo: int, hi: int)
    requires |s| > 0
    requires forall i :: 0 <= i < |s| ==> lo <= s[i] <= hi
    ensures lo <= Average(s) <= hi
  {
    SumBounds(s, lo, hi);
    AverageTruncates(s);
    var avg, n := Average(s), |s|;
    if Sum(s) >= 0 {
      CancelLe(avg, hi, n);
      CancelLt(lo, avg + 1, n);
    } else {
      CancelLe(lo, avg, n);
      CancelLt(avg - 1, hi, n);
    }
  }

  /** When every score found is a valid rank's, the average reads back as a
      valid rank (the command-line tool prints it through `scoreToRank`). */
  lemma AverageIsARank(s: seq<int>)
    requires |s| > 0
    requires forall i :: 0 <= i < |s| ==> 0 <= s[i] <= 3999
    ensures var r := ScoreToRank(Average(s));
      ValidRank(r.tier, r.division, r.lp) && RankScore(r.tier, r.division, r.lp) == Average(s)
  {
    AverageWithin(s, 0, 3999);
    ScoreRoundTrip(Average(s));
  }

  // ---------------------------------------------------------------------
  // Skill score
  // ---------------------------------------------------------------------

  /** `skillScore = currentRankScore*2 + avgRankScore + topMastery/1000`. */
  function SkillScore(current: int, avg: int, topMastery: int): int
  {
    current * 2 + avg + GoDiv(topMastery, 1000)
  }

  /** Truncated quotients are monotone in the dividend. */
  lemma QuotientMonotone(a: int, b: int, d: int, qa: int, qb: int)
    requires d > 0 && a <= b
    requires a >= 0 ==> 0 <= a - qa * d < d
    requires a < 0 ==> -d < a - qa * d <= 0
    requires b >= 0 ==> 0 <= b - qb * d < d
    requires b < 0 ==> -d < b - qb * d <= 0
    ensures qa <= qb
  {
    if a >= 0 {
      assert (qb + 1) * d == qb * d + d;
      CancelLt(qa, qb + 1, d);
    } else if b >= 0 {
      if qa > 0 {
        MulMonotone(1, qa, d);
      }
      if qb < 0 {
        MulMonotone(qb, -1, d);
      }
    } else {
      assert (qa - 1) * d == qa * d - d;
      CancelLt(qa - 1, qb, d);
    }
  }

  lemma GoDivMonotone(a: int, b: int, d: int)
    requires d > 0 && a <= b
    ensures GoDiv(a, d) <= GoDiv(b, d)
  {
    QuotientMonotone(a, b, d, GoDiv(a, d), GoDiv(b, d));
  }

  /** The skill score never drops when any of its three inputs rises. */
  lemma SkillMonotone(c: int, a: int, t: int, c': int, a': int, t': int)
    requires c <= c' && a <= a' && t <= t'
    ensures SkillScore(c, a, t) <= SkillScore(c', a', t')
  {
    GoDivMonotone(t, t', 1000);
  }

  /** For non-negative mastery the skill score is twice the current rank
      plus the average, plus one point per whole thousand mastery points:
      another thousand points add exactly one. */
  lemma SkillOfNonNegativeMastery(c: int, a: int, t: int)
    requires t >= 0
    ensures var m := SkillScore(c, a, t) - 2 * c - a;
      0 <= m && m * 1000 <= t < m * 1000 + 1000
    ensures SkillScore(c, a, t + 1000) == SkillScore(c, a, t) + 1
  {
  }
}

=== FILE: search.dfy ===
/** The selection loop every exhaustive balancer shares: candidates are
    visited in a fixed order, infeasible ones are skipped, and a candidate
    replaces the best so far only when its cost is STRICTLY smaller
    (`diff < bestDiff`). The first candidate of minimal cost is kept.

    A cost is `Some(d)` for a feasible candidate and `None` for one the loop
    skips. The loop's starting value is `bound`: `None` for Python's
    `float("inf")`, `Some(b)` for a finite start such as Go's `1 << 30`.
 */
module Search {
  import opened Common

  /** `d` improves on the running minimum `limit` (`None` is unbounded). */
  predicate Below(d: int, limit: Option<int>)
  {
    limit.None? || d < limit.value
  }

  /** Index of the candidate the scan keeps, or `None` when no feasible
      candidate beats `bound`. */
  function Scan(costs: seq<Option<int>>, bound: Option<int>): (r: Option<nat>)
    ensures r.Some? ==> r.value < |costs| && costs[r.value].Some?
  {
    if |costs| == 0 then None
    else
      var prev := Scan(costs[..|costs| - 1], bound);
      var limit := if prev.Some? then Some(costs[prev.value].value) else bound;
      var last := costs[|costs| - 1];
      if last.Some? && Below(last.value, limit) then Some(|costs| - 1) else prev
  }

  /** `i` is the first candidate of least cost, and that cost beats `bound`. */
  ghost predicate FirstMinimal(costs: seq<Option<int>>, bound: Option<int>, i: int)
  {
    && 0 <= i < |costs| && costs[i].Some? && Below(costs[i].value, bound)
    && (forall j :: 0 <= j < |costs| && costs[j].Some? ==> costs[i].value <= costs[j].value)
    && (forall j :: 0 <= j < i && costs[j].Some? ==> costs[i].value < costs[j].value)
  }

  /** No feasible candidate beats `bound`. */
  ghost predicate NoneBelow(costs: seq<Option<int>>, bound: Option<int>)
  {
    forall j :: 0 <= j < |costs| && costs[j].Some? ==> !Below(costs[j].value, bound)
  }

  /** The scan keeps exactly the first candidate of least cost, and keeps
      nothing only when no feasible candidate beats the bound. */
  lemma {:induction false} ScanSpec(costs: seq<Option<int>>, bound: Option<int>)
    ensures Scan(costs, bound).Some? ==> FirstMinimal(costs, bound, Scan(costs, bound).value)
    ensures Scan(costs, bound).None? ==> NoneBelow(costs, bound)
  {
    if |costs| > 0 {
      var n := |costs| - 1;
      var front := costs[..n];
      ScanSpec(front, bound);
      var prev := Scan(front, bound);
      assert forall j :: 0 <= j < n ==> front[j] == costs[j];
      var limit := if prev.Some? then Some(costs[prev.value].value) else bound;
      var last := costs[n];
      if last.Some? && Below(last.value, limit) {
        if prev.Some? {
          assert costs[prev.value].value <= last.value || Below(last.value, bound);
        }
        assert Below(last.value, bound);
      }
    }
  }

  /** The characterisation picks a single index. */
  lemma FirstMinimalUnique(costs: seq<Option<int>>, bound: Option<int>, i: int, j: int)
    requires FirstMinimal(costs, bound, i) && FirstMinimal(costs, bound, j)
    ensures i == j
  {
  }

  /** With an unbounded start the scan keeps something exactly when some
      candidate is feasible. */
  lemma ScanUnbounded(costs: seq<Option<int>>)
    ensures Scan(costs, None).Some? <==> exists j :: 0 <= j < |costs| && costs[j].Some?
  {
    ScanSpec(costs, None);
  }
}

=== FILE: skill_balance.dfy ===
/** `BalanceTeams` of the skill package: an exhaustive search over bit
    masks for rosters of at most ten players, and a greedy fallback.

    The exact branch visits masks `0 .. 2^n - 1`; player `i` joins team A
    when bit `i` is set, and only masks giving two teams of equal size are
    candidates. A candidate replaces the best so far only when its skill
    difference is strictly smaller. The branch's answer is used only when
    team A is non-empty; otherwise, and for more than ten players, the
    players are sorted by score (descending) and each joins team A exactly
    when A's running sum does not exceed B's.

    `Predict` (a floating-point linear model) is abstracted as an integer
    `score` function; the search starts from `math.MaxFloat64`, which every
    finite difference is below, so the model starts unbounded.
 */
module SkillBalance {
  import opened Common
  import opened Search
  import opened Teams

  datatype Split<T> = Split(teamA: seq<T>, teamB: seq<T>)

  /** Largest roster the exact branch handles. */
  const ExactLimit := 10

  /** The teams of `mask`: set bits to A, clear bits to B, input order. */
  function MaskSplit<T>(ps: seq<T>, mask: nat): Split<T>
  {
    var b := Bits(mask, |ps|);
    Split(Side(ps, b, true), Side(ps, b, false))
  }

  /** `None` when the teams differ in size (the loop's `continue`),
      otherwise the absolute difference of the teams' score sums. */
  function MaskCost<T>(ps: seq<T>, score: T -> int, mask: nat): Option<int>
  {
    var s := MaskSplit(ps, mask);
    if |s.teamA| != |s.teamB| then None
    else Some(Abs(SumBy(s.teamA, score) - SumBy(s.teamB, score)))
  }

  function MaskCosts<T>(ps: seq<T>, score: T -> int): (r: seq<Option<int>>)
    ensures |r| == Pow2(|ps|)
  {
    seq(Pow2(|ps|), m requires 0 <= m < Pow2(|ps|) => MaskCost(ps, score, m))
  }

  /** The exact branch's `bestA, bestB`, or `None` when no mask qualified. */
  function Exact<T>(ps: seq<T>, score: T -> int): Option<Split<T>>
  {
    match Scan(MaskCosts(ps, score), None)
    case None => None
    case Some(m) => Some(MaskSplit(ps, m))
  }

  datatype Greedy<T> = Greedy(teamA: seq<T>, teamB: seq<T>, sumA: int, sumB: int)

  /** One pass of the greedy loop: `x` joins team A when A's sum does not
      exceed B's, otherwise team B. */
  function GreedyAdd<T>(g: Greedy<T>, x: T, score: T -> int): Greedy<T>
  {
    if g.sumA <= g.sumB then Greedy(g.teamA + [x], g.teamB, g.sumA + score(x), g.sumB)
    else Greedy(g.teamA, g.teamB + [x], g.sumA, g.sumB + score(x))
  }

  /** The greedy loop over `arr`, front to back. */
  function GreedyRun<T>(arr: seq<T>, score: T -> int): Greedy<T>
  {
    if |arr| == 0 then Greedy([], [], 0, 0)
    else GreedyAdd(GreedyRun(arr[..|arr| - 1], score), arr[|arr| - 1], score)
  }

  function GreedySplit<T>(ps: seq<T>, score: T -> int): Split<T>
  {
    var g := GreedyRun(SortDescBy(ps, score), score);
    Split(g.teamA, g.teamB)
  }

  function BalanceTeams<T>(ps: seq<T>, score: T -> int): Split<T>
  {
    if |ps| <= ExactLimit then
      var e := Exact(ps, score);
      if e.Some? && |e.value.teamA| > 0 then e.value else GreedySplit(ps, score)
    else GreedySplit(ps, score)
  }

  // ---------------------------------------------------------------------
  // Bit arithmetic
  // ---------------------------------------------------------------------

  lemma {:induction false} Pow2Monotone(a: nat, b: nat)
    requires a <= b
    ensures Pow2(a) <= Pow2(b)
    decreases b
  {
    if a < b {
      Pow2Monotone(a, b - 1);
    }
  }

  /** `2^h - 1` has exactly its `h` lowest bits set. */
  lemma {:induction false} LowBits(h: nat, i: nat)
    ensures Bit(Pow2(h) - 1, i) <==> i < h
    decreases i
  {
    if h == 0 {
      ZeroBits(i);
    } else if i > 0 {
      assert (Pow2(h) - 1) / 2 == Pow2(h - 1) - 1;
      LowBits(h - 1, i - 1);
    }
  }

  /** No bit of zero is set. */
  lemma {:induction false} ZeroBits(i: nat)
    ensures !Bit(0, i)
    decreases i
  {
    if i > 0 {
      ZeroBits(i - 1);
    }
  }

  lemma HalfBits(h: nat, n: nat)
    ensures Bits(Pow2(h) - 1, n) == seq(n, i requires 0 <= i < n => i < h)
  {
    var m: nat := Pow2(h) - 1;
    var b := Bits(m, n);
    forall i | 0 <= i < n
      ensures b[i] == (i < h)
    {
      LowBits(h, i);
    }
  }

  /** The flags `i < h` for `i < n` count `h` set flags. */
  lemma {:induction false} PrefixFlagsCount(h: nat, n: nat)
    requires h <= n
    ensures CountSet(seq(n, i requires 0 <= i < n => i < h)) == h
    decreases n
  {
    var f := seq(n, i requires 0 <= i < n => i < h);
    if n > 0 {
      if h == n {
        PrefixFlagsCount(h - 1, n - 1);
        assert f == seq(n - 1, i requires 0 <= i < n - 1 => i < h - 1) + [true];
      } else {
        PrefixFlagsCount(h, n - 1);
        assert f == seq(n - 1, i requires 0 <= i < n - 1 => i < h) + [false];
      }
      CountSetAppend(f[..n - 1], [f[n - 1]]);
      assert f == f[..n - 1] + [f[n - 1]];
    }
  }

  /** The mask of the lower `n / 2` players sets exactly `n / 2` flags. */
  lemma HalfCount(n: nat)
    ensures CountSet(Bits(Pow2(n / 2) - 1, n)) == n / 2
  {
    var h := n / 2;
    HalfBits(h, n);
    PrefixFlagsCount(h, n);
  }

  /** For an even roster the mask `half` of the lower half gives equal
      teams, so the exact branch always has a candidate. */
  lemma HalfMaskEqual<T>(ps: seq<T>, score: T -> int, half: nat)
    requires |ps| % 2 == 0 && half == Pow2(|ps| / 2) - 1
    ensures half < Pow2(|ps|)
    ensures MaskCost(ps, score, half).Some?
  {
    Pow2Monotone(|ps| / 2, |ps|);
    HalfSplitSizes(ps);
  }

  /** The lower-half mask puts `n / 2` players in team A and the rest in B. */
  lemma HalfSplitSizes<T>(ps: seq<T>)
    ensures |MaskSplit(ps, Pow2(|ps| / 2) - 1).teamA| == |ps| / 2
    ensures |MaskSplit(ps, Pow2(|ps| / 2) - 1).teamB| == |ps| - |ps| / 2
  {
    HalfCount(|ps|);
    SplitSizes(ps, Pow2(|ps| / 2) - 1, |ps| / 2);
  }

  /** A mask with `k` of its first `n` bits set puts `k` players in team
      A and the rest in B. */
  lemma SplitSizes<T>(ps: seq<T>, mask: nat, k: nat)
    requires CountSet(Bits(mask, |ps|)) == k
    ensures |MaskSplit(ps, mask).teamA| == k
    ensures |MaskSplit(ps, mask).teamB| == |ps| - k
  {
    MaskSplitPartition(ps, mask);
  }

  lemma MaskSplitPartition<T>(ps: seq<T>, mask: nat)
    ensures var s := MaskSplit(ps, mask);
      && multiset(s.teamA) + multiset(s.teamB) == multiset(ps)
      && |s.teamA| + |s.teamB| == |ps|
      && |s.teamA| == CountSet(Bits(mask, |ps|))
  {
    SidePartition(ps, Bits(mask, |ps|));
  }

  /** The exact branch for an even roster of at least two and at most ten:
      its answer is the split of a mask `m` with two equal teams, no
      equal-size mask has a smaller difference, every smaller equal-size
      mask has a strictly larger one, and that answer is what
      `BalanceTeams` returns. */
  lemma ExactSpec<T>(ps: seq<T>, score: T -> int) returns (m: nat)
    requires |ps| % 2 == 0 && 2 <= |ps| <= ExactLimit
    ensures m < Pow2(|ps|) && MaskCost(ps, score, m).Some?
    ensures var s := MaskSplit(ps, m);
      && |s.teamA| == |s.teamB| == |ps| / 2
      && multiset(s.teamA) + multiset(s.teamB) == multiset(ps)
      && BalanceTeams(ps, score) == s
    ensures forall m' :: 0 <= m' < Pow2(|ps|) && MaskCost(ps, score, m').Some? ==>
      MaskCost(ps, score, m).value <= MaskCost(ps, score, m').value
    ensures forall m' :: 0 <= m' < m && MaskCost(ps, score, m').Some? ==>
      MaskCost(ps, score, m).value < MaskCost(ps, score, m').value
  {
    var costs := MaskCosts(ps, score);
    var half := Pow2(|ps| / 2) - 1;
    HalfMaskEqual(ps, score, half);
    assert costs[half].Some?;
    ScanSpec(costs, None);
    m := Scan(costs, None).value;
    MaskSplitPartition(ps, m);
    forall m' | 0 <= m' < Pow2(|ps|) && MaskCost(ps, score, m').Some?
      ensures MaskCost(ps, score, m).value <= MaskCost(ps, score, m').value
    {
      assert costs[m'] == MaskCost(ps, score, m');
    }
    forall m' | 0 <= m' < m && MaskCost(ps, score, m').Some?
      ensures MaskCost(ps, score, m).value < MaskCost(ps, score, m').value
    {
      assert costs[m'] == MaskCost(ps, score, m');
    }
  }

  /** A split the exact branch returns has two teams of equal size that
      partition the roster. */
  lemma ExactBalanced<T>(ps: seq<T>, score: T -> int)
    ensures Exact(ps, score).Some? ==>
      var s := Exact(ps, score).value;
      && |s.teamA| == |s.teamB|
      && |s.teamA| + |s.teamB| == |ps|
      && multiset(s.teamA) + multiset(s.teamB) == multiset(ps)
  {
    var costs := MaskCosts(ps, score);
    var r := Scan(costs, None);
    if r.Some? {
      assert costs[r.value] == MaskCost(ps, score, r.value);
      MaskSplitPartition(ps, r.value);
    }
  }

  /** An odd roster, an empty one and one of more than ten players are all
      split greedily: no mask gives equal teams, the only one gives an empty
      team A, or the exact branch is skipped. */
  lemma FallsBackToGreedy<T>(ps: seq<T>, score: T -> int)
    requires |ps| % 2 == 1 || |ps| == 0 || |ps| > ExactLimit
    ensures BalanceTeams(ps, score) == GreedySplit(ps, score)
  {
    if |ps| <= ExactLimit {
      NoUsableExact(ps, score);
    }
  }

  /** For an odd or empty roster the exact branch finds nothing or an empty
      team A. */
  lemma NoUsableExact<T>(ps: seq<T>, score: T -> int)
    requires |ps| % 2 == 1 || |ps| == 0
    ensures Exact(ps, score).None? || |Exact(ps, score).value.teamA| == 0
  {
    ExactBalanced(ps, score);
  }

  /** The greedy loop keeps both teams' sums and partitions its input; with
      scores in `0..bound` the two sums never differ by more than `bound`. */
  lemma GreedyRunSpec<T>(arr: seq<T>, score: T -> int, bound: int)
    ensures var g := GreedyRun(arr, score);
      && g.sumA == SumBy(g.teamA, score) && g.sumB == SumBy(g.teamB, score)
      && multiset(g.teamA) + multiset(g.teamB) == multiset(arr)
    ensures bound >= 0 && (forall i :: 0 <= i < |arr| ==> 0 <= score(arr[i]) <= bound) ==>
      Abs(GreedyRun(arr, score).sumA - GreedyRun(arr, score).sumB) <= bound
  {
    GreedyRunSums(arr, score);
    if bound >= 0 && (forall i :: 0 <= i < |arr| ==> 0 <= score(arr[i]) <= bound) {
      GreedyRunGap(arr, score, bound);
    }
  }

  lemma {:induction false} GreedyRunSums<T>(arr: seq<T>, score: T -> int)
    ensures var g := GreedyRun(arr, score);
      && g.sumA == SumBy(g.teamA, score) && g.sumB == SumBy(g.teamB, score)
      && multiset(g.teamA) + multiset(g.teamB) == multiset(arr)
  {
    if |arr| > 0 {
      var front, x := arr[..|arr| - 1], arr[|arr| - 1];
      GreedyRunSums(front, score);
      GreedyAddKeeps(GreedyRun(front, score), x, score);
      MultisetSnoc(arr);
    } else {
      assert Keys([], score) == [];
    }
  }

  /** A pass adds the player to exactly one team and to that team's sum. */
  lemma GreedyAddKeeps<T>(g: Greedy<T>, x: T, score: T -> int)
    requires g.sumA == SumBy(g.teamA, score) && g.sumB == SumBy(g.teamB, score)
    ensures var g' := GreedyAdd(g, x, score);
      && g'.sumA == SumBy(g'.teamA, score) && g'.sumB == SumBy(g'.teamB, score)
      && multiset(g'.teamA) + multiset(g'.teamB) == multiset(g.teamA) + multiset(g.teamB) + multiset{x}
  {
    SumBySingle(x, score);
    if g.sumA <= g.sumB {
      SumByAppend(g.teamA, [x], score);
    } else {
      SumByAppend(g.teamB, [x], score);
    }
  }

  lemma {:induction false} GreedyRunGap<T>(arr: seq<T>, score: T -> int, bound: int)
    requires bound >= 0 && forall i :: 0 <= i < |arr| ==> 0 <= score(arr[i]) <= bound
    ensures Abs(GreedyRun(arr, score).sumA - GreedyRun(arr, score).sumB) <= bound
  {
    if |arr| > 0 {
      var front := arr[..|arr| - 1];
      assert forall i :: 0 <= i < |front| ==> front[i] == arr[i];
      GreedyRunGap(front, score, bound);
      assert 0 <= score(arr[|arr| - 1]) <= bound;
    }
  }

  /** The greedy split partitions the roster; with non-negative scores at
      most `bound` its team sums differ by at most `bound`. */
  lemma GreedySpec<T>(ps: seq<T>, score: T -> int, bound: int)
    requires bound >= 0 && forall i :: 0 <= i < |ps| ==> 0 <= score(ps[i]) <= bound
    ensures var s := GreedySplit(ps, score);
      && multiset(s.teamA) + multiset(s.teamB) == multiset(ps)
      && Abs(SumBy(s.teamA, score) - SumBy(s.teamB, score)) <= bound
  {
    var arr := SortDescBy(ps, score);
    forall i | 0 <= i < |arr|
      ensures 0 <= score(arr[i]) <= bound
    {
      assert arr[i] in multiset(ps);
    }
    GreedyRunSpec(arr, score, bound);
  }

  // ---------------------------------------------------------------------
  // Example
  // ---------------------------------------------------------------------

  function Identity(x: int): int
  {
    x
  }

  /** Scores 1500, 1300, 1200, 1000: the first mask with the least
      difference puts the middle two together. */
  lemma FourPlayerExample(ps: seq<int>)
    requires ps == [1500, 1300, 1200, 1000]
    ensures BalanceTeams(ps, Identity) == Split([1300, 1200], [1500, 1000])
  {
    var m := ExactSpec(ps, Identity);
    ExampleSmallPowers();
    ExampleUnequal();
    ExampleEqual();
    MaskCostNonNegative(ps, Identity, m);
    assert MaskCost(ps, Identity, m).value <= MaskCost(ps, Identity, 6).value;
    OnlyZeroCost(ps, m);
  }

  /** In the example the first mask of cost 0 is mask 6: masks 0, 1, 2
      and 4 are infeasible and masks 3 and 5 cost more. */
  lemma OnlyZeroCost(ps: seq<int>, m: nat)
    requires MaskCost(ps, Identity, 0).None? && MaskCost(ps, Identity, 1).None?
    requires MaskCost(ps, Identity, 2).None? && MaskCost(ps, Identity, 4).None?
    requires MaskCost(ps, Identity, 3) == Some(600) && MaskCost(ps, Identity, 5) == Some(400)
    requires MaskCost(ps, Identity, 6) == Some(0)
    requires MaskCost(ps, Identity, m).Some? && 0 <= MaskCost(ps, Identity, m).value <= 0
    requires forall m' :: 0 <= m' < m && MaskCost(ps, Identity, m').Some? ==>
      MaskCost(ps, Identity, m).value < MaskCost(ps, Identity, m').value
    ensures m == 6
  {
  }

  lemma MaskCostNonNegative<T>(ps: seq<T>, score: T -> int, mask: nat)
    ensures MaskCost(ps, score, mask).Some? ==> MaskCost(ps, score, mask).value >= 0
  {
  }

  lemma ExampleSmallPowers()
    ensures Pow2(0) == 1 && Pow2(1) == 2 && Pow2(2) == 4 && Pow2(3) == 8 && Pow2(4) == 16
  {
  }

  lemma ExampleBits()
    ensures Bits(0, 4) == [false, false, false, false]
    ensures Bits(1, 4) == [true, false, false, false]
    ensures Bits(2, 4) == [false, true, false, false]
    ensures Bits(3, 4) == [true, true, false, false]
    ensures Bits(4, 4) == [false, false, true, false]
    ensures Bits(5, 4) == [true, false, true, false]
    ensures Bits(6, 4) == [false, true, true, false]
  {
    ExampleSmallPowers();
  }

  /** Masks 0, 1, 2 and 4 give teams of different sizes. */
  lemma ExampleUnequal()
    ensures var ps := [1500, 1300, 1200, 1000];
      && MaskCost(ps, Identity, 0).None? && MaskCost(ps, Identity, 1).None?
      && MaskCost(ps, Identity, 2).None? && MaskCost(ps, Identity, 4).None?
  {
    var ps := [1500, 1300, 1200, 1000];
    ExampleBits();
    Side4(ps, Bits(0, 4), true);
    Side4(ps, Bits(0, 4), false);
    Side4(ps, Bits(1, 4), true);
    Side4(ps, Bits(1, 4), false);
    Side4(ps, Bits(2, 4), true);
    Side4(ps, Bits(2, 4), false);
    Side4(ps, Bits(4, 4), true);
    Side4(ps, Bits(4, 4), false);
  }

  /** Masks 3, 5 and 6 give two against two, with differences 600, 400
      and 0. */
  lemma ExampleEqual()
    ensures var ps := [1500, 1300, 1200, 1000];
      && MaskCost(ps, Identity, 3) == Some(600) && MaskCost(ps, Identity, 5) == Some(400)
      && MaskCost(ps, Identity, 6) == Some(0)
      && MaskSplit(ps, 6) == Split([1300, 1200], [1500, 1000])
  {
    ExampleMask([1500, 1300], [1200, 1000], 3);
    ExampleMask([1500, 1200], [1300, 1000], 5);
    ExampleMask([1300, 1200], [1500, 1000], 6);
  }

  lemma ExampleMask(a: seq<int>, b: seq<int>, mask: nat)
    requires |a| == 2 && |b| == 2 && mask in {3, 5, 6}
    requires mask == 3 ==> a == [1500, 1300] && b == [1200, 1000]
    requires mask == 5 ==> a == [1500, 1200] && b == [1300, 1000]
    requires mask == 6 ==> a == [1300, 1200] && b == [1500, 1000]
    ensures var ps := [1500, 1300, 1200, 1000];
      && MaskSplit(ps, mask) == Split(a, b)
      && MaskCost(ps, Identity, mask) == Some(Abs(a[0] + a[1] - b[0] - b[1]))
  {
    var ps := [1500, 1300, 1200, 1000];
    ExampleBits();
    Side4(ps, Bits(mask, 4), true);
    Side4(ps, Bits(mask, 4), false);
    PairSum(a[0], a[1]);
    PairSum(b[0], b[1]);
    assert a == [a[0], a[1]] && b == [b[0], b[1]];
  }

  /** The sides of a four-player roster, position by position. */
  lemma Side4<T>(ps: seq<T>, mask: seq<bool>, keep: bool)
    requires |ps| == 4 && |mask| == 4
    ensures Side(ps, mask, keep) ==
      (if mask[0] == keep then [ps[0]] else []) + ((if mask[1] == keep then [ps[1]] else []) +
      ((if mask[2] == keep then [ps[2]] else []) + (if mask[3] == keep then [ps[3]] else [])))
  {
    SideAt(ps, mask, keep, 0);
    SideAt(ps, mask, keep, 1);
    SideAt(ps, mask, keep, 2);
    SideAt(ps, mask, keep, 3);
    assert ps[0..] == ps && mask[0..] == mask;
    assert Side(ps[4..], mask[4..], keep) == [];
  }

  /** The side of a suffix takes its first player when the flag matches,
      then walks the rest. */
  lemma SideAt<T>(xs: seq<T>, mask: seq<bool>, keep: bool, i: nat)
    requires |xs| == |mask| && i < |xs|
    ensures Side(xs[i..], mask[i..], keep) ==
      (if mask[i] == keep then [xs[i]] else []) + Side(xs[i + 1..], mask[i + 1..], keep)
  {
    assert xs[i..][1..] == xs[i + 1..] && mask[i..][1..] == mask[i + 1..];
  }

  lemma PairSum(a: int, b: int)
    ensures SumBy([a, b], Identity) == a + b
  {
    var k := Keys([a, b], Identity);
    assert k[0] == a && k[1] == b && |k| == 2;
    assert k == [a, b];
    assert Sum([a, b]) == a + Sum([b]);
    assert Sum([b]) == b + Sum([]);
  }
}

=== FILE: tally.dfy ===
/** The first pass over a player's recent match details: skip unwanted
    queues, and for the player's own participant row count champions, lanes
    and ranked results; the web app also collects every participant id it
    sees. Both Go entry points run the same loop body. They differ on a
    detail fetch that errors: the web app passes over it, while the
    command-line tool ends the whole run (`CliTallyMatches`).

    A Go `map[K]int` counter is modelled as a list of bins in first-insertion
    order. Go's map has no order; everything the rest of the model reads off
    a counter is either a lookup or a descending sort whose tie order is left
    open, so the insertion order carries no meaning.
 */
module Tally {
  import opened Common

  datatype Participant = Participant(puuid: string, championId: int, teamPosition: string, win: bool)

  datatype MatchDetail = MatchDetail(queueId: int, participants: seq<Participant>)

  /** One entry of a counter: a key and how often it was counted. */
  datatype Bin<K> = Bin(key: K, count: int)

  const RankedSoloQueue := 420
  const UnknownLane := "UNKNOWN"

  // ---------------------------------------------------------------------
  // Counters
  // ---------------------------------------------------------------------

  /** `m[k]`: the count of `k`, or the map's zero value 0. */
  function Lookup<K(==,!new)>(bins: seq<Bin<K>>, k: K): int
  {
    if |bins| == 0 then 0
    else if bins[0].key == k then bins[0].count
    else Lookup(bins[1..], k)
  }

  ghost predicate DistinctKeys<K>(bins: seq<Bin<K>>)
  {
    forall i, j :: 0 <= i < j < |bins| ==> bins[i].key != bins[j].key
  }

  ghost predicate PositiveCounts<K>(bins: seq<Bin<K>>)
  {
    forall i :: 0 <= i < |bins| ==> bins[i].count > 0
  }

  /** `m[k]++`. */
  function Bump<K(==,!new)>(bins: seq<Bin<K>>, k: K): (r: seq<Bin<K>>)
    ensures Lookup(r, k) == Lookup(bins, k) + 1
    ensures forall k' :: k' != k ==> Lookup(r, k') == Lookup(bins, k')
  {
    if |bins| == 0 then [Bin(k, 1)]
    else if bins[0].key == k then [Bin(k, bins[0].count + 1)] + bins[1..]
    else [bins[0]] + Bump(bins[1..], k)
  }

  /** Bumping adds no key but `k`, keeps keys distinct and counts positive. */
  lemma {:induction false} BumpKeys<K(!new)>(bins: seq<Bin<K>>, k: K)
    ensures forall x :: x in BinKeys(Bump(bins, k)) ==> x == k || x in BinKeys(bins)
    ensures DistinctKeys(bins) ==> DistinctKeys(Bump(bins, k))
    ensures PositiveCounts(bins) ==> PositiveCounts(Bump(bins, k))
  {
    var r := Bump(bins, k);
    if |bins| == 0 {
    } else if bins[0].key == k {
      assert BinKeys(r) == [k] + BinKeys(bins[1..]);
      assert BinKeys(bins) == [k] + BinKeys(bins[1..]);
    } else {
      BumpKeys(bins[1..], k);
      var rest := Bump(bins[1..], k);
      assert r == [bins[0]] + rest;
      assert BinKeys(r) == [bins[0].key] + BinKeys(rest);
      assert BinKeys(bins) == [bins[0].key] + BinKeys(bins[1..]);
      if DistinctKeys(bins) {
        assert bins[0].key !in BinKeys(bins[1..]);
        assert bins[0].key !in BinKeys(rest);
        forall i, j | 0 <= i < j < |r|
          ensures r[i].key != r[j].key
        {
          if i == 0 {
            assert r[j].key == BinKeys(rest)[j - 1];
          } else {
            assert r[i] == rest[i - 1] && r[j] == rest[j - 1];
          }
        }
      }
    }
  }

  function BinKeys<K>(bins: seq<Bin<K>>): seq<K>
  {
    seq(|bins|, i requires 0 <= i < |bins| => bins[i].key)
  }

  /** Counting every element of `xs` in turn. */
  function BumpAll<K(==,!new)>(bins: seq<Bin<K>>, xs: seq<K>): (r: seq<Bin<K>>)
  {
    if |xs| == 0 then bins else Bump(BumpAll(bins, xs[..|xs| - 1]), xs[|xs| - 1])
  }

  /** A counter built from nothing holds exactly the occurrence counts, only
      for keys that occur, each once. */
  lemma {:induction false} HistogramSpec<K(!new)>(xs: seq<K>)
    ensures forall k :: Lookup(BumpAll([], xs), k) == Count(xs, k)
    ensures DistinctKeys(BumpAll([], xs))
    ensures PositiveCounts(BumpAll([], xs))
    ensures forall i :: 0 <= i < |BumpAll([], xs)| ==> BumpAll([], xs)[i].key in xs
  {
    if |xs| > 0 {
      var init := xs[..|xs| - 1];
      HistogramSpec(init);
      assert xs == init + [xs[|xs| - 1]];
      var r := BumpAll([], xs);
      BumpKeys(BumpAll([], init), xs[|xs| - 1]);
      forall i | 0 <= i < |r|
        ensures r[i].key in xs
      {
        if r[i].key != xs[|xs| - 1] {
          var prev := BumpAll([], init);
          assert BinKeys(r)[i] == r[i].key;
          assert r[i].key in BinKeys(prev);
          var j :| 0 <= j < |prev| && BinKeys(prev)[j] == r[i].key;
          assert prev[j].key in init;
        }
      }
    }
  }

  lemma {:induction false} BumpAllAppend<K(!new)>(bins: seq<Bin<K>>, xs: seq<K>, ys: seq<K>)
    ensures BumpAll(bins, xs + ys) == BumpAll(BumpAll(bins, xs), ys)
    decreases |ys|
  {
    if |ys| == 0 {
      assert xs + ys == xs;
    } else {
      assert (xs + ys)[..|xs + ys| - 1] == xs + ys[..|ys| - 1];
      BumpAllAppend(bins, xs, ys[..|ys| - 1]);
    }
  }

  /** In a counter with distinct keys, looking up a bin's key finds that bin. */
  lemma {:induction false} LookupDistinct<K(!new)>(bins: seq<Bin<K>>, i: int)
    requires DistinctKeys(bins) && 0 <= i < |bins|
    ensures Lookup(bins, bins[i].key) == bins[i].count
  {
    if i > 0 {
      assert bins[1..][i - 1] == bins[i];
      LookupDistinct(bins[1..], i - 1);
    }
  }

  // ---------------------------------------------------------------------
  // Go sets of ids
  // ---------------------------------------------------------------------

  /** `set[x] = struct{}{}` for each element in turn, kept in first-seen order. */
  function AddAll(ids: seq<string>, xs: seq<string>): (r: seq<string>)
    ensures forall x :: x in r <==> x in ids || x in xs
    ensures Distinct(ids) ==> Distinct(r)
  {
    if |xs| == 0 then ids
    else
      var prev := AddAll(ids, xs[..|xs| - 1]);
      var x := xs[|xs| - 1];
      assert xs == xs[..|xs| - 1] + [x];
      if x in prev then prev else prev + [x]
  }

  lemma {:induction false} AddAllAppend(ids: seq<string>, xs: seq<string>, ys: seq<string>)
    ensures AddAll(ids, xs + ys) == AddAll(AddAll(ids, xs), ys)
    decreases |ys|
  {
    if |ys| == 0 {
      assert xs + ys == xs;
    } else {
      assert (xs + ys)[..|xs + ys| - 1] == xs + ys[..|ys| - 1];
      AddAllAppend(ids, xs, ys[..|ys| - 1]);
    }
  }

  // ---------------------------------------------------------------------
  // The details pass, as the loop does it
  // ---------------------------------------------------------------------

  datatype Tally = Tally(
    championCount: seq<Bin<int>>,
    laneCount: seq<Bin<string>>,
    rankedCount: int,
    rankedWin: int,
    puuids: seq<string>)

  const Fresh := Tally([], [], 0, 0, [])

  /** Arena (1700), quick play (490) and ARAM (450) are skipped first; then
      only normal (400, 430) and ranked solo (420) games are counted. */
  predicate Tallied(queue: int)
  {
    if queue == 1700 || queue == 490 || queue == 450 then false
    else queue == 400 || queue == 430 || queue == 420
  }

  /** An empty team position is counted as "UNKNOWN". */
  function LaneOf(p: Participant): (lane: string)
    ensures lane != ""
    ensures p.teamPosition != "" ==> lane == p.teamPosition
  {
    if p.teamPosition == "" then UnknownLane else p.teamPosition
  }

  /** One participant row of a counted match. `collect` is the web app's
      `puuidSet[p.PUUID] = struct{}{}`, done for every row. */
  function Visit(t: Tally, p: Participant, queue: int, me: string, collect: bool): Tally
  {
    var ids := if collect then AddAll(t.puuids, [p.puuid]) else t.puuids;
    if p.puuid != me then t.(puuids := ids)
    else
      var ranked := queue == RankedSoloQueue;
      Tally(
        Bump(t.championCount, p.championId),
        Bump(t.laneCount, LaneOf(p)),
        t.rankedCount + (if ranked then 1 else 0),
        t.rankedWin + (if ranked && p.win then 1 else 0),
        ids)
  }

  function VisitAll(t: Tally, ps: seq<Participant>, queue: int, me: string, collect: bool): Tally
  {
    if |ps| == 0 then t
    else Visit(VisitAll(t, ps[..|ps| - 1], queue, me, collect), ps[|ps| - 1], queue, me, collect)
  }

  /** One round of the details loop: a counted match visits its
      participants, anything else leaves the tally as it is. */
  function TallyStep(t: Tally, d: Option<MatchDetail>, me: string, collect: bool): Tally
  {
    if d.Some? && Tallied(d.value.queueId) then
      VisitAll(t, d.value.participants, d.value.queueId, me, collect)
    else t
  }

  /** The details loop over the fetched matches, in order. `None` is a match
      the loop `continue`s past: in the web app one whose fetch failed,
      answered other than 200 or did not decode; in the command-line tool
      only one with no response (the SKIP setting), a non-200 status or a
      failed decode, since there a fetch error ends the run. */
  function TallyMatches(ds: seq<Option<MatchDetail>>, me: string, collect: bool): Tally
  {
    if |ds| == 0 then Fresh
    else TallyStep(TallyMatches(ds[..|ds| - 1], me, collect), ds[|ds| - 1], me, collect)
  }

  // ---------------------------------------------------------------------
  // The command-line tool's details loop
  // ---------------------------------------------------------------------

  /** How one detail fetch of the command-line tool ends: a decoded match;
      one it `continue`s past (no response under SKIP, a non-200 status, a
      failed decode); or a request error, on which it calls `log.Fatalf`. */
  datatype CliFetch = Decoded(detail: MatchDetail) | Skipped | Aborted

  /** What the shared loop sees of a fetch that does not end the run. */
  function Outcome(f: CliFetch): Option<MatchDetail>
  {
    if f.Decoded? then Some(f.detail) else None
  }

  function Outcomes(fs: seq<CliFetch>): (ds: seq<Option<MatchDetail>>)
    ensures |ds| == |fs|
  {
    seq(|fs|, i requires 0 <= i < |fs| => Outcome(fs[i]))
  }

  predicate Aborts(fs: seq<CliFetch>)
  {
    exists i :: 0 <= i < |fs| && fs[i].Aborted?
  }

  /** The command-line tool's first details pass: it collects no ids, and
      the first fetch that errors ends the run, leaving no tally. */
  function CliTallyMatches(fs: seq<CliFetch>, me: string): Option<Tally>
  {
    if |fs| == 0 then Some(Fresh)
    else
      var prev := CliTallyMatches(fs[..|fs| - 1], me);
      var f := fs[|fs| - 1];
      if prev.None? || f.Aborted? then None
      else Some(TallyStep(prev.value, Outcome(f), me, false))
  }

  /** Splitting off the last fetch: the run aborts when an earlier fetch or
      the last one does, and the outcomes extend by the last one's. */
  lemma CliLast(fs: seq<CliFetch>)
    requires |fs| > 0
    ensures Aborts(fs) <==> Aborts(fs[..|fs| - 1]) || fs[|fs| - 1].Aborted?
    ensures Outcomes(fs)[..|fs| - 1] == Outcomes(fs[..|fs| - 1])
  {
    var init := fs[..|fs| - 1];
    if Aborts(fs) && !fs[|fs| - 1].Aborted? {
      var i :| 0 <= i < |fs| && fs[i].Aborted?;
      assert init[i] == fs[i];
    }
    if Aborts(init) {
      var i :| 0 <= i < |init| && init[i].Aborted?;
      assert fs[i] == init[i];
    }
  }

  /** The command-line tool's pass ends the run exactly when some fetch
      errors; otherwise it tallies what the web app's loop would, with the
      skipped fetches passed over and no ids collected. */
  lemma {:induction false} CliTallySpec(fs: seq<CliFetch>, me: string)
    ensures CliTallyMatches(fs, me).None? <==> Aborts(fs)
    ensures !Aborts(fs) ==> CliTallyMatches(fs, me) == Some(TallyMatches(Outcomes(fs), me, false))
    decreases |fs|
  {
    if |fs| > 0 {
      var init := fs[..|fs| - 1];
      CliTallySpec(init, me);
      CliLast(fs);
      var ds := Outcomes(fs);
      assert ds[|fs| - 1] == Outcome(fs[|fs| - 1]);
      assert ds[..|ds| - 1] == Outcomes(init);
    }
  }

  // ---------------------------------------------------------------------
  // The same tallies, stated as filters
  // ---------------------------------------------------------------------

  /** The matches that are counted. */
  function Counted(ds: seq<Option<MatchDetail>>): seq<MatchDetail>
  {
    if |ds| == 0 then []
    else
      var d := ds[|ds| - 1];
      var init := Counted(ds[..|ds| - 1]);
      if d.Some? && Tallied(d.value.queueId) then init + [d.value] else init
  }

  /** The player's own rows of one match. */
  function Own(ps: seq<Participant>, me: string): seq<Participant>
  {
    if |ps| == 0 then []
    else
      var init := Own(ps[..|ps| - 1], me);
      if ps[|ps| - 1].puuid == me then init + [ps[|ps| - 1]] else init
  }

  /** The player's own rows across matches. */
  function OwnRows(ms: seq<MatchDetail>, me: string): seq<Participant>
  {
    if |ms| == 0 then [] else OwnRows(ms[..|ms| - 1], me) + Own(ms[|ms| - 1].participants, me)
  }

  /** The player's own rows in ranked solo matches. */
  function RankedRows(ms: seq<MatchDetail>, me: string): seq<Participant>
  {
    if |ms| == 0 then []
    else
      var m := ms[|ms| - 1];
      RankedRows(ms[..|ms| - 1], me) + (if m.queueId == RankedSoloQueue then Own(m.participants, me) else [])
  }

  /** Every participant id of the matches, in order, with repeats. */
  function AllIds(ms: seq<MatchDetail>): seq<string>
  {
    if |ms| == 0 then [] else AllIds(ms[..|ms| - 1]) + Ids(ms[|ms| - 1].participants)
  }

  function Ids(ps: seq<Participant>): seq<string>
  {
    seq(|ps|, i requires 0 <= i < |ps| => ps[i].puuid)
  }

  function Lanes(rows: seq<Participant>): seq<string>
  {
    seq(|rows|, i requires 0 <= i < |rows| => LaneOf(rows[i]))
  }

  function Champions(rows: seq<Participant>): seq<int>
  {
    seq(|rows|, i requires 0 <= i < |rows| => rows[i].championId)
  }

  /** Number of rows that are wins. */
  function Wins(rows: seq<Participant>): (n: nat)
    ensures n <= |rows|
  {
    if |rows| == 0 then 0 else Wins(rows[..|rows| - 1]) + (if rows[|rows| - 1].win then 1 else 0)
  }

  lemma {:induction false} WinsAppend(a: seq<Participant>, b: seq<Participant>)
    ensures Wins(a + b) == Wins(a) + Wins(b)
    decreases |b|
  {
    if |b| == 0 {
      assert a + b == a;
    } else {
      assert (a + b)[..|a + b| - 1] == a + b[..|b| - 1];
      WinsAppend(a, b[..|b| - 1]);
    }
  }

  // ---------------------------------------------------------------------
  // The loop agrees with the filters
  // ---------------------------------------------------------------------

  /** One match's rows: the counters count the player's own rows. */
  lemma {:induction false} VisitAllCounters(t: Tally, ps: seq<Participant>, queue: int, me: string, collect: bool)
    ensures VisitAll(t, ps, queue, me, collect).championCount == BumpAll(t.championCount, Champions(Own(ps, me)))
    ensures VisitAll(t, ps, queue, me, collect).laneCount == BumpAll(t.laneCount, Lanes(Own(ps, me)))
    decreases |ps|
  {
    if |ps| > 0 {
      var init, p := ps[..|ps| - 1], ps[|ps| - 1];
      VisitAllCounters(t, init, queue, me, collect);
      var own := Own(init, me);
      if p.puuid == me {
        assert Own(ps, me) == own + [p];
        assert Champions(own + [p]) == Champions(own) + [p.championId];
        assert Lanes(own + [p]) == Lanes(own) + [LaneOf(p)];
        BumpAllAppend(t.championCount, Champions(own), [p.championId]);
        BumpAllAppend(t.laneCount, Lanes(own), [LaneOf(p)]);
        assert [p.championId][..0] == [];
        assert [LaneOf(p)][..0] == [];
      }
    }
  }

  /** One match's rows: ranked tallies move only in a queue-420 match. */
  lemma {:induction false} VisitAllRanked(t: Tally, ps: seq<Participant>, queue: int, me: string, collect: bool)
    ensures VisitAll(t, ps, queue, me, collect).rankedCount == t.rankedCount + (if queue == RankedSoloQueue then |Own(ps, me)| else 0)
    ensures VisitAll(t, ps, queue, me, collect).rankedWin == t.rankedWin + (if queue == RankedSoloQueue then Wins(Own(ps, me)) else 0)
    decreases |ps|
  {
    if |ps| > 0 {
      var init, p := ps[..|ps| - 1], ps[|ps| - 1];
      VisitAllRanked(t, init, queue, me, collect);
      var own := Own(init, me);
      if p.puuid == me {
        assert Own(ps, me) == own + [p];
        WinsAppend(own, [p]);
        assert Wins([p]) == (if p.win then 1 else 0);
      }
    }
  }

  /** One match's rows: the id set gains every participant id. */
  lemma {:induction false} VisitAllIds(t: Tally, ps: seq<Participant>, queue: int, me: string, collect: bool)
    ensures VisitAll(t, ps, queue, me, collect).puuids == (if collect then AddAll(t.puuids, Ids(ps)) else t.puuids)
    decreases |ps|
  {
    if |ps| > 0 {
      var init, p := ps[..|ps| - 1], ps[|ps| - 1];
      VisitAllIds(t, init, queue, me, collect);
      assert Ids(ps) == Ids(init) + [p.puuid];
      AddAllAppend(t.puuids, Ids(init), [p.puuid]);
    }
  }

  /** The details loop counts, in its champion counter, exactly the
      champions of the player's own rows in counted matches. */
  lemma {:induction false} TallyChampions(ds: seq<Option<MatchDetail>>, me: string, collect: bool)
    ensures TallyMatches(ds, me, collect).championCount == BumpAll([], Champions(OwnRows(Counted(ds), me)))
    decreases |ds|
  {
    if |ds| > 0 {
      var init, d := ds[..|ds| - 1], ds[|ds| - 1];
      TallyChampions(init, me, collect);
      if d.Some? && Tallied(d.value.queueId) {
        var m, t := d.value, TallyMatches(init, me, collect);
        var own0, own := OwnRows(Counted(init), me), Own(m.participants, me);
        CountedStep(ds, me, collect);
        OwnRowsStep(Counted(init), m, me);
        VisitAllCounters(t, m.participants, m.queueId, me, collect);
        ChampionsAppend(own0, own);
        BumpAllAppend([], Champions(own0), Champions(own));
      }
    }
  }

  /** The lane counter likewise holds the lanes of those rows. */
  lemma {:induction false} TallyLanes(ds: seq<Option<MatchDetail>>, me: string, collect: bool)
    ensures TallyMatches(ds, me, collect).laneCount == BumpAll([], Lanes(OwnRows(Counted(ds), me)))
    decreases |ds|
  {
    if |ds| > 0 {
      var init, d := ds[..|ds| - 1], ds[|ds| - 1];
      TallyLanes(init, me, collect);
      if d.Some? && Tallied(d.value.queueId) {
        var m, t := d.value, TallyMatches(init, me, collect);
        var own0, own := OwnRows(Counted(init), me), Own(m.participants, me);
        CountedStep(ds, me, collect);
        OwnRowsStep(Counted(init), m, me);
        VisitAllCounters(t, m.participants, m.queueId, me, collect);
        LanesAppend(own0, own);
        BumpAllAppend([], Lanes(own0), Lanes(own));
      }
    }
  }

  /** A counted last match is visited by the loop and appended to the
      counted matches. */
  lemma CountedStep(ds: seq<Option<MatchDetail>>, me: string, collect: bool)
    requires |ds| > 0 && ds[|ds| - 1].Some? && Tallied(ds[|ds| - 1].value.queueId)
    ensures var init, m := ds[..|ds| - 1], ds[|ds| - 1].value;
      && Counted(ds) == Counted(init) + [m]
      && TallyMatches(ds, me, collect) == VisitAll(TallyMatches(init, me, collect), m.participants, m.queueId, me, collect)
  {
  }

  lemma OwnRowsStep(ms: seq<MatchDetail>, m: MatchDetail, me: string)
    ensures OwnRows(ms + [m], me) == OwnRows(ms, me) + Own(m.participants, me)
  {
    assert (ms + [m])[..|ms|] == ms;
  }

  lemma ChampionsAppend(a: seq<Participant>, b: seq<Participant>)
    ensures Champions(a + b) == Champions(a) + Champions(b)
  {
  }

  lemma LanesAppend(a: seq<Participant>, b: seq<Participant>)
    ensures Lanes(a + b) == Lanes(a) + Lanes(b)
  {
  }

  /** The ranked tallies count the player's own rows in counted queue-420
      matches, and the wins among them. */
  lemma {:induction false} TallyRanked(ds: seq<Option<MatchDetail>>, me: string, collect: bool)
    ensures TallyMatches(ds, me, collect).rankedCount == |RankedRows(Counted(ds), me)|
    ensures TallyMatches(ds, me, collect).rankedWin == Wins(RankedRows(Counted(ds), me))
    decreases |ds|
  {
    if |ds| > 0 {
      var init, d := ds[..|ds| - 1], ds[|ds| - 1];
      TallyRanked(init, me, collect);
      if d.Some? && Tallied(d.value.queueId) {
        var m, ms0 := d.value, Counted(init);
        var t0 := TallyMatches(init, me, collect);
        assert TallyMatches(ds, me, collect) == VisitAll(t0, m.participants, m.queueId, me, collect);
        assert Counted(ds) == ms0 + [m];
        assert (ms0 + [m])[..|ms0|] == ms0;
        VisitAllRanked(t0, m.participants, m.queueId, me, collect);
        var extra := if m.queueId == RankedSoloQueue then Own(m.participants, me) else [];
        assert RankedRows(ms0 + [m], me) == RankedRows(ms0, me) + extra;
        WinsAppend(RankedRows(ms0, me), extra);
      }
    }
  }

  /** With `collect`, the id set is every participant id of a counted match,
      in first-seen order; without it, nothing is collected. */
  lemma {:induction false} TallyIds(ds: seq<Option<MatchDetail>>, me: string, collect: bool)
    ensures TallyMatches(ds, me, collect).puuids == (if collect then AddAll([], AllIds(Counted(ds))) else [])
    decreases |ds|
  {
    if |ds| > 0 {
      var init, d := ds[..|ds| - 1], ds[|ds| - 1];
      TallyIds(init, me, collect);
      if d.Some? && Tallied(d.value.queueId) {
        var m, ms0 := d.value, Counted(init);
        assert (ms0 + [m])[..|ms0|] == ms0;
        VisitAllIds(TallyMatches(init, me, collect), m.participants, m.queueId, me, collect);
        assert AllIds(ms0 + [m]) == AllIds(ms0) + Ids(m.participants);
        AddAllAppend([], AllIds(ms0), Ids(m.participants));
      }
    }
  }

  /** Reading the counters: `laneCount[k]` and `championCount[c]` are the
      occurrence counts among the player's own counted rows (an empty
      position read as "UNKNOWN"); each counter names every key once. */
  lemma CountersCount(ds: seq<Option<MatchDetail>>, me: string, collect: bool)
    ensures var t := TallyMatches(ds, me, collect);
      var own := OwnRows(Counted(ds), me);
      && (forall lane :: Lookup(t.laneCount, lane) == Count(Lanes(own), lane))
      && (forall c :: Lookup(t.championCount, c) == Count(Champions(own), c))
      && DistinctKeys(t.laneCount) && PositiveCounts(t.laneCount)
      && DistinctKeys(t.championCount) && PositiveCounts(t.championCount)
      && Lookup(t.laneCount, "") == 0
  {
    TallyChampions(ds, me, collect);
    TallyLanes(ds, me, collect);
    var own := OwnRows(Counted(ds), me);
    HistogramSpec(Lanes(own));
    HistogramSpec(Champions(own));
    assert "" !in Lanes(own);
  }

  /** Ranked wins never exceed ranked games, which never exceed the player's
      own counted rows; when the player appears at most once per match, that
      is at most the number of counted matches. */
  lemma {:induction false} RankedBounds(ms: seq<MatchDetail>, me: string)
    ensures Wins(RankedRows(ms, me)) <= |RankedRows(ms, me)| <= |OwnRows(ms, me)|
    ensures (forall m :: m in ms ==> |Own(m.participants, me)| <= 1) ==> |OwnRows(ms, me)| <= |ms|
    decreases |ms|
  {
    if |ms| > 0 {
      RankedBounds(ms[..|ms| - 1], me);
      assert forall m :: m in ms[..|ms| - 1] ==> m in ms;
    }
  }

  /** The web app's id set holds each participant id of a counted match
      once, the player's own id included when they played one, and nothing
      from a skipped queue or a failed fetch. */
  lemma IdsFromCountedMatches(ds: seq<Option<MatchDetail>>, me: string)
    ensures var ids := TallyMatches(ds, me, true).puuids;
      && Distinct(ids)
      && (forall x :: x in ids <==> x in AllIds(Counted(ds)))
  {
    TallyIds(ds, me, true);
  }

  /** A match from a skipped queue, or one that failed, changes nothing. */
  lemma SkippedMatchIgnored(ds: seq<Option<MatchDetail>>, d: Option<MatchDetail>, me: string, collect: bool)
    requires d.None? || !Tallied(d.value.queueId)
    ensures TallyMatches(ds + [d], me, collect) == TallyMatches(ds, me, collect)
  {
    assert (ds + [d])[..|ds|] == ds;
  }

  /** Exactly queues 400, 430 and 420 are counted. */
  lemma TalliedQueues(queue: int)
    ensures Tallied(queue) <==> queue == 400 || queue == 430 || queue == 420
  {
  }
}

=== FILE: teams.dfy ===
/** Splitting a roster into two teams by a membership mask, the way every
    balancer builds its teams: walk the players in input order and send each
    to team A when its flag is set, to team B otherwise. Also the bit masks
    of the exhaustive Go search and the boolean masks of the Python one.
 */
module Teams {
  import opened Common
  import opened Combos

  /** The players whose flag equals `keep`, in input order. */
  function Side<T>(xs: seq<T>, mask: seq<bool>, keep: bool): seq<T>
    requires |mask| == |xs|
  {
    if |xs| == 0 then []
    else (if mask[0] == keep then [xs[0]] else []) + Side(xs[1..], mask[1..], keep)
  }

  /** Number of set flags. */
  function CountSet(mask: seq<bool>): nat
  {
    if |mask| == 0 then 0 else (if mask[0] then 1 else 0) + CountSet(mask[1..])
  }

  /** The two sides partition the roster: together they hold every player
      exactly once, team A holds one player per set flag and team B the
      rest. */
  lemma {:induction false} SidePartition<T>(xs: seq<T>, mask: seq<bool>)
    requires |mask| == |xs|
    ensures multiset(Side(xs, mask, true)) + multiset(Side(xs, mask, false)) == multiset(xs)
    ensures |Side(xs, mask, true)| == CountSet(mask)
    ensures |Side(xs, mask, false)| == |xs| - CountSet(mask)
  {
    if |xs| > 0 {
      SidePartition(xs[1..], mask[1..]);
      assert xs == [xs[0]] + xs[1..];
    }
  }

  /** Summing a side's scores adds exactly the scores of the players sent
      there. */
  lemma {:induction false} SideSums<T>(xs: seq<T>, mask: seq<bool>, score: T -> int)
    requires |mask| == |xs|
    ensures SumBy(Side(xs, mask, true), score) + SumBy(Side(xs, mask, false), score) == SumBy(xs, score)
  {
    SidePartition(xs, mask);
    SumByPermutation(Side(xs, mask, true) + Side(xs, mask, false), xs, score);
    SumByAppend(Side(xs, mask, true), Side(xs, mask, false), score);
  }

  /** The flag of index `i` set exactly for the members of `c` (Python's
      `team1[list(r)] = True`). */
  function MaskOf(c: seq<int>, n: nat): (m: seq<bool>)
    ensures |m| == n
    ensures forall i :: 0 <= i < n ==> (m[i] <==> i in c)
  {
    seq(n, i requires 0 <= i < n => i in c)
  }

  /** An increasing combination drawn from `0..n-1` sets exactly as many
      flags as it has members. */
  lemma {:induction false} MaskOfCount(c: seq<int>, n: nat)
    requires Increasing(c) && forall x :: x in c ==> 0 <= x < n
    ensures CountSet(MaskOf(c, n)) == |c|
    decreases n
  {
    if n == 0 {
      HeadBounded(c, n);
    } else {
      var last := n - 1;
      var trimmed := |c| > 0 && c[|c| - 1] == last;
      var c' := if trimmed then c[..|c| - 1] else c;
      if |c| > 0 {
        LastIsMax(c);
      }
      forall x | x in c'
        ensures 0 <= x < last
      {
        var q :| 0 <= q < |c'| && c'[q] == x;
        assert c[q] == x && x in c;
        assert c[|c| - 1] in c;
        assert trimmed ==> c[q] < c[|c| - 1];
      }
      assert Increasing(c') by {
        forall p, q | 0 <= p < q < |c'|
          ensures c'[p] < c'[q]
        {
          assert c'[p] == c[p] && c'[q] == c[q];
        }
      }
      MaskOfCount(c', last);
      assert MaskOf(c, n) == MaskOf(c', last) + [last in c] by {
        forall i | 0 <= i < last
          ensures (i in c) == (i in c')
        {
          if i in c {
            var q :| 0 <= q < |c| && c[q] == i;
            assert trimmed ==> c'[q] == i;
          }
          if i in c' {
            var q :| 0 <= q < |c'| && c'[q] == i;
            assert c[q] == i;
          }
        }
      }
      CountSetAppend(MaskOf(c', last), [last in c]);
    }
  }

  /** The head of a sequence drawn from `0..n-1` lies in that range. */
  lemma HeadBounded(c: seq<int>, n: int)
    requires forall x :: x in c ==> 0 <= x < n
    ensures |c| > 0 ==> 0 <= c[0] < n
  {
    if |c| > 0 {
      assert c[0] in c;
    }
  }

  /** The last member of an increasing sequence is its largest. */
  lemma LastIsMax(c: seq<int>)
    requires Increasing(c) && |c| > 0
    ensures forall x :: x in c ==> x <= c[|c| - 1]
  {
    forall x | x in c
      ensures x <= c[|c| - 1]
    {
      var q :| 0 <= q < |c| && c[q] == x;
      assert q < |c| - 1 ==> c[q] < c[|c| - 1];
    }
  }

  lemma {:induction false} CountSetAppend(a: seq<bool>, b: seq<bool>)
    ensures CountSet(a + b) == CountSet(a) + CountSet(b)
  {
    if |a| == 0 {
      assert a + b == b;
    } else {
      assert (a + b)[1..] == a[1..] + b;
      CountSetAppend(a[1..], b);
    }
  }

  /** Bit `i` of a non-negative mask (`mask & (1 << i) != 0`): the lowest
      bit of `mask` shifted right `i` times. */
  function Bit(mask: nat, i: nat): bool
  {
    if i == 0 then mask % 2 == 1 else Bit(mask / 2, i - 1)
  }

  /** The first `n` bits of `mask` as flags. */
  function Bits(mask: nat, n: nat): (m: seq<bool>)
    ensures |m| == n
    ensures forall i :: 0 <= i < n ==> m[i] == Bit(mask, i)
  {
    seq(n, i requires 0 <= i < n => Bit(mask, i))
  }
}
